=== FILE: README.md ===
# Hydration reminder core in Dafny

This project models the decision logic of a hydration-reminder mobile app. The core is:

- **The adaptive reminder planner** (`planNextReminder`). From the day's target, the amount drunk, and the wake, sleep and current instants, it decides:
  - whether a reminder remains today;
  - the pace ratio and its category (behind, on track, ahead);
  - the next interval: a base interval adjusted for pace, with a night taper and a user override;
  - a bounded suggested volume;
  - the next instant.
- **The store actions and selectors** as pure state transformers: the clamped daily goal, today-only intake logs (append, update, delete), settings merges, the learning update, and today's total and progress.
- **The notification schedulers** as pure functions from the device's scheduled-notification store to the store after the call:
  - the adaptive single reminder;
  - the snooze burst;
  - the button-triggered burst with seven morning wake-ups;
  - the fixed-time scheduler and its daily-repeating twin, with the evenly spread reminder times they share;
  - the interval and clock-time formatters;
  - `parseTimeToDate`.
- **The learning engine**: per-hour aggregation, the five busiest hours, the complement of the active hours, frequency tiers, and the merges into preferred times and quiet hours.
- **Smaller libraries**: the lifestyle-template lookup with its fallback, profile construction from form text, and ml/oz conversion with its labels.

## Modelling choices

- **Instants** are integer local milliseconds. The epoch falls on a local midnight, so a day is `Clock.DayMs` long and there are no time zones.
  - `getHours`/`getMinutes` are `Clock.HourOf`/`Clock.MinuteOf`.
  - `toDateString` equality is `Clock.CalendarDay` equality.
- **Numbers.** Volumes and pace are exact reals. `Math.round(x)` is `(x + 1/2).Floor` (`JsMath.Round`).
- **Messages** are sequences of pieces. Literal text is concrete. A JS number rendered inside a message is a `Num(real)` piece, because decimal rendering of non-integers is not modelled. Integers the app pads or formats are concrete strings, and each has a reader proved to invert it.
- **The notification store** is a `seq<Platform.Notification>`:
  - scheduling appends;
  - `cancelAllScheduledNotificationsAsync` empties it;
  - `cancelSnoozeReminders` filters it.
- **Inputs taken as parameters**: the permission answer (`hasPermission`), the clock (`now`, `today`), `Date.now()` ids, `lastUpdated` stamps, and the `Number(...)` parser of the profile form (`parse`).
- **Platform failures.** The schedulers that catch them take the failing request as a parameter:
  - `scheduleFails` for the adaptive reminder;
  - `failAt` for the snooze burst.
- **Behaviour of the code worth noting:**
  - `setUserProfile` recomputes the goal even when it was set manually (`HydrationStore.SetUserProfileDropsOverride`);
  - the daily goal is not rounded, so a fractional weight gives a fractional goal;
  - `scheduleNextReminder` leaves earlier requests in place;
  - `updateLearningData` never changes the stored `learningData` (`HydrationStore.UpdateLearningKeepsLearningData`);
  - the adaptive reminder's title is `💧 水分補給マインダー` (lib/notifications/planning.ts).
- **Behaviour the proofs make explicit:**
  - In a button tap, the morning wake-up de-duplication never skips a day. Everything was cancelled first, and the burst books no wake-up (`Button.ButtonSchedule`).
  - The `high` frequency tier's seven snoozes are capped to the same six requests as `medium` (`Snooze.HighTierIsCapped`).
  - The snooze message fallback is unreachable (`Snooze.BurstEntries`).
  - `adjustScheduleBasedOnLearning` can repeat a preferred time, unlike `improveSchedule` (`LearningEngine.AdjustMayRepeatTimes`, `LearningEngine.ImproveKeepsTimesDistinct`).
  - `getDefaultPersonalizedSettings('active')` falls back to the desk template, because the table is keyed `activeWorker` (`LifestyleTemplates.WorkTypeValueIsNotAKey`).
- **Sort order.** `Object.entries` lists the array-index keys `10`..`23` in ascending order before the keys `00`..`09`, which come in insertion order. `LearningEngine.EntryOrder` models this order, and the stable descending sort starts from it (`LearningEngine.SortIsStable`).

## Model

| member | source | states |
|---|---|---|
| ReminderPlanner.Clamp | lib/reminderPlanner.ts:103-108 | crossed bounds give the lower bound; otherwise the result lies in the bounds and is the value itself when the value does |
| ReminderPlanner.EffectiveNow | lib/reminderPlanner.ts:26 | the effective now is never before wake and is either now or wake |
| ReminderPlanner.DayWindow | lib/reminderPlanner.ts:28-30 | total ≥ 1 minute, elapsed and remaining ≥ 0; remaining is 0 exactly when the effective now has reached sleep; elapsed + remaining = total when the effective now lies in a window of at least a minute |
| ReminderPlanner.BaseInterval | lib/reminderPlanner.ts:45 | the base interval lies in [45, 150]; when unclamped it is the largest whole number of minutes that fits `count` times into the day; count 0 gives 150, a negative count 45 |
| ReminderPlanner.Pace | lib/reminderPlanner.ts:46-47 | pace is 1 when nothing is expected yet, and otherwise times the expected volume gives the consumed volume |
| ReminderPlanner.PaceInterval | lib/reminderPlanner.ts:49-58 | behind gives ⌊0.7·base⌋ (never below 30 for a base of at least 45), ahead gives ⌊1.3·base⌋ capped at 180, on track keeps the base; the floors are stated as integer inequalities |
| ReminderPlanner.NightTaper | lib/reminderPlanner.ts:61-63 | within the last hour the interval becomes ⌊1.1·interval⌋ capped at 180; otherwise it is kept |
| ReminderPlanner.FinalInterval | lib/reminderPlanner.ts:65-69 | a user snooze replaces the interval by max(5, snooze); the final interval is at least 1 |
| ReminderPlanner.UpperBound | lib/reminderPlanner.ts:71-73 | the cap is 250 in the last hour, otherwise 400 exactly when pace < 0.7 and else 350 |
| ReminderPlanner.SuggestVolume | lib/reminderPlanner.ts:70-77 | the suggestion is positive, at most the remainder and the cap, equals the remainder below 120 ml and is at least 120 otherwise; an even share within the bounds is taken as is, one above the cap gives min(cap, remainder), one below min(remainder, 120) gives min(remainder, 120) |
| ReminderPlanner.PlanNextReminder | lib/reminderPlanner.ts:22-101 | remainder is max(target − consumed, 0); a zero remainder or an ended day gives the fixed terminal plan; 0 ≤ suggestion ≤ remainder; the category matches the pace thresholds; a next instant lies strictly between the effective now and sleep at the reported interval, and its suggestion is the clamped even share `SuggestVolume` gives for the remainder, remaining minutes, that interval and the pace; without a snooze that interval is the base interval adjusted for the pace category and tapered in the last hour, with a snooze it is max(5, snooze); with water and time left, a reminder is booked exactly when effective now + that interval falls before sleep, and a terminal plan at sleep suggests the whole remainder |
| ReminderPlanner.MoreIntakeNeverMoreBehind | lib/reminderPlanner.ts:46-58 | with a non-negative target, drinking more never lowers the pace or moves the category towards behind |
| ReminderPlanner.PaceMonotone | lib/reminderPlanner.ts:46-47 | pace is monotone in the consumed volume |
| ReminderPlanner.NowBeforeWakeIsWake | lib/reminderPlanner.ts:26 | planning before wake gives exactly the plan made at wake |
| ReminderPlanner.IntervalFollowsPace | lib/reminderPlanner.ts:45-58 | away from the last hour and without a user snooze, behind gives an interval shorter than the base, ahead a longer one, on track the base itself |
| ReminderPlanner.ScenarioAtWake | lib/reminderPlanner.ts:22-101 | a 2950 ml day from 07:00 to 23:00 with 8 reminders, planned at wake: on track, next reminder in 120 minutes, 350 ml |
| ReminderPlanner.ScenarioBehind | lib/reminderPlanner.ts:22-101 | the same day at 14:00 with 200 ml drunk: behind, next reminder in 84 minutes, 393 ml |
| HydrationStore.CalculateDailyGoal | stores/hydrationStore.ts:128-153 | the goal is 35 ml/kg plus the activity bonus when that lies in [1200, 5000], the nearer bound otherwise; it is dated today, tagged v1 and not overridden |
| HydrationStore.GoalMonotone | stores/hydrationStore.ts:128-145 | a heavier or more active profile never gets a smaller goal |
| HydrationStore.GoalDeterminesWeight | stores/hydrationStore.ts:128-145 | strictly inside the clamp the goal determines the weight back |
| HydrationStore.SetUserProfile | stores/hydrationStore.ts:50-54 | the profile is stored, the goal is recomputed from it, and no other field changes |
| HydrationStore.SetUserProfileDropsOverride | stores/hydrationStore.ts:50-54 | a manually overridden goal is replaced too |
| HydrationStore.SetTodayIntake | stores/hydrationStore.ts:58-65 | exactly the given logs dated today are kept, in their order and with their copies; nothing else changes |
| HydrationStore.SetTodayIntakeIdempotent | stores/hydrationStore.ts:58-65 | re-setting the intake with what is stored changes nothing |
| Seqs.FilterKeepsOrder | stores/hydrationStore.ts:61 | `filter` keeps each passing element right after the survivors before it, and keeps each passing value's number of copies |
| HydrationStore.AddIntakeLog | stores/hydrationStore.ts:67-79 | a log of another day or with a stored id leaves the state unchanged; any other log is appended at the end |
| HydrationStore.AddKeepsIdsUnique | stores/hydrationStore.ts:67-79 | appending keeps the stored ids distinct |
| HydrationStore.UpdateIntakeLog | stores/hydrationStore.ts:81-87 | entries with the id are merged with the patch; length, order and every other entry are unchanged |
| HydrationStore.MergeLog | stores/hydrationStore.ts:83-85 | every field the patch carries wins, every other field is kept |
| HydrationStore.UpdateKeepsIdsUnique | stores/hydrationStore.ts:81-87 | a patch that keeps the id keeps ids distinct |
| HydrationStore.UpdateMayDuplicateIds | stores/hydrationStore.ts:81-87 | a patch that sets another entry's id makes two entries share it |
| HydrationStore.DeleteIntakeLog | stores/hydrationStore.ts:89-93 | no entry with the id remains; every other entry stays, in its order and with its copies; nothing is added; nothing else changes |
| HydrationStore.DeleteMissingIdIsNoOp | stores/hydrationStore.ts:89-93 | deleting an absent id changes nothing |
| HydrationStore.DeleteUndoesAdd | stores/hydrationStore.ts:67-93 | deleting a freshly added log restores the previous state |
| HydrationStore.MergeSettings | stores/hydrationStore.ts:95-99 | every field the patch carries wins, every other field is kept |
| HydrationStore.SetSettings | stores/hydrationStore.ts:95-99 | only the settings change, to the merge of the patch |
| HydrationStore.SetSettingsLaws | stores/hydrationStore.ts:95-99 | the empty patch changes nothing; applying a patch twice is applying it once |
| HydrationStore.SetSettingsLastWins | stores/hydrationStore.ts:95-99 | of two successive patches the later wins on each of the seven settings fields it carries, the earlier on the fields only it carries |
| HydrationStore.InitializePersonalizedSettings | stores/hydrationStore.ts:105-108 | the personalised settings become the template defaults with empty learning data; nothing else changes |
| HydrationStore.UpdateLearningData | stores/hydrationStore.ts:110-121 | without personalised settings or intake nothing changes; otherwise the pattern learned from the intake is folded into the settings and nothing else changes |
| HydrationStore.UpdateLearningKeepsLearningData | stores/hydrationStore.ts:110-121 | the stored learning data, the lifestyle and the frequency survive the update |
| HydrationStore.GetTodayIntake | stores/hydrationStore.ts:155-160 | exactly the stored logs dated today, in their stored order and with their copies |
| HydrationStore.GetTodayTotal | stores/hydrationStore.ts:162-164 | non-negative amounts give a non-negative total |
| HydrationStore.AddRaisesTotal | stores/hydrationStore.ts:162-164 | appending a fresh log for today raises the total by exactly its amount |
| HydrationStore.GetTodayProgress | stores/hydrationStore.ts:166-170 | 0 without a positive goal; in [0, 1] for a non-negative total; 1 exactly when the total meets the goal; below the goal, progress × goal = total |
| HydrationStore.ProgressMonotone | stores/hydrationStore.ts:166-170 | a larger total under the same goal never lowers progress |
| Clock.ParseTimeToDate | lib/notifications/helpers.ts:4-11 | a date exactly when both fields parse, whole minutes past the reference's midnight by the fields' hours and minutes, overflow carrying into later days |
| Clock.ParseTimeOfFormatted | lib/notifications/helpers.ts:4-11 | an in-range `HH:MM` lands on the reference's calendar day at that hour and minute |
| Clock.ParseTimeWithoutMinutes | lib/notifications/helpers.ts:5-7 | a clock string of digits alone, with no ':', sets the hour those digits spell and zero minutes |
| Clock.ParseFormatted | lib/notifications/legacy.ts:35 | splitting a formatted clock text at ':' and reading both numbers gives the fields back |
| Clock.FormatTimeRoundTrip | lib/notifications/planning.ts:144-148 | `formatTime` reads back as the instant's hour and minute, and parsing it on the same day gives the instant without its seconds |
| Clock.Split | lib/notifications/helpers.ts:5 | the first part is the text before the first separator, and there is one part exactly when no separator occurs |
| Planning.PlanContextFor | lib/notifications/planning.ts:18-35 | the planner gets max(count ?? 8, 1) ≥ 1 reminders, the given volumes and now, and the resolved anchors |
| Planning.ResolveDayAnchors | lib/notifications/planning.ts:92-101 | wake is on the reference day; with in-range clocks, sleep is moved a day on when not after wake, so wake < sleep ≤ wake + 1 day |
| Planning.AnchoredOnReferenceDay | lib/notifications/planning.ts:92-94 | an in-range clock time stays on the reference's day |
| Planning.FormatInterval | lib/notifications/planning.ts:128-142 | below an hour `N分後`, whole hours `H時間後`, otherwise `H時間M分後`, all of max(1, minutes) |
| Planning.FormatIntervalRoundTrip | lib/notifications/planning.ts:128-142 | reading the interval text back gives max(1, minutes) |
| Planning.BuildNotificationMessage | lib/notifications/planning.ts:103-126 | the title, the pace prefix, the suggestion and the interval and clock text of the next instant |
| Planning.PrefixIdentifiesCategory | lib/notifications/planning.ts:107-117 | the prefix determines the pace category |
| Planning.ReminderRequest | lib/notifications/planning.ts:51-69 | one request at the next instant on the app channel, carrying suggestion, instant and category, outside the snooze selection |
| Planning.ScheduleNextReminder | lib/notifications/planning.ts:18-90 | without permission null and no change; a terminal plan is returned with nothing scheduled; a rejected request gives null; otherwise the plan and one appended request |
| Planning.ScheduledReminderInWindow | lib/notifications/planning.ts:46-69 | earlier requests stay; at most one request is added, and it fires after now, after wake and before sleep, within a day of wake for in-range clocks |
| Snooze.SnoozeConfigByFrequency | lib/notifications/snooze.ts:22-33 | low (3, 15), high (7, 8), anything else (5, 10) |
| Snooze.HigherTierSnoozesMoreOften | lib/notifications/snooze.ts:22-33 | a higher tier has more snoozes at a shorter interval |
| Snooze.ResolvedFrequency | lib/notifications/snooze.ts:66 | an absent or empty frequency reads as medium; any other is kept |
| Snooze.ActualInterval | lib/notifications/snooze.ts:68-75 | the interval is the given one up to 30 and exactly 30 above; a tier default lies in (0, 15] |
| Snooze.TotalNotifications | lib/notifications/snooze.ts:68-76 | the count is max snoozes + 1 up to 5 snoozes and exactly 6 above; a tier default gives 4..6 |
| Snooze.SnoozeBurst | lib/notifications/snooze.ts:84-137 | the burst has max(total, 1) requests, between 1 and 6 |
| Snooze.BurstEntries | lib/notifications/snooze.ts:80-131 | request k fires 5 + k·interval minutes after the base, is the initial one exactly when k = 0, carries count k, the sequence id, base and suggestion, and a snooze carries its own instant and message k−1 |
| Snooze.MessageInRange | lib/notifications/snooze.ts:110 | in range, the message list is used as is, so the fallback is never taken |
| Snooze.BurstTimesIncrease | lib/notifications/snooze.ts:84-109 | with a positive interval the burst's instants strictly increase |
| Snooze.FireTimeIncreases | lib/notifications/snooze.ts:109 | later snooze indices fire later |
| Snooze.HighTierIsCapped | lib/notifications/snooze.ts:66-76 | medium and high without an explicit maximum both give six requests |
| Snooze.ScheduleSnoozeReminders | lib/notifications/snooze.ts:51-147 | without permission (0, null) and no change; otherwise the snooze selection is cancelled; a rejected request leaves the earlier ones and gives (0, null); success appends the burst, counts it, and names the first snooze's instant exactly when there is one |
| Snooze.BurstIsSnoozeSelection | lib/notifications/snooze.ts:153-167 | every burst request is in the cancel selection |
| Snooze.RescheduleReplacesBurst | lib/notifications/snooze.ts:62-137 | after a burst the non-snooze requests are those of before, and rescheduling the same burst changes nothing |
| Platform.CancelSnoozeReminders | lib/notifications/snooze.ts:149-184 | no request of the snooze selection remains, and every request outside it does |
| Platform.CancelSnoozeKeepsOrder | lib/notifications/snooze.ts:174-178 | the requests outside the snooze selection stay in their order, each copy once, so exactly they remain |
| Platform.SnoozeSelection | lib/notifications/snooze.ts:153-167 | the selection is the snooze category or type initial/snooze; wake-up and plan requests are outside it |
| Platform.CancelSnoozeIdempotent | lib/notifications/snooze.ts:149-184 | cancelling twice cancels nothing more |
| Button.ButtonSnoozeOptions | lib/notifications/button.ts:47-57 | base an hour after now; suggestion round(10% of target) when that lies in [200, 500], 200 below and 500 above; interval max(5, snooze ?? 10) within [5, 30]; at most 5 snoozes; six requests |
| Button.ButtonDay | lib/notifications/button.ts:33-40 | wake and sleep on today, sleep moved a day on when not after wake |
| Button.ButtonDayIsPlannerDay | lib/notifications/button.ts:36-40 | with in-range clocks the button's day is the adaptive scheduler's day, and wake < sleep |
| Button.ButtonSnoozes | lib/notifications/button.ts:43-61 | no burst when the day is over or the goal met; otherwise a prefix of the burst, the whole burst when every request is accepted |
| Button.ButtonSnoozesLater | lib/notifications/button.ts:47-57 | every burst request is a snooze, no wake-up, and fires at least 65 minutes after now |
| Button.WakeupCandidates | lib/notifications/button.ts:68-96 | seven wake-up requests for day offsets 1..7 |
| Button.MorningWakeups | lib/notifications/button.ts:63-80 | exactly the candidates whose calendar date has no booked wake-up, at most seven |
| Button.WakeupTimes | lib/notifications/button.ts:69-72 | wake-up k fires at the wake time of the k-th day after today |
| Button.ScheduleButtonTriggeredReminders | lib/notifications/button.ts:12-15 | without permission nothing is cancelled or scheduled |
| Button.ButtonSchedule | lib/notifications/button.ts:30-104 | a granted tap leaves exactly the burst part followed by all seven wake-ups |
| Button.ClosedDayBooksOnlyWakeups | lib/notifications/button.ts:43-104 | after sleep or with the goal met, exactly seven requests |
| Button.OpenDayBooksBurstAndWakeups | lib/notifications/button.ts:43-104 | an open day with every request accepted books thirteen requests |
| ReminderTimes.ReadClock | lib/notifications/legacy.ts:95-96 | only two-digit `HH:MM` with HH < 24, MM < 60, or `24:00`, is a valid time, at most a day of minutes |
| ReminderTimes.CalculateReminderTimes | lib/notifications/legacy.ts:90-113 | exactly max(count, 0) times, all `NaN:NaN` when a clock is invalid |
| ReminderTimes.ReadTimesBack | lib/notifications/legacy.ts:105-109 | every time reads back as its slot's minute of the day |
| ReminderTimes.TimesParse | lib/notifications/legacy.ts:35 | splitting every time at ':' gives its slot's hour and minute |
| ReminderTimes.FirstTimeIsWake | lib/notifications.ts:111-115 | time 0 is the wake text itself |
| ReminderTimes.MidnightWakeStartsAtZero | lib/notifications.ts:111-115 | a wake written `24:00` starts at `00:00` |
| ReminderTimes.ClockTextIsCanonical | lib/notifications/legacy.ts:107-109 | a valid clock text before midnight is the text of its minute |
| ReminderTimes.ReadFormattedClock | lib/notifications/legacy.ts:95-96 | a formatted in-range time reads back as its minute |
| ReminderTimes.SpanBounds | lib/notifications/legacy.ts:98-102 | the span is at most a day, and positive unless wake is `24:00` |
| ReminderTimes.StepsSpread | lib/notifications/legacy.ts:102-106 | the steps are non-decreasing and stay below the span |
| Legacy.AmountPerReminder | lib/notifications/legacy.ts:33 | the amount is within half a millilitre of the equal share |
| Legacy.NextOccurrence | lib/notifications/legacy.ts:36-42 | today's time when still ahead, else the same time a day later; always after now |
| Legacy.NextOccurrenceWithinADay | lib/notifications/legacy.ts:36-42 | the occurrence is within a day after now at the requested hour and minute |
| Legacy.ReminderRequest | lib/notifications/legacy.ts:49-61 | a dated request after now |
| Legacy.ScheduleReminders | lib/notifications/legacy.ts:9-68 | without permission nothing changes; otherwise exactly min(count, 64) requests |
| Legacy.ScheduledTimes | lib/notifications/legacy.ts:28-61 | request i fires within a day after now at its slot's minute, with the equal share, the title and the channel |
| DailyReminders.DailyRequest | lib/notifications.ts:73-86 | a daily repeating trigger at the parsed hour and minute |
| DailyReminders.ScheduleDailyReminders | lib/notifications.ts:35-93 | everything is cancelled, then exactly min(count, 64) daily requests on the app channel |
| DailyReminders.DailyTimes | lib/notifications.ts:52-86 | request i repeats daily at its slot's hour and minute with the equal share, the title and the channel |
| DailyReminders.SchedulersAgree | lib/notifications.ts:57-86 | each daily request repeats at the clock time of the fixed-time scheduler's request, with the same text and channel |
| LearningEngine.HourlyTotals | lib/learningEngine.ts:3-12 | the keys are exactly the active hours, each holding the total of its hour |
| LearningEngine.HourlyPatternsSumToTotal | lib/learningEngine.ts:3-12 | the per-hour amounts sum to the total of all amounts |
| LearningEngine.EntryOrder | lib/learningEngine.ts:23 | each active hour exactly once |
| LearningEngine.SortByCount | lib/learningEngine.ts:23-24 | a rearrangement of the keys in non-increasing count order |
| LearningEngine.SortIsStable | lib/learningEngine.ts:23-24 | the sort is stable: the hours of any one count keep the order they had before sorting |
| LearningEngine.TopHours | lib/learningEngine.ts:14-25 | at most five distinct active hours, fewer only when fewer are active, busiest first |
| LearningEngine.TopHoursAreBusiest | lib/learningEngine.ts:14-25 | no left-out hour has more logs than a kept one |
| LearningEngine.AnalyzeSuccessfulReminders | lib/learningEngine.ts:14-27 | at most five distinct `HH:00` texts of the top hours, in order |
| LearningEngine.SkippedHours | lib/learningEngine.ts:29-38 | in ascending order, exactly the hours of the day with no log |
| LearningEngine.AnalyzeSkippedNotifications | lib/learningEngine.ts:29-38 | the padded texts of the skipped hours, 24 − active-hour count of them |
| LearningEngine.CalculateOptimalFrequency | lib/learningEngine.ts:40-47 | high exactly from 8 hours, low exactly below 5 |
| LearningEngine.FrequencyMonotone | lib/learningEngine.ts:40-47 | more active hours never lower the tier |
| LearningEngine.LearnUserPatterns | lib/learningEngine.ts:49-62 | the three hour lists are the same successful list, and the skipped list complements the active hours |
| LearningEngine.AdjustScheduleBasedOnLearning | lib/learningEngine.ts:64-92 | preferred times become the first 8 of successful ++ current when successful is non-empty, one half-hour quiet range is appended per skipped hour, everything else is kept |
| LearningEngine.AdjustMayRepeatTimes | lib/learningEngine.ts:70-76 | a time already preferred and learned again appears twice |
| LearningEngine.NewTimes | lib/learningEngine.ts:106 | exactly the successful times not already preferred |
| LearningEngine.NewTimesKeepOrder | lib/learningEngine.ts:106 | the new times keep the order and the copies they had among the successful times |
| LearningEngine.ImproveSchedule | lib/learningEngine.ts:94-127 | only new successful times are prepended, capped at 8; one quiet range is appended per failed hour; lifestyle, learning data, frequency, weekend mode and adaptive mode are kept |
| LearningEngine.ImproveKeepsTimesDistinct | lib/learningEngine.ts:104-111 | distinct preferred and successful times stay distinct |
| LifestyleTemplates.LookupTemplate | lib/lifestyleTemplates.ts:3-88 | an own template exactly for the five keys of the table, an inherited non-template exactly for the twelve `Object.prototype` names, and `undefined` for every other name |
| LifestyleTemplates.GetDefaultPersonalizedSettings | lib/lifestyleTemplates.ts:90-103 | an own template's lifestyle and pattern, the deskWorker ones for an omitted or missing name, with empty learning lists stamped by the caller |
| LifestyleTemplates.UnknownWorkTypeFallsBack | lib/lifestyleTemplates.ts:90-91 | a name the table neither holds nor inherits gives the deskWorker defaults, as does no name |
| LifestyleTemplates.WorkTypeValueIsNotAKey | lib/lifestyleTemplates.ts:38-40 | the work-type value `active` is not a key and falls back to desk |
| LifestyleTemplates.TemplateModes | lib/lifestyleTemplates.ts:3-88 | every template is adaptive; only freelance turns weekend mode off |
| LifestyleTemplates.TemplateWorkTypes | lib/lifestyleTemplates.ts:3-88 | each key's template has its own work type |
| LifestyleTemplates.EmptyLearning | lib/lifestyleTemplates.ts:96-101 | all four learning lists are empty and the stamp is kept |
| Profile.ParseOptionalNumber | lib/profile.ts:12-23 | a value exactly when the text is valid, and then the positive parsed value; blank text gives none |
| Profile.BuildUserProfile | lib/profile.ts:25-46 | no profile exactly when the weight is invalid; otherwise the parsed weight, the optional height and the defaults male, medium, 07:00, 23:00 |
| Profile.BlankWeightRejected | lib/profile.ts:3-10 | a blank weight gives no profile |
| Profile.HeightIsOptional | lib/profile.ts:29-34 | the height never decides whether a profile is built |
| UnitConverter.ConvertMlToOz | lib/unitConverter.ts:2-4 | within 0.05 oz of the exact conversion, with one decimal place |
| UnitConverter.ConvertOzToMl | lib/unitConverter.ts:6-8 | the nearest whole millilitre |
| UnitConverter.MlRoundTrip | lib/unitConverter.ts:2-8 | converting up to 10 l to oz and back is off by at most 2 ml |
| UnitConverter.FormatVolume | lib/unitConverter.ts:10-16 | the oz value with `oz` for oz, the ml value with `ml` otherwise |
| UnitConverter.FormatVolumeWithUnit | lib/unitConverter.ts:18-24 | the same number with the long unit name |
| UnitConverter.GetUnitLabel | lib/unitConverter.ts:26-28 | the long name with the short label in parentheses |
| UnitConverter.GetUnitShortLabel | lib/unitConverter.ts:30-32 | the text is `oz` for oz and `ml` for ml, and ends in `z` exactly for oz |
| UnitConverter.LabelsDistinguishUnits | lib/unitConverter.ts:26-32 | different units never share a label or a rendering |

## Left out

- Persistence, UI, permission prompts, Android channel creation, background tasks, the `waitFor` delays and console logging are not modelled. None of them decides what gets scheduled.
- Time zones, daylight saving and `lib/date.ts` are not modelled. A local day is always 24 hours, and "today" is a calendar-day number passed in.
- IEEE-754 arithmetic is replaced by exact reals and integers. Whole-minute steps in the spread reminder times are exact, so a float quotient that lands a millisecond short of a minute boundary is not reproduced.
- JS rendering of non-integral numbers is abstract (`Num` pieces) in message bodies and in `formatVolume`.
- lib/notifications/constants.ts is not part of this model. The channel id is taken from lib/notifications.ts:6.
- The shallow-copy aliasing in `adjustScheduleBasedOnLearning` and `improveSchedule` is not modelled; the model returns values only. `getDefaultPersonalizedSettings` hands out the template table's own `notificationPattern` object (lib/lifestyleTemplates.ts:95), so `adjustScheduleBasedOnLearning` (lib/learningEngine.ts:70-88) rewrites the module-level `lifestyleTemplates` entry itself, and a later `initializePersonalizedSettings` in the same session returns the learned pattern rather than the template default.
- `Partial<LearningData>` with absent lists is not modelled. The learning data passed in always carries both lists, as `learnUserPatterns` produces them.
- `setDailyGoal`, `setPersonalizedSettings`, `setOnboarded` and `setNotificationPermission` are plain field assignments and are not modelled.
- Planning.ScheduleNextReminder: requires clock strings whose fields parse. The `Invalid Date` path that `parseTimeToDate` gives for unparsable text is not modelled; the same requirement holds for Planning.ResolveDayAnchors, Planning.PlanContextFor and the Button members.
- Button.ScheduleButtonTriggeredReminders: its own contract states only the permission guard; what a granted tap books is stated by Button.ButtonSchedule. Wake-up scheduling is assumed to succeed.
- Legacy.ScheduleReminders: requires valid clock strings (or no reminders). Scheduling an `Invalid Date` would throw and be swallowed part-way, and that path is not modelled. One `now` serves the whole loop, while the code reads the clock again for each reminder. Platform failures are not modelled.
- DailyReminders.ScheduleDailyReminders: the same requirement and the same assumptions as Legacy.ScheduleReminders.
- HydrationStore.GetTodayTotal: its own contract states only that non-negative amounts give a non-negative total. The sum is stated through HydrationStore.AddRaisesTotal and LearningEngine.HourlyPatternsSumToTotal.
- Platform.CancelSnoozeReminders: its own failure (caught and logged) is not modelled.
- LifestyleTemplates.GetDefaultPersonalizedSettings: for a name inherited from `Object.prototype` (`constructor`, `toString`, `__proto__`, ...) the code returns settings whose lifestyle and pattern are `undefined`. Settings in the model always hold both, so the desk-worker template stands in. `LifestyleTemplates.LookupTemplate` does tell these names apart, and no code in the app passes such a name.
- Legacy.ScheduleReminders and DailyReminders.ScheduleDailyReminders: the `reminderCount = 8` default parameter is not modelled. Callers pass the count explicitly; omitting it would act as passing 8.
- ReminderTimes.ReadClock: `new Date('2000-01-01T' + time + ':00')` is modelled by the ECMAScript date-time string format, which accepts only two-digit `HH:MM`. Strings outside that format (for example `7:00`) fall to engine-specific parsing. The model treats them as invalid, while a given engine may accept them.

=== FILE: button.dfy ===
/**
 * The reminders a tap on the intake button schedules
 * (lib/notifications/button.ts): everything is cancelled, a snooze burst
 * starts an hour from now while the day and the goal are still open, and a
 * morning wake-up is booked for each of the next seven days.
 */
module Button {
  import opened Wrappers
  import opened JsMath
  import opened Text
  import opened Clock
  import opened Seqs
  import opened Platform
  import opened Planning
  import opened Snooze

  const WakeupTitle: string := "🌅 おはようございます！"
  /** Morning wake-ups are booked for day offsets `1..WakeupDays`. */
  const WakeupDays: nat := 7

  /**
   * The burst the button asks for: based an hour from now, suggesting a
   * tenth of the target kept within 200..500 ml, at the user's snooze
   * interval (10 minutes by default, at least 5), with five snoozes.
   */
  function ButtonSnoozeOptions(options: ReminderOptions, now: int): (s: SnoozeOptions)
    ensures s.baseTime == now + HourMs
    ensures 200.0 <= s.suggestMl <= 500.0
    ensures var tenth := Round(options.targetMl * 0.1) as real;
      200.0 <= tenth <= 500.0 ==> s.suggestMl == tenth
    ensures var tenth := Round(options.targetMl * 0.1) as real;
      (tenth < 200.0 ==> s.suggestMl == 200.0) && (tenth > 500.0 ==> s.suggestMl == 500.0)
    ensures s.intervalMinutes == Some(MaxInt(5, options.userSnoozeMin.GetOr(10)))
    ensures s.maxSnoozes == Some(5)
    ensures 5 <= ActualInterval(s) <= MaxIntervalMinutes
    ensures |SnoozeBurst(s)| == 6
  {
    var suggestMl := MaxReal(200.0, MinReal(500.0, Round(options.targetMl * 0.1) as real));
    SnoozeOptions(now + HourMs, suggestMl, Some(MaxInt(5, options.userSnoozeMin.GetOr(10))), Some(5), Some("medium"))
  }

  /**
   * Today's wake and sleep instants as the button reads them: both on the
   * day of `now`, sleep moved a day on when it is not after wake.
   */
  function ButtonDay(options: ReminderOptions, now: int): (day: (int, int))
    requires Readable(options.wakeTime) && Readable(options.sleepTime)
    ensures day.0 == DayStart(now) + Offset(options.wakeTime)
    ensures var sleep := DayStart(now) + Offset(options.sleepTime);
      day.1 == if sleep <= day.0 then sleep + DayMs else sleep
  {
    var today := DayStart(now);
    var wake := ParseTimeToDate(options.wakeTime, today).value;
    var sleep := ParseTimeToDate(options.sleepTime, today).value;
    assert DayStart(today) == today by { SameDay(now, 0); }
    if sleep <= wake then (wake, sleep + DayMs) else (wake, sleep)
  }

  /**
   * For in-range clock strings the button's day is the adaptive planner's
   * day (lib/notifications/planning.ts), though the two read it differently.
   */
  lemma ButtonDayIsPlannerDay(options: ReminderOptions, now: int)
    requires Readable(options.wakeTime) && Readable(options.sleepTime)
    requires InRange(options.wakeTime) && InRange(options.sleepTime)
    ensures ButtonDay(options, now) == ResolveDayAnchors(options.wakeTime, options.sleepTime, now)
    ensures ButtonDay(options, now).0 < ButtonDay(options, now).1
  {
    var day := ButtonDay(options, now);
    var anchors := ResolveDayAnchors(options.wakeTime, options.sleepTime, now);
    assert day.0 == anchors.0;
    assert day.1 == anchors.1;
  }

  /** The snooze guard: the day has not ended and the goal is not met. */
  predicate ShouldSnooze(options: ReminderOptions, now: int)
    requires Readable(options.wakeTime) && Readable(options.sleepTime)
  {
    now < ButtonDay(options, now).1 && options.consumedMl < options.targetMl
  }

  /** The wake-up request for `dayOffset` days after today, at that day's wake time. */
  function WakeupRequest(wakeTime: string, targetMl: real, today: int, dayOffset: nat): (n: Notification)
    requires Readable(wakeTime)
    ensures n.trigger.At? && n.data == WakeupData(dayOffset, targetMl)
  {
    Notification(WakeupTitle,
                 [Lit("今日も水分補給を始めましょう！"), Num(targetMl), Lit("mlの目標に向けて頑張りましょう")],
                 WakeupData(dayOffset, targetMl),
                 At(ParseTimeToDate(wakeTime, today + dayOffset * DayMs).value), None)
  }

  /** The seven candidates, for day offsets 1 to 7 in order. */
  function WakeupCandidates(wakeTime: string, targetMl: real, today: int): (c: seq<Notification>)
    requires Readable(wakeTime)
    ensures |c| == WakeupDays
    ensures forall i :: 0 <= i < |c| ==> c[i] == WakeupRequest(wakeTime, targetMl, today, i + 1)
  {
    seq(WakeupDays, (i: int) requires 0 <= i => WakeupRequest(wakeTime, targetMl, today, i + 1))
  }

  /** A request whose `data.type` is `morning_wakeup`. */
  predicate IsMorningWakeup(n: Notification) {
    TypeOf(n.data) == Some("morning_wakeup")
  }

  /** Some existing request fires on the calendar date of `n`'s trigger. */
  predicate BookedOn(existing: seq<Notification>, n: Notification) {
    n.trigger.At?
    && exists i :: 0 <= i < |existing| && existing[i].trigger.At?
                   && CalendarDay(existing[i].trigger.instant) == CalendarDay(n.trigger.instant)
  }

  /** The candidates whose date no existing morning wake-up already covers. */
  function MorningWakeups(wakeTime: string, targetMl: real, today: int, existing: seq<Notification>)
    : (r: seq<Notification>)
    requires Readable(wakeTime)
    ensures |r| <= WakeupDays
    ensures forall i :: 0 <= i < |r| ==>
      !BookedOn(existing, r[i]) && r[i] in WakeupCandidates(wakeTime, targetMl, today)
    ensures forall k :: 1 <= k <= WakeupDays && !BookedOn(existing, WakeupRequest(wakeTime, targetMl, today, k)) ==>
      WakeupRequest(wakeTime, targetMl, today, k) in r
  {
    var candidates := WakeupCandidates(wakeTime, targetMl, today);
    var r := Filter(candidates, (n: Notification) => !BookedOn(existing, n));
    assert forall k :: 1 <= k <= WakeupDays ==> candidates[k - 1] == WakeupRequest(wakeTime, targetMl, today, k);
    r
  }

  /**
   * `scheduleButtonTriggeredReminders`. Without permission nothing changes.
   * Otherwise everything is cancelled; the snooze burst is scheduled when
   * the day is open and the goal unmet (its own failures are swallowed,
   * `snoozeFailAt` as in `ScheduleSnoozeReminders`); then the morning
   * wake-ups not already booked for their date are added.
   */
  function ScheduleButtonTriggeredReminders(hasPermission: bool, snoozeFailAt: Option<nat>,
                                            options: ReminderOptions, now: int,
                                            pending: seq<Notification>): (after: seq<Notification>)
    requires Readable(options.wakeTime) && Readable(options.sleepTime)
    ensures !hasPermission ==> after == pending
  {
    if !hasPermission then pending
    else
      var cleared: seq<Notification> := [];
      var snoozed :=
        if ShouldSnooze(options, now)
        then ScheduleSnoozeReminders(true, snoozeFailAt, ButtonSnoozeOptions(options, now), cleared).pending
        else cleared;
      var existing := Filter(snoozed, IsMorningWakeup);
      snoozed + MorningWakeups(options.wakeTime, options.targetMl, DayStart(now), existing)
  }

  /**
   * The requests the burst part of a button tap leaves: none when the guard
   * is off, and otherwise a prefix of the burst, the whole of it when the
   * platform accepts every request.
   */
  function ButtonSnoozes(snoozeFailAt: Option<nat>, options: ReminderOptions, now: int): (s: seq<Notification>)
    requires Readable(options.wakeTime) && Readable(options.sleepTime)
    ensures !ShouldSnooze(options, now) ==> s == []
    ensures ShouldSnooze(options, now) ==>
      var burst := SnoozeBurst(ButtonSnoozeOptions(options, now));
      && |s| <= |burst| && s == burst[..|s|]
      && (snoozeFailAt.None? ==> s == burst)
  {
    if ShouldSnooze(options, now) then BurstOnEmptyStore(snoozeFailAt, ButtonSnoozeOptions(options, now))
    else []
  }

  /**
   * Every request of the burst part is in the snooze selection, is no
   * morning wake-up, and fires at least an hour and five minutes after `now`.
   */
  lemma ButtonSnoozesLater(snoozeFailAt: Option<nat>, options: ReminderOptions, now: int)
    requires Readable(options.wakeTime) && Readable(options.sleepTime)
    ensures var snoozes := ButtonSnoozes(snoozeFailAt, options, now);
      forall i :: 0 <= i < |snoozes| ==>
        && IsSnoozeNotification(snoozes[i]) && !IsMorningWakeup(snoozes[i])
        && snoozes[i].trigger.At?
        && snoozes[i].trigger.instant >= now + HourMs + FirstDelayMinutes * MinuteMs
  {
    var snoozes := ButtonSnoozes(snoozeFailAt, options, now);
    if ShouldSnooze(options, now) {
      PrefixEntriesLate(snoozes, ButtonSnoozeOptions(options, now));
    }
  }

  /** Every request of a prefix of a burst is a snooze, no wake-up, and fires after the first delay. */
  lemma PrefixEntriesLate(snoozes: seq<Notification>, s: SnoozeOptions)
    requires ActualInterval(s) >= 0
    requires |snoozes| <= |SnoozeBurst(s)| && snoozes == SnoozeBurst(s)[..|snoozes|]
    ensures forall i :: 0 <= i < |snoozes| ==>
      && IsSnoozeNotification(snoozes[i]) && !IsMorningWakeup(snoozes[i])
      && snoozes[i].trigger.At?
      && snoozes[i].trigger.instant >= s.baseTime + FirstDelayMinutes * MinuteMs
  {
    forall i | 0 <= i < |snoozes|
      ensures IsSnoozeNotification(snoozes[i]) && !IsMorningWakeup(snoozes[i])
      ensures snoozes[i].trigger.At? && snoozes[i].trigger.instant >= s.baseTime + FirstDelayMinutes * MinuteMs
    {
      assert snoozes[i] == SnoozeBurst(s)[i];
      BurstEntryIsLate(s, i);
    }
  }

  lemma BurstEntryIsLate(s: SnoozeOptions, i: nat)
    requires ActualInterval(s) >= 0 && i < |SnoozeBurst(s)|
    ensures var n := SnoozeBurst(s)[i];
      && IsSnoozeNotification(n) && !IsMorningWakeup(n)
      && n.trigger.At? && n.trigger.instant >= s.baseTime + FirstDelayMinutes * MinuteMs
  {
    var n := SnoozeBurst(s)[i];
    BurstEntries(s, i);
    assert n.data.SnoozeData?;
    FireTimeLate(s.baseTime, ActualInterval(s), i);
  }

  /** With a non-negative interval no burst instant is earlier than the first delay. */
  lemma FireTimeLate(baseTime: int, interval: int, k: nat)
    requires interval >= 0
    ensures FireTime(baseTime, interval, k) >= baseTime + FirstDelayMinutes * MinuteMs
  {
    assert k * interval >= 0;
  }

  /**
   * A granted tap leaves the burst part followed by all seven wake-ups: the
   * morning de-duplication never skips a day, because everything was
   * cancelled and the burst books no `morning_wakeup`.
   */
  lemma ButtonSchedule(snoozeFailAt: Option<nat>, options: ReminderOptions, now: int, pending: seq<Notification>)
    requires Readable(options.wakeTime) && Readable(options.sleepTime)
    ensures var after := ScheduleButtonTriggeredReminders(true, snoozeFailAt, options, now, pending);
      var snoozes := ButtonSnoozes(snoozeFailAt, options, now);
      after == snoozes + WakeupCandidates(options.wakeTime, options.targetMl, DayStart(now))
  {
    var snoozes := ButtonSnoozes(snoozeFailAt, options, now);
    var candidates := WakeupCandidates(options.wakeTime, options.targetMl, DayStart(now));
    ButtonSnoozesLater(snoozeFailAt, options, now);
    FilterDropsAll(snoozes, IsMorningWakeup);
    FilterKeepsAll(candidates, (n: Notification) => !BookedOn([], n));
  }

  /** A tap after the day has ended, or with the goal met, books only the seven wake-ups. */
  lemma ClosedDayBooksOnlyWakeups(snoozeFailAt: Option<nat>, options: ReminderOptions, now: int,
                                  pending: seq<Notification>)
    requires Readable(options.wakeTime) && Readable(options.sleepTime)
    requires now >= ButtonDay(options, now).1 || options.consumedMl >= options.targetMl
    ensures |ScheduleButtonTriggeredReminders(true, snoozeFailAt, options, now, pending)| == WakeupDays
  {
    ButtonSchedule(snoozeFailAt, options, now, pending);
  }

  /** An open day with every request accepted books six burst requests and seven wake-ups. */
  lemma OpenDayBooksBurstAndWakeups(options: ReminderOptions, now: int, pending: seq<Notification>)
    requires Readable(options.wakeTime) && Readable(options.sleepTime)
    requires now < ButtonDay(options, now).1 && options.consumedMl < options.targetMl
    ensures |ScheduleButtonTriggeredReminders(true, None, options, now, pending)| == 6 + WakeupDays
  {
    ButtonSchedule(None, options, now, pending);
    assert ShouldSnooze(options, now);
    var burst := SnoozeBurst(ButtonSnoozeOptions(options, now));
    assert ButtonSnoozes(None, options, now) == burst;
    assert |burst| == 6;
  }

  /** Whole days after a midnight are midnights, `k` calendar dates on. */
  lemma MidnightsAhead(now: int, k: nat)
    ensures DayStart(DayStart(now) + k * DayMs) == DayStart(now) + k * DayMs
    ensures CalendarDay(DayStart(now) + k * DayMs) == CalendarDay(now) + k
  {
    var q := now / DayMs;
    assert DayStart(now) == q * DayMs;
    assert DayStart(now) + k * DayMs == (q + k) * DayMs;
    DivModUnique(DayStart(now) + k * DayMs, q + k, 0, DayMs);
  }

  /**
   * Wake-up `k` fires at the wake clock time `k` days after today; with an
   * in-range wake time that is on calendar date `k` days on.
   */
  lemma WakeupTimes(wakeTime: string, targetMl: real, now: int, k: nat)
    requires Readable(wakeTime)
    ensures WakeupRequest(wakeTime, targetMl, DayStart(now), k).trigger.instant
      == DayStart(now) + k * DayMs + Offset(wakeTime)
    ensures InRange(wakeTime) ==>
      CalendarDay(WakeupRequest(wakeTime, targetMl, DayStart(now), k).trigger.instant) == CalendarDay(now) + k
  {
    var midnight := DayStart(now) + k * DayMs;
    MidnightsAhead(now, k);
    if InRange(wakeTime) {
      var (h, m) := ClockFieldsOf(wakeTime).value;
      assert midnight % DayMs == 0;
      ClockFields(midnight, h, m);
    }
  }
}

=== FILE: clock.dfy ===
/**
 * Instants, clock strings and `parseTimeToDate` (lib/notifications/helpers.ts).
 *
 * An instant is a whole number of milliseconds since an epoch that falls on
 * a local midnight; there are no time zones and no daylight-saving shifts, so
 * every local day is exactly `DayMs` long.
 */
module Clock {
  import opened Wrappers
  import opened Text

  const MinuteMs: int := 60_000
  const HourMs: int := 3_600_000
  const DayMs: int := 86_400_000

  /** The local midnight that starts the day of `t`. */
  function DayStart(t: int): (r: int)
    ensures r <= t < r + DayMs
    ensures r % DayMs == 0
  {
    t - t % DayMs
  }

  /** The local calendar date of `t` (what `toDateString` compares). */
  function CalendarDay(t: int): int {
    t / DayMs
  }

  /** `getHours()` */
  function HourOf(t: int): (h: nat)
    ensures h < 24
  {
    (t % DayMs) / HourMs
  }

  /** `getMinutes()` */
  function MinuteOf(t: int): (m: nat)
    ensures m < 60
  {
    (t % HourMs) / MinuteMs
  }

  /** Zero-padded `HH:MM`, as every formatter in the app writes it. */
  function FormatHHMM(h: nat, m: nat): string {
    Pad2(h) + ":" + Pad2(m)
  }

  /** `formatTime` (lib/notifications/planning.ts): the local clock time of `t`. */
  function FormatTime(t: int): string {
    FormatHHMM(HourOf(t), MinuteOf(t))
  }

  /** Position of the first `sep` in `s`, or `|s|` when there is none. */
  function IndexOf(s: string, sep: char): (i: nat)
    ensures i <= |s|
    ensures forall j :: 0 <= j < i ==> s[j] != sep
    ensures i < |s| ==> s[i] == sep
  {
    if |s| == 0 || s[0] == sep then 0 else 1 + IndexOf(s[1..], sep)
  }

  /** `s.split(sep)` for a one-character separator. */
  function Split(s: string, sep: char): (parts: seq<string>)
    ensures |parts| >= 1
    ensures parts[0] == s[..IndexOf(s, sep)]
    ensures (|parts| == 1) == (IndexOf(s, sep) == |s|)
    decreases |s|
  {
    var i := IndexOf(s, sep);
    if i == |s| then [s] else [s[..i]] + Split(s[i + 1..], sep)
  }

  /** Number of leading white-space characters. */
  function LeadingWhitespace(s: string): (k: nat)
    ensures k <= |s|
  {
    if |s| == 0 || !IsJsWhitespace(s[0]) then 0 else 1 + LeadingWhitespace(s[1..])
  }

  /**
   * `Number.parseInt(s, 10)`: skip leading white space, read an optional sign
   * and the longest run of decimal digits; `None` stands for `NaN`.
   */
  function ParseInt(s: string): (r: Option<int>)
    ensures IsDigits(s) && |s| > 0 ==> r == Some(DigitsValue(s))
  {
    var t := s[LeadingWhitespace(s)..];
    var negative := |t| > 0 && t[0] == '-';
    var body := if |t| > 0 && (t[0] == '-' || t[0] == '+') then t[1..] else t;
    var k := LeadingDigits(body);
    if k == 0 then None
    else
      assert IsDigits(s) && |s| > 0 ==> body == s && body[..k] == s;
      Some(if negative then -(DigitsValue(body[..k]) as int) else DigitsValue(body[..k]))
  }

  /**
   * The hour and minute fields of a clock string as `parseTimeToDate` reads
   * them: `parseInt` of the text before the first ':' and of the text after it,
   * the minutes defaulting to `'0'` when there is no ':'. `None` is a `NaN` field.
   */
  function ClockFieldsOf(time: string): Option<(int, int)> {
    var parts := Split(time, ':');
    var minuteText := if |parts| > 1 then parts[1] else "0";
    match (ParseInt(parts[0]), ParseInt(minuteText))
    case (Some(h), Some(m)) => Some((h, m))
    case _ => None
  }

  /**
   * `parseTimeToDate`: a copy of `reference` with its clock set to
   * `hours:minutes:00.000`. `None` is the `Invalid Date` that a `NaN` field
   * produces. Out-of-range fields carry into neighbouring days, as `setHours`
   * does.
   */
  function ParseTimeToDate(time: string, reference: int): (r: Option<int>)
    ensures r.Some? <==> ClockFieldsOf(time).Some?
    ensures r.Some? ==> r.value % MinuteMs == 0
    ensures r.Some? ==>
      var (h, m) := ClockFieldsOf(time).value;
      r.value - DayStart(reference) == h * HourMs + m * MinuteMs
  {
    match ClockFieldsOf(time)
    case Some((h, m)) =>
      WholeMinutes(DayStart(reference), h, m);
      Some(DayStart(reference) + h * HourMs + m * MinuteMs)
    case None => None
  }

  /** A midnight moved by whole hours and minutes is a whole minute. */
  lemma WholeMinutes(midnight: int, h: int, m: int)
    requires midnight % DayMs == 0
    ensures (midnight + h * HourMs + m * MinuteMs) % MinuteMs == 0
  {
    var q := midnight / DayMs;
    assert midnight == q * DayMs;
    DivModUnique(midnight + h * HourMs + m * MinuteMs, q * 1440 + h * 60 + m, 0, MinuteMs);
  }

  /** `Number(part)` for the unsigned decimal parts of a clock string; `None` is `NaN`. */
  function DecimalNumber(s: string): Option<nat> {
    if |s| > 0 && IsDigits(s) then Some(DigitsValue(s)) else None
  }

  /** `const [hours, minutes] = time.split(':').map(Number)` */
  function ParseHHMM(time: string): Option<(nat, nat)> {
    var parts := Split(time, ':');
    if |parts| < 2 then None
    else
      match (DecimalNumber(parts[0]), DecimalNumber(parts[1]))
      case (Some(h), Some(m)) => Some((h, m))
      case _ => None
  }

  lemma {:induction false} DigitsHaveNoColon(s: string)
    requires IsDigits(s)
    ensures IndexOf(s, ':') == |s|
    decreases |s|
  {
    if |s| > 0 {
      assert s[0] != ':';
      DigitsHaveNoColon(s[1..]);
    }
  }

  /** Splitting a formatted clock string gives back its two padded fields. */
  lemma SplitFormatted(h: nat, m: nat)
    ensures Split(FormatHHMM(h, m), ':') == [Pad2(h), Pad2(m)]
  {
    var s := FormatHHMM(h, m);
    var a, b := Pad2(h), Pad2(m);
    DigitsHaveNoColon(a);
    // The first ':' sits right after the hour field.
    assert forall j :: 0 <= j < |a| ==> s[j] == a[j];
    assert s[|a|] == ':';
    assert IndexOf(s, ':') == |a|;
    assert s[..|a|] == a;
    assert s[|a| + 1..] == b;
    DigitsHaveNoColon(b);
    assert Split(b, ':') == [b];
  }

  /** Reading a formatted clock string back with `split(':').map(Number)` gives its fields. */
  lemma ParseFormatted(h: nat, m: nat)
    ensures ParseHHMM(FormatHHMM(h, m)) == Some((h, m))
  {
    SplitFormatted(h, m);
  }

  /**
   * `parseTimeToDate` on a formatted clock time lands on the reference's
   * calendar day, at exactly that hour and minute, with zero seconds.
   */
  lemma ParseTimeOfFormatted(h: nat, m: nat, reference: int)
    requires h < 24 && m < 60
    ensures ParseTimeToDate(FormatHHMM(h, m), reference)
      == Some(DayStart(reference) + h * HourMs + m * MinuteMs)
    ensures var t := DayStart(reference) + h * HourMs + m * MinuteMs;
      CalendarDay(t) == CalendarDay(reference) && HourOf(t) == h && MinuteOf(t) == m
  {
    FormattedFieldsToDate(h, m, reference);
    SameDayFields(h, m, reference);
  }

  /** Setting an hour and minute in range keeps the reference's calendar date. */
  lemma SameDayFields(h: nat, m: nat, reference: int)
    requires h < 24 && m < 60
    ensures var t := DayStart(reference) + h * HourMs + m * MinuteMs;
      CalendarDay(t) == CalendarDay(reference) && HourOf(t) == h && MinuteOf(t) == m
  {
    var midnight := DayStart(reference);
    assert midnight / DayMs == CalendarDay(reference) by {
      DivModUnique(midnight, reference / DayMs, 0, DayMs);
    }
    ClockFields(midnight, h, m);
  }

  /** `parseTimeToDate` of a formatted clock time sets exactly that hour and minute. */
  lemma FormattedFieldsToDate(h: nat, m: nat, reference: int)
    requires h < 24 && m < 60
    ensures ParseTimeToDate(FormatHHMM(h, m), reference)
      == Some(DayStart(reference) + h * HourMs + m * MinuteMs)
  {
    SplitFormatted(h, m);
  }

  /**
   * `formatTime` writes the instant's local hour and minute: splitting it
   * gives those fields back, and `parseTimeToDate` on the same day returns
   * the instant with its seconds dropped.
   */
  lemma FormatTimeRoundTrip(t: int)
    ensures ParseHHMM(FormatTime(t)) == Some((HourOf(t), MinuteOf(t)))
    ensures ParseTimeToDate(FormatTime(t), t) == Some(t - t % MinuteMs)
  {
    ParseFormatted(HourOf(t), MinuteOf(t));
    FormattedTimeToDate(t);
  }

  /** `parseTimeToDate` of `formatTime(t)` on the day of `t` is `t` without its seconds. */
  lemma FormattedTimeToDate(t: int)
    ensures ParseTimeToDate(FormatTime(t), t) == Some(t - t % MinuteMs)
  {
    FormattedClockFields(HourOf(t), MinuteOf(t));
    TimeToDateOfFields(FormatTime(t), t);
  }

  /** `parseTimeToDate` of a string holding the hour and minute of `t` gives `t` without its seconds. */
  lemma TimeToDateOfFields(time: string, t: int)
    requires ClockFieldsOf(time) == Some((HourOf(t) as int, MinuteOf(t) as int))
    ensures ParseTimeToDate(time, t) == Some(t - t % MinuteMs)
  {
    var h, m, e := HourOf(t), MinuteOf(t), t - t % MinuteMs;
    assert DayStart(t) + h * HourMs + m * MinuteMs == e by {
      SecondsDropped(t);
    }
    FieldsToDateAt(time, t, h, m, e);
  }

  /** `parseTimeToDate` of a string whose fields are `h` and `m` is `h:m` on the reference's day. */
  lemma FieldsToDateAt(time: string, reference: int, h: int, m: int, e: int)
    requires ClockFieldsOf(time) == Some((h, m))
    requires DayStart(reference) + h * HourMs + m * MinuteMs == e
    ensures ParseTimeToDate(time, reference) == Some(e)
  {
  }

  /** Setting the clock of `t` to its own hour and minute drops its seconds. */
  lemma SecondsDropped(t: int)
    ensures DayStart(t) + HourOf(t) * HourMs + MinuteOf(t) * MinuteMs == t - t % MinuteMs
  {
    InstantFields(t);
  }

  /** The fields `parseTimeToDate` reads from a formatted clock time. */
  lemma FormattedClockFields(h: nat, m: nat)
    requires h < 24 && m < 60
    ensures ClockFieldsOf(FormatHHMM(h, m)) == Some((h, m))
  {
    SplitFormatted(h, m);
  }

  /** An instant is its midnight plus its hour, its minute and the milliseconds below a minute. */
  lemma InstantFields(t: int)
    ensures t == DayStart(t) + HourOf(t) * HourMs + MinuteOf(t) * MinuteMs + t % MinuteMs
  {
    var q, r := t / DayMs, t % DayMs;
    var h, u := r / HourMs, r % HourMs;
    assert r == h * HourMs + u;
    DivModUnique(t, q * 24 + h, u, HourMs);
    var m, s := u / MinuteMs, u % MinuteMs;
    assert u == m * MinuteMs + s;
    DivModUnique(t, (q * 24 + h) * 60 + m, s, MinuteMs);
  }

  /** Quotient and remainder are determined by any decomposition `t == q * d + r`. */
  lemma DivModUnique(t: int, q: int, r: int, d: int)
    requires d > 0 && 0 <= r < d && t == q * d + r
    ensures t / d == q && t % d == r
  {
    var q', r' := t / d, t % d;
    assert t == q' * d + r';
    if q' > q {
      ProductGap(q', q, d);
      assert false;
    } else if q' < q {
      ProductGap(q, q', d);
      assert false;
    }
  }

  lemma ProductGap(a: int, b: int, d: int)
    requires a > b && d > 0
    ensures a * d - b * d >= d
  {
    var k := a - b - 1;
    assert k * d >= 0 by {
      NonNegativeProduct(k, d);
    }
    assert a * d - b * d == k * d + d;
  }

  lemma NonNegativeProduct(x: int, y: int)
    requires x >= 0 && y >= 0
    ensures x * y >= 0
  {
  }

  /** Decomposing an instant `h` hours and `m` minutes after a midnight. */
  lemma ClockFields(midnight: int, h: nat, m: nat)
    requires midnight % DayMs == 0
    requires h < 24 && m < 60
    ensures var t := midnight + h * HourMs + m * MinuteMs;
      CalendarDay(t) == midnight / DayMs
      && t % DayMs == h * HourMs + m * MinuteMs
      && HourOf(t) == h && MinuteOf(t) == m
  {
    var minuteOff := m * MinuteMs;
    var off := h * HourMs + minuteOff;
    assert 0 <= minuteOff < HourMs;
    assert 0 <= off < DayMs;
    var t := midnight + off;
    DivModUnique(t, midnight / DayMs, off, DayMs);
    DivModUnique(off, h, minuteOff, HourMs);
    DivModUnique(t % HourMs, m, 0, MinuteMs);
    assert t % HourMs == minuteOff by {
      DivModUnique(t, (midnight / DayMs) * 24 + h, minuteOff, HourMs);
    }
  }

  /** A clock string of digits alone, without ':', sets the hour they spell and zero minutes. */
  lemma ParseTimeWithoutMinutes(time: string, h: nat, reference: int)
    requires |time| > 0 && IsDigits(time) && DigitsValue(time) == h
    ensures ParseTimeToDate(time, reference) == Some(DayStart(reference) + h * HourMs)
  {
    HourOnlyFields(time, h);
    HourOnlyToDate(time, reference, h);
  }

  /** Digits alone are the hour field, and the minutes default to zero. */
  lemma HourOnlyFields(time: string, h: nat)
    requires |time| > 0 && IsDigits(time) && DigitsValue(time) == h
    ensures ClockFieldsOf(time) == Some((h as int, 0))
  {
    DigitsHaveNoColon(time);
    var parts := Split(time, ':');
    assert parts == [time];
    ParseZero();
  }

  /** A clock string read as hour `h` and no minutes sets `h:00` on the reference's day. */
  lemma HourOnlyToDate(time: string, reference: int, h: int)
    requires ClockFieldsOf(time) == Some((h, 0))
    ensures ParseTimeToDate(time, reference) == Some(DayStart(reference) + h * HourMs)
  {
    FieldsToDateAt(time, reference, h, 0, DayStart(reference) + h * HourMs);
  }

  lemma ParseZero()
    ensures ParseInt("0") == Some(0)
  {
    assert IsDigits("0") && DigitsValue("0") == 0;
  }
}

=== FILE: daily_reminders.dfy ===
/**
 * The daily-repeating scheduler of lib/notifications.ts: the same reminder
 * times and texts as the fixed-time scheduler, but each request repeats
 * every day at its clock time, and there is no permission check.
 */
module DailyReminders {
  import opened Wrappers
  import opened JsMath
  import opened Clock
  import opened Platform
  import opened ReminderTimes
  import opened Legacy

  /** The daily request for one clock time, read back with `split(':').map(Number)`. */
  function DailyRequest(time: string, amount: int): (n: Notification)
    requires ParseHHMM(time).Some?
    ensures n.trigger == Daily(ParseHHMM(time).value.0, ParseHHMM(time).value.1)
  {
    var (h, m) := ParseHHMM(time).value;
    Notification(LegacyTitle, ReminderBody(amount), NoData, Daily(h, m), Some(ChannelId))
  }

  /**
   * `scheduleReminders` (lib/notifications.ts): every pending request is
   * cancelled, whatever it was, and one daily request is made for each of
   * the first 64 reminder times.
   */
  function ScheduleDailyReminders(wakeTime: string, sleepTime: string, targetMl: real, reminderCount: int,
                                  pending: seq<Notification>): (after: seq<Notification>)
    requires Schedulable(wakeTime, sleepTime, reminderCount)
    ensures |after| == MinInt(MaxInt(reminderCount, 0), MaxNotifications)
    ensures forall i :: 0 <= i < |after| ==> after[i].trigger.Daily? && after[i].channel == Some(ChannelId)
  {
    if reminderCount <= 0 then []
    else
      var times := CalculateReminderTimes(wakeTime, sleepTime, reminderCount);
      var n := MinInt(|times|, MaxNotifications);
      var amount := AmountPerReminder(targetMl, reminderCount);
      TimesParse(wakeTime, sleepTime, reminderCount);
      seq(n, (i: int) requires 0 <= i < n => DailyRequest(times[i], amount))
  }

  /** Request `i` repeats daily at the hour and minute of reminder time `i`. */
  lemma DailyTimes(wakeTime: string, sleepTime: string, targetMl: real, reminderCount: int,
                   pending: seq<Notification>, i: nat)
    requires Schedulable(wakeTime, sleepTime, reminderCount)
    requires i < |ScheduleDailyReminders(wakeTime, sleepTime, targetMl, reminderCount, pending)|
    ensures var n := ScheduleDailyReminders(wakeTime, sleepTime, targetMl, reminderCount, pending)[i];
      var wake := ReadClock(wakeTime).value;
      var minute := SlotMinute(wake, DaySpan(wake, ReadClock(sleepTime).value), reminderCount, i);
      && n.trigger == Daily(minute / 60, minute % 60)
      && n.body == ReminderBody(AmountPerReminder(targetMl, reminderCount))
      && n.title == LegacyTitle && n.channel == Some(ChannelId)
  {
    TimesParse(wakeTime, sleepTime, reminderCount);
  }

  /**
   * The two schedulers agree: request `i` of the daily one repeats at the
   * clock time at which request `i` of the fixed-time one (with permission)
   * first fires, with the same text; only the trigger kind differs.
   */
  lemma SchedulersAgree(wakeTime: string, sleepTime: string, targetMl: real, reminderCount: int,
                        now: int, pending: seq<Notification>, i: nat)
    requires Schedulable(wakeTime, sleepTime, reminderCount)
    requires i < |ScheduleDailyReminders(wakeTime, sleepTime, targetMl, reminderCount, pending)|
    ensures var daily := ScheduleDailyReminders(wakeTime, sleepTime, targetMl, reminderCount, pending);
      var fixed := ScheduleReminders(true, wakeTime, sleepTime, targetMl, reminderCount, now, pending);
      && |fixed| == |daily|
      && fixed[i].trigger.At?
      && daily[i].trigger == Daily(HourOf(fixed[i].trigger.instant), MinuteOf(fixed[i].trigger.instant))
      && daily[i].title == fixed[i].title && daily[i].body == fixed[i].body
      && daily[i].channel == fixed[i].channel
  {
    var wake := ReadClock(wakeTime).value;
    var minute := SlotMinute(wake, DaySpan(wake, ReadClock(sleepTime).value), reminderCount, i);
    DailyTimes(wakeTime, sleepTime, targetMl, reminderCount, pending, i);
    ScheduledTimes(wakeTime, sleepTime, targetMl, reminderCount, now, pending, i);
    var t := ScheduleReminders(true, wakeTime, sleepTime, targetMl, reminderCount, now, pending)[i].trigger.instant;
    DivModUnique(minute, HourOf(t), MinuteOf(t), 60);
  }
}

=== FILE: hydration_store.dfy ===
/**
 * The hydration store's actions and selectors (stores/hydrationStore.ts) as
 * pure transformers of the app state.
 *
 * "Today" is the calendar day of the device clock, passed in as `today`;
 * a log is today's when its instant falls on that day. `lastUpdated` stamps
 * stand for the `new Date().toISOString()` the source takes from the clock.
 */
module HydrationStore {
  import opened Wrappers
  import opened JsMath
  import opened Clock
  import opened Types
  import opened Seqs
  import opened LearningEngine
  import opened LifestyleTemplates

  // ---------------------------------------------------------------------
  // Daily goal

  /** The activity bonus `calculateDailyGoal` adds to 35 ml per kilogram. */
  function ActivityBonus(level: Level): real {
    match level
    case Low => 0.0
    case Medium => 500.0
    case High => 1000.0
  }

  const MinGoalMl: real := 1200.0
  const MaxGoalMl: real := 5000.0

  /**
   * `calculateDailyGoal`: 35 ml per kilogram plus the activity bonus, clamped
   * to [1200, 5000] ml, tagged `v1` and not manually overridden.
   */
  function CalculateDailyGoal(profile: UserProfile, today: int): (goal: DailyGoal)
    ensures MinGoalMl <= goal.targetMl <= MaxGoalMl
    ensures var raw := profile.weightKg * 35.0 + ActivityBonus(profile.activityLevel);
      && (MinGoalMl <= raw <= MaxGoalMl ==> goal.targetMl == raw)
      && (raw < MinGoalMl ==> goal.targetMl == MinGoalMl)
      && (raw > MaxGoalMl ==> goal.targetMl == MaxGoalMl)
    ensures goal.date == today && goal.algorithm == V1 && !goal.manualOverride
  {
    var totalAmount := profile.weightKg * 35.0 + ActivityBonus(profile.activityLevel);
    DailyGoal(today, MaxReal(MinGoalMl, MinReal(MaxGoalMl, totalAmount)), V1, false)
  }

  /** A heavier or more active user never gets a smaller goal. */
  lemma GoalMonotone(a: UserProfile, b: UserProfile, today: int)
    requires a.weightKg <= b.weightKg
    requires ActivityBonus(a.activityLevel) <= ActivityBonus(b.activityLevel)
    ensures CalculateDailyGoal(a, today).targetMl <= CalculateDailyGoal(b, today).targetMl
  {
  }

  /** Strictly inside the clamp, the goal determines the weight back. */
  lemma GoalDeterminesWeight(profile: UserProfile, today: int)
    requires var t := CalculateDailyGoal(profile, today).targetMl; MinGoalMl < t < MaxGoalMl
    ensures profile.weightKg
      == (CalculateDailyGoal(profile, today).targetMl - ActivityBonus(profile.activityLevel)) / 35.0
  {
  }

  /** `setUserProfile`: store the profile and always recompute the goal from it. */
  function SetUserProfile(state: AppState, profile: UserProfile, today: int): (r: AppState)
    ensures r.userProfile == Some(profile)
    ensures r.dailyGoal.Some? && r.dailyGoal.value == CalculateDailyGoal(profile, today)
    ensures MinGoalMl <= r.dailyGoal.value.targetMl <= MaxGoalMl
    ensures r.(userProfile := state.userProfile, dailyGoal := state.dailyGoal) == state
  {
    state.(userProfile := Some(profile), dailyGoal := Some(CalculateDailyGoal(profile, today)))
  }

  /** Even a manually overridden goal is replaced when the profile is saved. */
  lemma SetUserProfileDropsOverride(state: AppState, profile: UserProfile, today: int)
    requires state.dailyGoal.Some? && state.dailyGoal.value.manualOverride
    ensures !SetUserProfile(state, profile, today).dailyGoal.value.manualOverride
  {
  }

  // ---------------------------------------------------------------------
  // Intake logs

  /** `getLocalDateString(new Date(log.dateTime)) === todayKey` */
  predicate IsToday(log: IntakeLog, today: int) {
    CalendarDay(log.dateTime) == today
  }

  /** The `filter` callback that keeps the logs of one calendar day. */
  function OfDay(today: int): IntakeLog -> bool {
    log => IsToday(log, today)
  }

  /** Today's logs, in their order and with their copies. */
  function TodayLogs(logs: seq<IntakeLog>, today: int): (r: seq<IntakeLog>)
    ensures forall i :: 0 <= i < |r| ==> IsToday(r[i], today) && r[i] in logs
    ensures forall i :: 0 <= i < |logs| && IsToday(logs[i], today) ==> logs[i] in r
    ensures KeepsInOrder(logs, OfDay(today), r)
  {
    FilterKeepsOrder(logs, OfDay(today));
    Filter(logs, OfDay(today))
  }

  /** `setTodayIntake`: keep exactly the given logs that are today's, in order. */
  function SetTodayIntake(state: AppState, logs: seq<IntakeLog>, today: int): (r: AppState)
    ensures forall i :: 0 <= i < |r.todayIntake| ==> IsToday(r.todayIntake[i], today)
    ensures forall i :: 0 <= i < |r.todayIntake| ==> r.todayIntake[i] in logs
    ensures forall i :: 0 <= i < |logs| && IsToday(logs[i], today) ==> logs[i] in r.todayIntake
    ensures KeepsInOrder(logs, OfDay(today), r.todayIntake)
    ensures r.(todayIntake := state.todayIntake) == state
  {
    state.(todayIntake := TodayLogs(logs, today))
  }

  /** Re-setting the intake with what is already stored for today changes nothing. */
  lemma SetTodayIntakeIdempotent(state: AppState, logs: seq<IntakeLog>, today: int)
    ensures var once := SetTodayIntake(state, logs, today);
      SetTodayIntake(once, once.todayIntake, today) == once
  {
    FilterIdempotent(logs, OfDay(today));
  }

  predicate HasId(logs: seq<IntakeLog>, id: string) {
    exists i :: 0 <= i < |logs| && logs[i].id == id
  }

  predicate UniqueIds(logs: seq<IntakeLog>) {
    forall i, j :: 0 <= i < j < |logs| ==> logs[i].id != logs[j].id
  }

  /**
   * `addIntakeLog`: a log dated another day, or whose id is already stored,
   * leaves the list as it is; any other log is appended at the end.
   */
  function AddIntakeLog(state: AppState, log: IntakeLog, today: int): (r: AppState)
    ensures !IsToday(log, today) || HasId(state.todayIntake, log.id) ==> r == state
    ensures IsToday(log, today) && !HasId(state.todayIntake, log.id) ==>
      r.todayIntake == state.todayIntake + [log]
    ensures r.(todayIntake := state.todayIntake) == state
  {
    if !IsToday(log, today) || (exists i :: 0 <= i < |state.todayIntake| && state.todayIntake[i].id == log.id)
    then state
    else state.(todayIntake := state.todayIntake + [log])
  }

  /** Appending keeps the stored ids distinct. */
  lemma AddKeepsIdsUnique(state: AppState, log: IntakeLog, today: int)
    requires UniqueIds(state.todayIntake)
    ensures UniqueIds(AddIntakeLog(state, log, today).todayIntake)
  {
    var before := state.todayIntake;
    var after := AddIntakeLog(state, log, today).todayIntake;
    if after != before {
      forall i, j | 0 <= i < j < |after|
        ensures after[i].id != after[j].id
      {
        if j == |before| {
          assert after[i] == before[i];
        }
      }
    }
  }

  /** The `filter` callback of `deleteIntakeLog`. */
  function OtherId(id: string): IntakeLog -> bool {
    (item: IntakeLog) => item.id != id
  }

  /** `deleteIntakeLog`: drop every entry with that id, keeping the rest in order. */
  function DeleteIntakeLog(state: AppState, id: string): (r: AppState)
    ensures !HasId(r.todayIntake, id)
    ensures forall i :: 0 <= i < |state.todayIntake| && state.todayIntake[i].id != id ==>
      state.todayIntake[i] in r.todayIntake
    ensures forall i :: 0 <= i < |r.todayIntake| ==> r.todayIntake[i] in state.todayIntake
    ensures KeepsInOrder(state.todayIntake, OtherId(id), r.todayIntake)
    ensures r.(todayIntake := state.todayIntake) == state
  {
    FilterKeepsOrder(state.todayIntake, OtherId(id));
    state.(todayIntake := Filter(state.todayIntake, OtherId(id)))
  }

  /** Deleting an id nobody carries changes nothing. */
  lemma DeleteMissingIdIsNoOp(state: AppState, id: string)
    requires !HasId(state.todayIntake, id)
    ensures DeleteIntakeLog(state, id) == state
  {
    FilterKeepsAll(state.todayIntake, OtherId(id));
  }

  /** Deleting a log that was just added restores the previous state. */
  lemma DeleteUndoesAdd(state: AppState, log: IntakeLog, today: int)
    requires IsToday(log, today) && !HasId(state.todayIntake, log.id)
    ensures DeleteIntakeLog(AddIntakeLog(state, log, today), log.id) == state
  {
    var p := OtherId(log.id);
    FilterConcat(state.todayIntake, [log], p);
    FilterKeepsAll(state.todayIntake, p);
  }

  /** The fields a `Partial<IntakeLog>` may carry; `note` may also be cleared. */
  datatype LogPatch = LogPatch(
    id: Option<string>,
    dateTime: Option<int>,
    amountMl: Option<real>,
    source: Option<IntakeSource>,
    note: Option<Option<string>>)

  /** `{ ...item, ...patch }` */
  function MergeLog(item: IntakeLog, patch: LogPatch): (r: IntakeLog)
    ensures r.id == patch.id.GetOr(item.id)
    ensures r.dateTime == patch.dateTime.GetOr(item.dateTime)
    ensures r.amountMl == patch.amountMl.GetOr(item.amountMl)
    ensures r.source == patch.source.GetOr(item.source)
    ensures r.note == patch.note.GetOr(item.note)
  {
    IntakeLog(patch.id.GetOr(item.id), patch.dateTime.GetOr(item.dateTime),
              patch.amountMl.GetOr(item.amountMl), patch.source.GetOr(item.source),
              patch.note.GetOr(item.note))
  }

  /** `updateIntakeLog`: patch the entries with that id; length, order and every other entry stay. */
  function UpdateIntakeLog(state: AppState, id: string, patch: LogPatch): (r: AppState)
    ensures |r.todayIntake| == |state.todayIntake|
    ensures forall i :: 0 <= i < |state.todayIntake| ==>
      r.todayIntake[i] == if state.todayIntake[i].id == id then MergeLog(state.todayIntake[i], patch)
                          else state.todayIntake[i]
    ensures r.(todayIntake := state.todayIntake) == state
  {
    var logs := state.todayIntake;
    state.(todayIntake := seq(|logs|, i requires 0 <= i < |logs| =>
      if logs[i].id == id then MergeLog(logs[i], patch) else logs[i]))
  }

  /** A patch that keeps the id keeps the stored ids distinct. */
  lemma UpdateKeepsIdsUnique(state: AppState, id: string, patch: LogPatch)
    requires UniqueIds(state.todayIntake)
    requires patch.id == None || patch.id == Some(id)
    ensures UniqueIds(UpdateIntakeLog(state, id, patch).todayIntake)
  {
    var after := UpdateIntakeLog(state, id, patch).todayIntake;
    assert forall i :: 0 <= i < |after| ==> after[i].id == state.todayIntake[i].id;
  }

  /** A patch that sets another id can make two entries share it. */
  lemma UpdateMayDuplicateIds(state: AppState, a: IntakeLog, b: IntakeLog)
    requires state.todayIntake == [a, b] && a.id != b.id
    ensures var patch := LogPatch(Some(b.id), None, None, None, None);
      !UniqueIds(UpdateIntakeLog(state, a.id, patch).todayIntake)
  {
    var after := UpdateIntakeLog(state, a.id, LogPatch(Some(b.id), None, None, None, None)).todayIntake;
    assert after[0].id == after[1].id;
  }

  // ---------------------------------------------------------------------
  // Settings

  /** The fields a `Partial<Settings>` may carry. */
  datatype SettingsPatch = SettingsPatch(
    units: Option<VolumeUnit>,
    presetMl: Option<seq<real>>,
    snoozeMinutes: Option<int>,
    quietHours: Option<seq<TimeRange>>,
    analyticsOptIn: Option<bool>,
    language: Option<Language>,
    theme: Option<Theme>)

  const NoChange: SettingsPatch := SettingsPatch(None, None, None, None, None, None, None)

  /** `{ ...state.settings, ...patch }` */
  function MergeSettings(s: Settings, patch: SettingsPatch): (r: Settings)
    ensures r.units == patch.units.GetOr(s.units)
    ensures r.presetMl == patch.presetMl.GetOr(s.presetMl)
    ensures r.snoozeMinutes == patch.snoozeMinutes.GetOr(s.snoozeMinutes)
    ensures r.quietHours == patch.quietHours.GetOr(s.quietHours)
    ensures r.analyticsOptIn == patch.analyticsOptIn.GetOr(s.analyticsOptIn)
    ensures r.language == patch.language.GetOr(s.language)
    ensures r.theme == patch.theme.GetOr(s.theme)
  {
    Settings(patch.units.GetOr(s.units), patch.presetMl.GetOr(s.presetMl),
             patch.snoozeMinutes.GetOr(s.snoozeMinutes), patch.quietHours.GetOr(s.quietHours),
             patch.analyticsOptIn.GetOr(s.analyticsOptIn), patch.language.GetOr(s.language),
             patch.theme.GetOr(s.theme))
  }

  /** `setSettings`: shallow-merge the patch into the settings; nothing else changes. */
  function SetSettings(state: AppState, patch: SettingsPatch): (r: AppState)
    ensures r.settings == MergeSettings(state.settings, patch)
    ensures r.(settings := state.settings) == state
  {
    state.(settings := MergeSettings(state.settings, patch))
  }

  /** The empty patch changes nothing; applying a patch twice is applying it once. */
  lemma SetSettingsLaws(state: AppState, patch: SettingsPatch)
    ensures SetSettings(state, NoChange) == state
    ensures SetSettings(SetSettings(state, patch), patch) == SetSettings(state, patch)
  {
  }

  /** The later patch wins on every field it carries. */
  lemma SetSettingsLastWins(state: AppState, first: SettingsPatch, second: SettingsPatch)
    ensures var r := SetSettings(SetSettings(state, first), second).settings;
      && r.units == second.units.GetOr(first.units.GetOr(state.settings.units))
      && r.snoozeMinutes == second.snoozeMinutes.GetOr(first.snoozeMinutes.GetOr(state.settings.snoozeMinutes))
      && r.quietHours == second.quietHours.GetOr(first.quietHours.GetOr(state.settings.quietHours))
      && r.presetMl == second.presetMl.GetOr(first.presetMl.GetOr(state.settings.presetMl))
      && r.analyticsOptIn == second.analyticsOptIn.GetOr(first.analyticsOptIn.GetOr(state.settings.analyticsOptIn))
      && r.language == second.language.GetOr(first.language.GetOr(state.settings.language))
      && r.theme == second.theme.GetOr(first.theme.GetOr(state.settings.theme))
  {
  }

  // ---------------------------------------------------------------------
  // Personalised settings

  /** `initializePersonalizedSettings(workType = 'deskWorker')` */
  function InitializePersonalizedSettings(state: AppState, workType: Option<string>, lastUpdated: string)
    : (r: AppState)
    ensures r.personalizedSettings == Some(GetDefaultPersonalizedSettings(workType, lastUpdated))
    ensures r.personalizedSettings.value.learningData.successfulReminders == []
    ensures r.(personalizedSettings := state.personalizedSettings) == state
  {
    state.(personalizedSettings := Some(GetDefaultPersonalizedSettings(workType, lastUpdated)))
  }

  /**
   * `updateLearningData`: without personalised settings or without intake
   * nothing happens; otherwise the patterns learned from the stored intake
   * are folded into the notification pattern.
   */
  function UpdateLearningData(state: AppState, lastUpdated: string): (r: AppState)
    ensures state.personalizedSettings == None || |state.todayIntake| == 0 ==> r == state
    ensures state.personalizedSettings.Some? && |state.todayIntake| > 0 ==>
      r.personalizedSettings == Some(AdjustScheduleBasedOnLearning(
        state.personalizedSettings.value, LearnUserPatterns(state.todayIntake, lastUpdated)))
    ensures r.(personalizedSettings := state.personalizedSettings) == state
  {
    if state.personalizedSettings == None || |state.todayIntake| == 0 then state
    else
      var learningData := LearnUserPatterns(state.todayIntake, lastUpdated);
      state.(personalizedSettings := Some(AdjustScheduleBasedOnLearning(state.personalizedSettings.value, learningData)))
  }

  /**
   * The learned data only reshapes the pattern: the stored `learningData`
   * and the lifestyle never change, and the frequency stays as it was.
   */
  lemma UpdateLearningKeepsLearningData(state: AppState, lastUpdated: string)
    requires state.personalizedSettings.Some?
    ensures var r := UpdateLearningData(state, lastUpdated).personalizedSettings.value;
      && r.learningData == state.personalizedSettings.value.learningData
      && r.lifestyle == state.personalizedSettings.value.lifestyle
      && r.notificationPattern.frequency == state.personalizedSettings.value.notificationPattern.frequency
  {
  }

  // ---------------------------------------------------------------------
  // Selectors

  /** `getTodayIntake` */
  function GetTodayIntake(state: AppState, today: int): (r: seq<IntakeLog>)
    ensures forall i :: 0 <= i < |r| ==> IsToday(r[i], today) && r[i] in state.todayIntake
    ensures forall i :: 0 <= i < |state.todayIntake| && IsToday(state.todayIntake[i], today) ==>
      state.todayIntake[i] in r
    ensures KeepsInOrder(state.todayIntake, OfDay(today), r)
  {
    TodayLogs(state.todayIntake, today)
  }

  /** `getTodayTotal`: the sum of the amounts `getTodayIntake` selects. */
  function GetTodayTotal(state: AppState, today: int): (total: real)
    ensures (forall i :: 0 <= i < |state.todayIntake| ==> state.todayIntake[i].amountMl >= 0.0) ==> total >= 0.0
  {
    var logs := Filter(state.todayIntake, OfDay(today));
    AmountsNonNegative(logs);
    TotalWeight(logs, Amount)
  }

  lemma {:induction false} AmountsNonNegative(logs: seq<IntakeLog>)
    ensures (forall i :: 0 <= i < |logs| ==> logs[i].amountMl >= 0.0) ==> TotalWeight(logs, Amount) >= 0.0
    decreases |logs|
  {
    if |logs| > 0 {
      assert forall i :: 0 <= i < |logs| - 1 ==> Init(logs)[i] == logs[i];
      AmountsNonNegative(Init(logs));
    }
  }

  lemma {:induction false} TotalConcat(a: seq<IntakeLog>, b: seq<IntakeLog>)
    ensures TotalWeight(a + b, Amount) == TotalWeight(a, Amount) + TotalWeight(b, Amount)
    decreases |b|
  {
    if |b| == 0 {
      assert a + b == a;
    } else {
      assert Init(a + b) == a + Init(b);
      assert Last(a + b) == Last(b);
      TotalConcat(a, Init(b));
    }
  }

  /** Adding a fresh log for today raises today's total by exactly its amount. */
  lemma AddRaisesTotal(state: AppState, log: IntakeLog, today: int)
    requires IsToday(log, today) && !HasId(state.todayIntake, log.id)
    ensures GetTodayTotal(AddIntakeLog(state, log, today), today) == GetTodayTotal(state, today) + log.amountMl
  {
    var p := OfDay(today);
    FilterConcat(state.todayIntake, [log], p);
    TotalConcat(Filter(state.todayIntake, p), [log]);
    assert TotalWeight([log], Amount) == log.amountMl by {
      assert Init([log]) == [];
    }
  }

  /** `dailyGoal?.targetMl || 0` */
  function GoalMl(state: AppState): real {
    if state.dailyGoal.Some? then state.dailyGoal.value.targetMl else 0.0
  }

  /**
   * `getTodayProgress`: the share of the goal reached, capped at 1, and 0
   * without a positive goal. It reaches 1 exactly when the total meets the goal.
   */
  function GetTodayProgress(state: AppState, today: int): (progress: real)
    ensures GoalMl(state) <= 0.0 ==> progress == 0.0
    ensures GoalMl(state) > 0.0 && GetTodayTotal(state, today) >= 0.0 ==> 0.0 <= progress <= 1.0
    ensures progress == 1.0 <==> GoalMl(state) > 0.0 && GetTodayTotal(state, today) >= GoalMl(state)
    ensures GoalMl(state) > 0.0 && GetTodayTotal(state, today) < GoalMl(state) ==>
      progress * GoalMl(state) == GetTodayTotal(state, today)
  {
    var total := GetTodayTotal(state, today);
    var goal := GoalMl(state);
    if goal > 0.0 then
      ShareOfGoal(total, goal);
      MinReal(total / goal, 1.0)
    else 0.0
  }

  /** Dividing by a positive goal: the share is at least 1 exactly when the total meets the goal. */
  lemma ShareOfGoal(total: real, goal: real)
    requires goal > 0.0
    ensures (total / goal) * goal == total
    ensures total / goal >= 1.0 <==> total >= goal
    ensures total >= 0.0 ==> total / goal >= 0.0
  {
    var q := total / goal;
    assert q * goal == total;
    assert q * goal - goal == (q - 1.0) * goal;
    if q >= 1.0 {
      assert (q - 1.0) * goal >= 0.0;
    } else {
      assert (1.0 - q) * goal > 0.0;
    }
    if q < 0.0 {
      assert (-q) * goal > 0.0;
    }
  }

  /** More intake today never lowers the progress. */
  lemma ProgressMonotone(a: AppState, b: AppState, today: int)
    requires GoalMl(a) == GoalMl(b)
    requires GetTodayTotal(a, today) <= GetTodayTotal(b, today)
    ensures GetTodayProgress(a, today) <= GetTodayProgress(b, today)
  {
    var goal := GoalMl(a);
    if goal > 0.0 {
      var ta, tb := GetTodayTotal(a, today), GetTodayTotal(b, today);
      QuotientMonotone(ta, tb, goal);
      assert GetTodayProgress(a, today) == MinReal(ta / goal, 1.0);
      assert GetTodayProgress(b, today) == MinReal(tb / goal, 1.0);
    }
  }

  lemma QuotientMonotone(x: real, y: real, d: real)
    requires x <= y && d > 0.0
    ensures x / d <= y / d
  {
    assert y / d - x / d == (y - x) / d;
  }
}

=== FILE: js_math.dfy ===
/**
 * The `Math` helpers the app relies on, over exact reals.
 * JavaScript's `Math.round` sends halves towards +infinity, so `Round(-2.5) == -2`.
 */
module JsMath {

  /** `Math.floor` */
  function Floor(x: real): (r: int)
    ensures r as real <= x < r as real + 1.0
  {
    x.Floor
  }

  /** `Math.ceil` */
  function Ceil(x: real): (r: int)
    ensures x <= r as real < x + 1.0
  {
    -((-x).Floor)
  }

  /** `Math.round`: the nearest integer, halves going up. */
  function Round(x: real): (r: int)
    ensures r as real - 0.5 <= x < r as real + 0.5
  {
    (x + 0.5).Floor
  }

  function MinReal(a: real, b: real): (r: real)
    ensures r <= a && r <= b && (r == a || r == b)
  {
    if a <= b then a else b
  }

  function MaxReal(a: real, b: real): (r: real)
    ensures r >= a && r >= b && (r == a || r == b)
  {
    if a >= b then a else b
  }

  function MinInt(a: int, b: int): (r: int)
    ensures r <= a && r <= b && (r == a || r == b)
  {
    if a <= b then a else b
  }

  function MaxInt(a: int, b: int): (r: int)
    ensures r >= a && r >= b && (r == a || r == b)
  {
    if a >= b then a else b
  }

  /** An integer-valued real rounds to itself. */
  lemma RoundOfInteger(n: int)
    ensures Round(n as real) == n
  {
  }
}

=== FILE: learning_engine.dfy ===
/**
 * The learning engine (lib/learningEngine.ts): per-hour aggregation of the
 * intake logs, the five busiest hours, the hours without intake, a frequency
 * tier, and the merges that fold what was learned into the notification
 * pattern.
 *
 * A log's hour is the local hour of its instant. JavaScript records keyed by
 * the two-digit hour become maps keyed by the hour number.
 */
module LearningEngine {
  import opened Wrappers
  import opened Text
  import opened Clock
  import opened Types
  import opened Seqs

  /** `new Date(log.dateTime).getHours()` */
  function LogHour(log: IntakeLog): (h: nat)
    ensures h < 24
  {
    HourOf(log.dateTime)
  }

  function Init<T>(s: seq<T>): seq<T>
    requires |s| > 0
  {
    s[..|s| - 1]
  }

  function Last<T>(s: seq<T>): T
    requires |s| > 0
  {
    s[|s| - 1]
  }

  /** The hours in which at least one log falls. */
  function ActiveHours(logs: seq<IntakeLog>): (hours: set<nat>)
    ensures forall h :: h in hours ==> h < 24
    ensures forall i :: 0 <= i < |logs| ==> LogHour(logs[i]) in hours
  {
    if |logs| == 0 then {}
    else
      var prev := ActiveHours(Init(logs));
      assert forall i :: 0 <= i < |logs| - 1 ==> Init(logs)[i] == logs[i];
      prev + {LogHour(Last(logs))}
  }

  /** Total weight of the logs that fall in hour `h`, summed in log order. */
  function WeightInHour(logs: seq<IntakeLog>, h: nat, weight: IntakeLog -> real): (total: real)
    ensures h !in ActiveHours(logs) ==> total == 0.0
  {
    if |logs| == 0 then 0.0
    else
      WeightInHour(Init(logs), h, weight)
      + (if LogHour(Last(logs)) == h then weight(Last(logs)) else 0.0)
  }

  /** Total weight of all logs (`reduce((sum, log) => sum + weight(log), 0)`). */
  function TotalWeight(logs: seq<IntakeLog>, weight: IntakeLog -> real): real {
    if |logs| == 0 then 0.0 else TotalWeight(Init(logs), weight) + weight(Last(logs))
  }

  function Amount(log: IntakeLog): real {
    log.amountMl
  }

  function One(log: IntakeLog): real {
    1.0
  }

  /**
   * The `forEach` that accumulates `record[hour] = (record[hour] || 0) + weight`.
   * Exactly the active hours are keys, each holding its hour's total.
   */
  function HourlyTotals(logs: seq<IntakeLog>, weight: IntakeLog -> real): (m: map<nat, real>)
    ensures m.Keys == ActiveHours(logs)
    ensures forall h :: h in m ==> m[h] == WeightInHour(logs, h, weight)
  {
    if |logs| == 0 then map[]
    else
      var prev := HourlyTotals(Init(logs), weight);
      var h := LogHour(Last(logs));
      prev[h := (if h in prev then prev[h] else 0.0) + weight(Last(logs))]
  }

  /** `analyzeHourlyPatterns`: millilitres logged per hour. */
  function AnalyzeHourlyPatterns(logs: seq<IntakeLog>): map<nat, real> {
    HourlyTotals(logs, Amount)
  }

  /** The value a record holds for `h`, 0 when absent. */
  function Get(m: map<nat, real>, h: nat): real {
    if h in m then m[h] else 0.0
  }

  /** Sum of a per-hour record over the hours below `n`. */
  function SumHours(m: map<nat, real>, n: nat): real {
    if n == 0 then 0.0 else SumHours(m, n - 1) + Get(m, n - 1)
  }

  /** Sum over the hours below `n` of the per-hour reference totals. */
  function HourTotals(logs: seq<IntakeLog>, n: nat, weight: IntakeLog -> real): real {
    if n == 0 then 0.0 else HourTotals(logs, n - 1, weight) + WeightInHour(logs, n - 1, weight)
  }

  lemma {:induction false} SumHoursOfTotals(logs: seq<IntakeLog>, n: nat, weight: IntakeLog -> real)
    ensures SumHours(HourlyTotals(logs, weight), n) == HourTotals(logs, n, weight)
  {
    if n > 0 {
      SumHoursOfTotals(logs, n - 1, weight);
    }
  }

  lemma {:induction false} HourTotalsStep(logs: seq<IntakeLog>, n: nat, weight: IntakeLog -> real)
    requires |logs| > 0
    ensures HourTotals(logs, n, weight)
      == HourTotals(Init(logs), n, weight) + (if LogHour(Last(logs)) < n then weight(Last(logs)) else 0.0)
  {
    if n > 0 {
      HourTotalsStep(logs, n - 1, weight);
    }
  }

  lemma {:induction false} HourTotalsOfDay(logs: seq<IntakeLog>, weight: IntakeLog -> real)
    ensures HourTotals(logs, 24, weight) == TotalWeight(logs, weight)
    decreases |logs|
  {
    if |logs| > 0 {
      HourTotalsStep(logs, 24, weight);
      HourTotalsOfDay(Init(logs), weight);
    } else {
      HourTotalsOfEmpty(logs, 24, weight);
    }
  }

  lemma {:induction false} HourTotalsOfEmpty(logs: seq<IntakeLog>, n: nat, weight: IntakeLog -> real)
    requires |logs| == 0
    ensures HourTotals(logs, n, weight) == 0.0
  {
    if n > 0 {
      HourTotalsOfEmpty(logs, n - 1, weight);
    }
  }

  /** The per-hour amounts add up to the total of all logged amounts. */
  lemma HourlyPatternsSumToTotal(logs: seq<IntakeLog>)
    ensures SumHours(AnalyzeHourlyPatterns(logs), 24) == TotalWeight(logs, Amount)
  {
    SumHoursOfTotals(logs, 24, Amount);
    HourTotalsOfDay(logs, Amount);
  }

  // ---------------------------------------------------------------------
  // analyzeSuccessfulReminders

  predicate Increasing(s: seq<nat>) {
    forall i, j :: 0 <= i < j < |s| ==> s[i] < s[j]
  }

  /**
   * The hours from `lo` to 23, ascending, whose membership in `active` is
   * `present`.
   */
  function HoursFrom(active: set<nat>, lo: nat, present: bool): (s: seq<nat>)
    requires lo <= 24
    ensures Increasing(s)
    ensures forall i :: 0 <= i < |s| ==> lo <= s[i] < 24 && (s[i] in active) == present
    ensures forall h: nat :: lo <= h < 24 && (h in active) == present ==> h in s
    decreases 24 - lo
  {
    if lo == 24 then []
    else if (lo in active) == present then [lo] + HoursFrom(active, lo + 1, present)
    else HoursFrom(active, lo + 1, present)
  }

  /** Each hour from `lo` on is listed on exactly one side. */
  lemma {:induction false} HoursFromSplit(active: set<nat>, lo: nat)
    requires lo <= 24
    ensures |HoursFrom(active, lo, true)| + |HoursFrom(active, lo, false)| == 24 - lo
    decreases 24 - lo
  {
    if lo < 24 {
      HoursFromSplit(active, lo + 1);
      var kept, skipped := HoursFrom(active, lo + 1, true), HoursFrom(active, lo + 1, false);
      if lo in active {
        assert |HoursFrom(active, lo, true)| == |kept| + 1;
        assert |HoursFrom(active, lo, false)| == |skipped|;
      } else {
        assert |HoursFrom(active, lo, true)| == |kept|;
        assert |HoursFrom(active, lo, false)| == |skipped| + 1;
      }
    }
  }

  /** The active hours from 10 on, ascending: the keys "10".."23", which are array indices. */
  function IndexKeys(logs: seq<IntakeLog>): (s: seq<nat>)
    ensures Increasing(s)
    ensures forall i :: 0 <= i < |s| ==> 10 <= s[i] && s[i] in ActiveHours(logs)
    ensures forall h :: h in ActiveHours(logs) && h >= 10 ==> h in s
  {
    HoursFrom(ActiveHours(logs), 10, true)
  }

  /**
   * Hours before 10 (keys "00".."09" are not array indices), in the order
   * they first occur in the logs.
   */
  function FirstSeenEarlyHours(logs: seq<IntakeLog>): (s: seq<nat>)
    ensures NoDuplicates(s)
    ensures forall i :: 0 <= i < |s| ==> s[i] < 10 && s[i] in ActiveHours(logs)
    ensures forall h :: h in ActiveHours(logs) && h < 10 ==> h in s
  {
    if |logs| == 0 then []
    else
      var prev := FirstSeenEarlyHours(Init(logs));
      var h := LogHour(Last(logs));
      if h < 10 && h !in prev then prev + [h] else prev
  }

  /**
   * The order `Object.entries` lists an hour record in: array-index keys
   * ("10".."23") ascending, then the other keys in insertion order.
   */
  function EntryOrder(logs: seq<IntakeLog>): (s: seq<nat>)
    ensures NoDuplicates(s)
    ensures forall i :: 0 <= i < |s| ==> s[i] in ActiveHours(logs)
    ensures forall h :: h in ActiveHours(logs) ==> h in s
  {
    ConcatNoDuplicates(IndexKeys(logs), FirstSeenEarlyHours(logs));
    IndexKeys(logs) + FirstSeenEarlyHours(logs)
  }

  /** Every active hour is listed exactly once. */
  lemma EntryOrderSize(logs: seq<IntakeLog>)
    ensures |EntryOrder(logs)| == |ActiveHours(logs)|
  {
    var s := EntryOrder(logs);
    DistinctCardinality(s, ActiveHours(logs));
  }

  /** Number of logs in hour `h`. */
  function LogCount(logs: seq<IntakeLog>, h: nat): real {
    WeightInHour(logs, h, One)
  }

  /** The count the sort compares is the value the per-hour count record holds. */
  lemma LogCountIsRecordValue(logs: seq<IntakeLog>, h: nat)
    ensures Get(HourlyTotals(logs, One), h) == LogCount(logs, h)
  {
  }

  /** Counts never increase along `s`. */
  predicate SortedByCount(s: seq<nat>, logs: seq<IntakeLog>) {
    forall i, j :: 0 <= i < j < |s| ==> LogCount(logs, s[i]) >= LogCount(logs, s[j])
  }

  /**
   * Insert `x` after every element whose count is at least its own: one step
   * of a stable sort in descending count order.
   */
  function InsertByCount(sorted: seq<nat>, x: nat, logs: seq<IntakeLog>): (r: seq<nat>)
    requires SortedByCount(sorted, logs)
    ensures |r| == |sorted| + 1
    ensures SortedByCount(r, logs)
    ensures forall y :: y in r <==> y in sorted || y == x
  {
    if |sorted| == 0 then [x]
    else if LogCount(logs, sorted[0]) < LogCount(logs, x) then [x] + sorted
    else
      assert SortedByCount(sorted[1..], logs);
      var rest := InsertByCount(sorted[1..], x, logs);
      assert forall y :: y in sorted <==> y == sorted[0] || y in sorted[1..];
      assert forall i :: 0 <= i < |rest| ==> LogCount(logs, sorted[0]) >= LogCount(logs, rest[i]) by {
        forall i | 0 <= i < |rest|
          ensures LogCount(logs, sorted[0]) >= LogCount(logs, rest[i])
        {
          if rest[i] != x {
            assert rest[i] in rest;
            var k :| 0 <= k < |sorted[1..]| && sorted[1..][k] == rest[i];
            assert sorted[k + 1] == rest[i];
          }
        }
      }
      [sorted[0]] + rest
  }

  lemma {:induction false} InsertKeepsDistinct(sorted: seq<nat>, x: nat, logs: seq<IntakeLog>)
    requires SortedByCount(sorted, logs) && NoDuplicates(sorted) && x !in sorted
    ensures NoDuplicates(InsertByCount(sorted, x, logs))
    decreases |sorted|
  {
    if |sorted| > 0 {
      if LogCount(logs, sorted[0]) < LogCount(logs, x) {
        ConcatNoDuplicates([x], sorted);
      } else {
        var tail := sorted[1..];
        assert SortedByCount(tail, logs) && NoDuplicates(tail);
        assert x !in tail;
        InsertKeepsDistinct(tail, x, logs);
        assert sorted[0] !in tail;
        ConcatNoDuplicates([sorted[0]], InsertByCount(tail, x, logs));
      }
    }
  }

  /** `sort(([, a], [, b]) => b - a)` on the entries: a stable sort by descending count. */
  function SortByCount(keys: seq<nat>, logs: seq<IntakeLog>): (r: seq<nat>)
    ensures |r| == |keys|
    ensures SortedByCount(r, logs)
    ensures forall y :: y in r <==> y in keys
  {
    if |keys| == 0 then []
    else
      assert forall y :: y in keys <==> y in Init(keys) || y == Last(keys);
      InsertByCount(SortByCount(Init(keys), logs), Last(keys), logs)
  }

  lemma {:induction false} SortKeepsDistinct(keys: seq<nat>, logs: seq<IntakeLog>)
    requires NoDuplicates(keys)
    ensures NoDuplicates(SortByCount(keys, logs))
    decreases |keys|
  {
    if |keys| > 0 {
      assert NoDuplicates(Init(keys));
      SortKeepsDistinct(Init(keys), logs);
      assert Last(keys) !in Init(keys);
      InsertKeepsDistinct(SortByCount(Init(keys), logs), Last(keys), logs);
    }
  }

  /** The hours logged exactly `c` times. */
  function HasCount(logs: seq<IntakeLog>, c: real): nat -> bool {
    (h: nat) => LogCount(logs, h) == c
  }

  /**
   * The sort is stable: among the hours of any one count, the sorted list
   * keeps the order they had in `keys`.
   */
  lemma {:induction false} SortIsStable(keys: seq<nat>, logs: seq<IntakeLog>)
    ensures forall c :: Filter(SortByCount(keys, logs), HasCount(logs, c)) == Filter(keys, HasCount(logs, c))
    decreases |keys|
  {
    if |keys| > 0 {
      SortIsStable(Init(keys), logs);
      var sorted := SortByCount(Init(keys), logs);
      forall c
        ensures Filter(SortByCount(keys, logs), HasCount(logs, c)) == Filter(keys, HasCount(logs, c))
      {
        assert keys == Init(keys) + [Last(keys)];
        FilterConcat(Init(keys), [Last(keys)], HasCount(logs, c));
        InsertFilter(sorted, Last(keys), logs, c);
      }
    }
  }

  /** Inserting `x` adds it at the end of the hours that share its count. */
  lemma {:induction false} InsertFilter(sorted: seq<nat>, x: nat, logs: seq<IntakeLog>, c: real)
    requires SortedByCount(sorted, logs)
    ensures Filter(InsertByCount(sorted, x, logs), HasCount(logs, c))
      == Filter(sorted, HasCount(logs, c)) + Filter([x], HasCount(logs, c))
    decreases |sorted|
  {
    if |sorted| == 0 {
      assert sorted + [x] == [x];
    } else if LogCount(logs, sorted[0]) < LogCount(logs, x) {
      InsertFilterFront(sorted, x, logs, c);
    } else {
      assert SortedByCount(sorted[1..], logs);
      InsertFilter(sorted[1..], x, logs, c);
      InsertFilterBehind(sorted, x, logs, c);
    }
  }

  /** An `x` counted more than every sorted hour goes in front, where no hour shares its count. */
  lemma InsertFilterFront(sorted: seq<nat>, x: nat, logs: seq<IntakeLog>, c: real)
    requires SortedByCount(sorted, logs)
    requires |sorted| > 0 && LogCount(logs, sorted[0]) < LogCount(logs, x)
    ensures Filter(InsertByCount(sorted, x, logs), HasCount(logs, c))
      == Filter(sorted, HasCount(logs, c)) + Filter([x], HasCount(logs, c))
  {
    var p := HasCount(logs, c);
    assert InsertByCount(sorted, x, logs) == [x] + sorted;
    FilterConcat([x], sorted, p);
    if p(x) {
      forall k | 0 <= k < |sorted|
        ensures !p(sorted[k])
      {
        assert LogCount(logs, sorted[k]) <= LogCount(logs, sorted[0]);
      }
      FilterDropsAll(sorted, p);
    }
  }

  /** An `x` counted at most the first hour is inserted into the rest, behind that hour. */
  lemma InsertFilterBehind(sorted: seq<nat>, x: nat, logs: seq<IntakeLog>, c: real)
    requires SortedByCount(sorted, logs)
    requires |sorted| > 0 && LogCount(logs, sorted[0]) >= LogCount(logs, x)
    requires Filter(InsertByCount(sorted[1..], x, logs), HasCount(logs, c))
      == Filter(sorted[1..], HasCount(logs, c)) + Filter([x], HasCount(logs, c))
    ensures Filter(InsertByCount(sorted, x, logs), HasCount(logs, c))
      == Filter(sorted, HasCount(logs, c)) + Filter([x], HasCount(logs, c))
  {
    var p := HasCount(logs, c);
    var rest := InsertByCount(sorted[1..], x, logs);
    InsertBehind(sorted, x, logs);
    FilterConsAppend(sorted[0], sorted[1..], rest, x, p);
    assert Filter(InsertByCount(sorted, x, logs), p) == Filter([sorted[0]] + rest, p);
    assert sorted == [sorted[0]] + sorted[1..];
    assert Filter(sorted, p) == Filter([sorted[0]] + sorted[1..], p);
  }

  lemma InsertBehind(sorted: seq<nat>, x: nat, logs: seq<IntakeLog>)
    requires SortedByCount(sorted, logs)
    requires |sorted| > 0 && LogCount(logs, sorted[0]) >= LogCount(logs, x)
    ensures SortedByCount(sorted[1..], logs)
    ensures InsertByCount(sorted, x, logs) == [sorted[0]] + InsertByCount(sorted[1..], x, logs)
  {
    assert SortedByCount(sorted[1..], logs);
  }

  function Sorted(logs: seq<IntakeLog>): seq<nat> {
    SortByCount(EntryOrder(logs), logs)
  }

  /**
   * The hours `analyzeSuccessfulReminders` reports: the per-hour counts
   * sorted in descending order, ties in entry order, first five kept. They
   * are distinct active hours, at most five (fewer only when fewer hours are
   * active), busiest first.
   */
  function TopHours(logs: seq<IntakeLog>): (top: seq<nat>)
    ensures |top| == if |ActiveHours(logs)| < 5 then |ActiveHours(logs)| else 5
    ensures NoDuplicates(top)
    ensures forall i :: 0 <= i < |top| ==> top[i] in ActiveHours(logs)
    ensures forall i, j :: 0 <= i < j < |top| ==> LogCount(logs, top[i]) >= LogCount(logs, top[j])
  {
    var sorted := Sorted(logs);
    SortedFacts(logs);
    FirstFive(logs, sorted);
    Take(sorted, 5)
  }

  /** The first five of a sorted list of the active hours have the properties `TopHours` promises. */
  lemma FirstFive(logs: seq<IntakeLog>, sorted: seq<nat>)
    requires |sorted| == |ActiveHours(logs)| && NoDuplicates(sorted) && SortedByCount(sorted, logs)
    requires forall i :: 0 <= i < |sorted| ==> sorted[i] in ActiveHours(logs)
    ensures var top := Take(sorted, 5);
      && |top| == (if |ActiveHours(logs)| < 5 then |ActiveHours(logs)| else 5)
      && NoDuplicates(top)
      && (forall i :: 0 <= i < |top| ==> top[i] in ActiveHours(logs))
      && (forall i, j :: 0 <= i < j < |top| ==> LogCount(logs, top[i]) >= LogCount(logs, top[j]))
  {
  }

  lemma SortedFacts(logs: seq<IntakeLog>)
    ensures SortedByCount(Sorted(logs), logs)
    ensures |Sorted(logs)| == |ActiveHours(logs)|
    ensures NoDuplicates(Sorted(logs))
    ensures forall i :: 0 <= i < |Sorted(logs)| ==> Sorted(logs)[i] in ActiveHours(logs)
  {
    var entries := EntryOrder(logs);
    var sorted := SortByCount(entries, logs);
    assert Sorted(logs) == sorted;
    SortKeepsDistinct(entries, logs);
    EntryOrderSize(logs);
    forall i | 0 <= i < |sorted|
      ensures sorted[i] in ActiveHours(logs)
    {
      assert sorted[i] in entries;
    }
  }

  /** No active hour left out of the top five was logged more often than any hour kept. */
  lemma TopHoursAreBusiest(logs: seq<IntakeLog>, h: nat, i: nat)
    requires h in ActiveHours(logs) && h !in TopHours(logs) && i < |TopHours(logs)|
    ensures LogCount(logs, h) <= LogCount(logs, TopHours(logs)[i])
  {
    var sorted := Sorted(logs);
    var k :| 0 <= k < |sorted| && sorted[k] == h;
    assert TopHours(logs)[i] == sorted[i];
    assert k >= |TopHours(logs)|;
  }
  /** `${hour}:00` for a two-digit hour. */
  function HourSlot(h: nat): string {
    Pad2(h) + ":00"
  }

  lemma HourSlotInjective(a: nat, b: nat)
    requires HourSlot(a) == HourSlot(b)
    ensures a == b
  {
    var sa, sb := Pad2(a), Pad2(b);
    assert |sa| == |sb| by { assert |HourSlot(a)| == |HourSlot(b)|; }
    assert HourSlot(a)[..|sa|] == sa;
    assert HourSlot(b)[..|sb|] == sb;
  }

  /** `analyzeSuccessfulReminders`: up to five distinct `HH:00` slots, busiest hour first. */
  function AnalyzeSuccessfulReminders(logs: seq<IntakeLog>): (r: seq<string>)
    ensures |r| <= 5 && |r| == |TopHours(logs)|
    ensures forall i :: 0 <= i < |r| ==> r[i] == HourSlot(TopHours(logs)[i])
    ensures NoDuplicates(r)
  {
    var top := TopHours(logs);
    var r := seq(|top|, i requires 0 <= i < |top| => HourSlot(top[i]));
    forall i, j | 0 <= i < j < |r|
      ensures r[i] != r[j]
    {
      if r[i] == r[j] {
        HourSlotInjective(top[i], top[j]);
      }
    }
    r
  }

  // ---------------------------------------------------------------------
  // analyzeSkippedNotifications

  /** The hours of the day, ascending, in which nothing was logged. */
  function SkippedHours(logs: seq<IntakeLog>): (s: seq<nat>)
    ensures Increasing(s)
    ensures forall i :: 0 <= i < |s| ==> s[i] < 24 && s[i] !in ActiveHours(logs)
    ensures forall h: nat :: h < 24 && h !in ActiveHours(logs) ==> h in s
  {
    HoursFrom(ActiveHours(logs), 0, false)
  }

  /** Every hour of the day is either active or skipped. */
  lemma SkippedHoursCount(logs: seq<IntakeLog>)
    ensures |SkippedHours(logs)| == 24 - |ActiveHours(logs)|
  {
    var active := ActiveHours(logs);
    var kept := HoursFrom(active, 0, true);
    HoursFromSplit(active, 0);
    DistinctCardinality(kept, active);
  }

  /** `analyzeSkippedNotifications`: the two-digit labels of the hours without intake, ascending. */
  function AnalyzeSkippedNotifications(logs: seq<IntakeLog>): (r: seq<string>)
    ensures |r| == |SkippedHours(logs)|
    ensures |r| == 24 - |ActiveHours(logs)|
    ensures forall i :: 0 <= i < |r| ==> r[i] == Pad2(SkippedHours(logs)[i])
  {
    var skipped := SkippedHours(logs);
    SkippedHoursCount(logs);
    seq(|skipped|, i requires 0 <= i < |skipped| => Pad2(skipped[i]))
  }

  /** `calculateOptimalFrequency`: the tier follows the number of hours with intake. */
  function CalculateOptimalFrequency(hourlyIntake: map<nat, real>): (f: Level)
    ensures f == High <==> |hourlyIntake.Keys| >= 8
    ensures f == Low <==> |hourlyIntake.Keys| < 5
  {
    var activeHours := |hourlyIntake.Keys|;
    if activeHours >= 8 then High else if activeHours >= 5 then Medium else Low
  }

  /** More active hours never lower the frequency tier. */
  lemma FrequencyMonotone(a: map<nat, real>, b: map<nat, real>)
    requires |a.Keys| <= |b.Keys|
    ensures CalculateOptimalFrequency(a) == High ==> CalculateOptimalFrequency(b) == High
    ensures CalculateOptimalFrequency(b) == Low ==> CalculateOptimalFrequency(a) == Low
  {
  }

  /**
   * `learnUserPatterns`: the busiest slots fill three fields, the hours
   * without intake the fourth; `lastUpdated` is the caller's clock.
   */
  function LearnUserPatterns(logs: seq<IntakeLog>, lastUpdated: string): (d: LearningData)
    ensures d.mostActiveHours == d.averageIntakeTimes == d.successfulReminders
    ensures d.successfulReminders == AnalyzeSuccessfulReminders(logs)
    ensures d.skippedNotifications == AnalyzeSkippedNotifications(logs)
    ensures |d.successfulReminders| <= 5
    ensures |d.skippedNotifications| + |ActiveHours(logs)| == 24
  {
    var successfulTimes := AnalyzeSuccessfulReminders(logs);
    LearningData(successfulTimes, successfulTimes, AnalyzeSkippedNotifications(logs), successfulTimes, lastUpdated)
  }

  // ---------------------------------------------------------------------
  // Folding what was learned into the notification pattern

  /** `{ start: `${hour}:00`, end: `${hour}:30` }` */
  function QuietHalfHour(hour: string): TimeRange {
    TimeRange(hour + ":00", hour + ":30")
  }

  function QuietHalfHours(hours: seq<string>): (r: seq<TimeRange>)
    ensures |r| == |hours|
    ensures forall i :: 0 <= i < |r| ==> r[i] == QuietHalfHour(hours[i])
  {
    seq(|hours|, i requires 0 <= i < |hours| => QuietHalfHour(hours[i]))
  }

  /**
   * `adjustScheduleBasedOnLearning`: learned successful times go in front of
   * the preferred times (at most eight kept); every skipped hour appends one
   * half-hour quiet period. Everything else is unchanged.
   */
  function AdjustScheduleBasedOnLearning(current: PersonalizedSettings, learning: LearningData)
    : (r: PersonalizedSettings)
    ensures r.lifestyle == current.lifestyle && r.learningData == current.learningData
    ensures r.notificationPattern.frequency == current.notificationPattern.frequency
    ensures r.notificationPattern.weekendMode == current.notificationPattern.weekendMode
    ensures r.notificationPattern.adaptiveMode == current.notificationPattern.adaptiveMode
    ensures var succ := learning.successfulReminders;
      var cur := current.notificationPattern.preferredTimes;
      var pref := r.notificationPattern.preferredTimes;
      && (|succ| == 0 ==> pref == cur)
      && (|succ| > 0 ==> |pref| <= 8 && |pref| == (if |succ| + |cur| < 8 then |succ| + |cur| else 8))
      && (|succ| > 0 ==> forall i :: 0 <= i < |pref| ==>
            pref[i] == if i < |succ| then succ[i] else cur[i - |succ|])
    ensures var skipped := learning.skippedNotifications;
      var cur := current.notificationPattern.quietHours;
      var quiet := r.notificationPattern.quietHours;
      && |quiet| == |cur| + |skipped|
      && quiet[..|cur|] == cur
      && forall i :: 0 <= i < |skipped| ==> quiet[|cur| + i] == QuietHalfHour(skipped[i])
  {
    var pattern := current.notificationPattern;
    var preferred :=
      if |learning.successfulReminders| > 0
      then Take(learning.successfulReminders + pattern.preferredTimes, 8)
      else pattern.preferredTimes;
    var quiet :=
      if |learning.skippedNotifications| > 0
      then pattern.quietHours + QuietHalfHours(learning.skippedNotifications)
      else pattern.quietHours;
    current.(notificationPattern := pattern.(preferredTimes := preferred, quietHours := quiet))
  }

  /** The callback `time => !currentTimes.includes(time)`. */
  function NotIncluded(current: seq<string>): string -> bool {
    t => t !in current
  }

  /** `successfulTimes.filter(time => !currentTimes.includes(time))` */
  function NewTimes(successful: seq<string>, current: seq<string>): (r: seq<string>)
    ensures forall i :: 0 <= i < |r| ==> r[i] !in current && r[i] in successful
    ensures forall i :: 0 <= i < |successful| && successful[i] !in current ==> successful[i] in r
  {
    Filter(successful, NotIncluded(current))
  }

  /** The new times keep the order and the copies they had among the successful ones. */
  lemma NewTimesKeepOrder(successful: seq<string>, current: seq<string>)
    ensures KeepsInOrder(successful, NotIncluded(current), NewTimes(successful, current))
  {
    FilterKeepsOrder(successful, NotIncluded(current));
  }

  /**
   * `improveSchedule`: successful times not yet preferred go in front (at
   * most eight kept); every failed hour appends one half-hour quiet period.
   */
  function ImproveSchedule(current: PersonalizedSettings, successful: seq<string>, failed: seq<string>)
    : (r: PersonalizedSettings)
    ensures r.lifestyle == current.lifestyle && r.learningData == current.learningData
    ensures r.notificationPattern.frequency == current.notificationPattern.frequency
    ensures r.notificationPattern.weekendMode == current.notificationPattern.weekendMode
    ensures r.notificationPattern.adaptiveMode == current.notificationPattern.adaptiveMode
    ensures var cur := current.notificationPattern.preferredTimes;
      var added := NewTimes(successful, cur);
      var pref := r.notificationPattern.preferredTimes;
      && (|successful| == 0 ==> pref == cur)
      && (|successful| > 0 ==> |pref| == (if |added| + |cur| < 8 then |added| + |cur| else 8))
      && (|successful| > 0 ==> forall i :: 0 <= i < |pref| ==>
            pref[i] == if i < |added| then added[i] else cur[i - |added|])
    ensures var cur := current.notificationPattern.quietHours;
      var quiet := r.notificationPattern.quietHours;
      && |quiet| == |cur| + |failed|
      && quiet[..|cur|] == cur
      && forall i :: 0 <= i < |failed| ==> quiet[|cur| + i] == QuietHalfHour(failed[i])
  {
    var pattern := current.notificationPattern;
    var currentTimes := pattern.preferredTimes;
    var preferred :=
      if |successful| > 0
      then Take(NewTimes(successful, currentTimes) + currentTimes, 8)
      else currentTimes;
    var quiet :=
      if |failed| > 0 then pattern.quietHours + QuietHalfHours(failed) else pattern.quietHours;
    current.(notificationPattern := pattern.(preferredTimes := preferred, quietHours := quiet))
  }

  /**
   * Unlike the learning merge, `improveSchedule` never repeats a time: with
   * duplicate-free inputs the preferred times stay duplicate-free.
   */
  lemma ImproveKeepsTimesDistinct(current: PersonalizedSettings, successful: seq<string>, failed: seq<string>)
    requires NoDuplicates(successful) && NoDuplicates(current.notificationPattern.preferredTimes)
    ensures NoDuplicates(ImproveSchedule(current, successful, failed).notificationPattern.preferredTimes)
  {
    var cur := current.notificationPattern.preferredTimes;
    var added := NewTimes(successful, cur);
    FilterNoDuplicates(successful, NotIncluded(cur));
    var both := added + cur;
    forall i, j | 0 <= i < j < |both|
      ensures both[i] != both[j]
    {
      if i < |added| && j >= |added| {
        assert both[i] !in cur;
        assert both[j] == cur[j - |added|];
      }
    }
  }

  /** The learning merge can repeat a time that is both learned and already preferred. */
  lemma AdjustMayRepeatTimes(current: PersonalizedSettings, lastUpdated: string)
    requires current.notificationPattern.preferredTimes == ["10:00"]
    ensures var learning := LearningData(["10:00"], ["10:00"], [], ["10:00"], lastUpdated);
      AdjustScheduleBasedOnLearning(current, learning).notificationPattern.preferredTimes == ["10:00", "10:00"]
  {
  }
}

=== FILE: legacy.dfy ===
/**
 * The fixed-time scheduler of lib/notifications/legacy.ts: everything is
 * cancelled, then each of the first 64 evenly spread clock times gets one
 * reminder at its next occurrence, suggesting an equal share of the target.
 */
module Legacy {
  import opened Wrappers
  import opened JsMath
  import opened Text
  import opened Clock
  import opened Platform
  import opened ReminderTimes

  /** The platform keeps at most this many scheduled notifications. */
  const MaxNotifications: int := 64

  const LegacyTitle: string := "💧 水分補給の時間です！"

  /**
   * Clock strings a fixed-time scheduler can work with: two valid times, or
   * a count that asks for no times at all.
   */
  predicate Schedulable(wakeTime: string, sleepTime: string, count: int) {
    count <= 0 || (ReadClock(wakeTime).Some? && ReadClock(sleepTime).Some?)
  }

  /** `Math.round(targetMl / reminderCount)`: the share of the target, to the nearest ml. */
  function AmountPerReminder(targetMl: real, count: int): (amount: int)
    requires count > 0
    ensures -0.5 < amount as real - targetMl / count as real <= 0.5
  {
    Round(targetMl / count as real)
  }

  /** `約${amountPerReminder}mlの水分を摂取しましょう` */
  function ReminderBody(amount: int): Message {
    [Lit("約" + IntToString(amount) + "mlの水分を摂取しましょう")]
  }

  /**
   * The next occurrence of clock time `h:m`: today's, or tomorrow's when
   * today's is not after `now`.
   */
  function NextOccurrence(now: int, h: nat, m: nat): (t: int)
    ensures var today := DayStart(now) + h * HourMs + m * MinuteMs;
      t == today || (today <= now && t == today + DayMs)
    ensures t > now
  {
    var today := DayStart(now) + h * HourMs + m * MinuteMs;
    if today <= now then today + DayMs else today
  }

  /** For an hour and minute in range the next occurrence is within a day and at that clock time. */
  lemma NextOccurrenceWithinADay(now: int, h: nat, m: nat)
    requires h < 24 && m < 60
    ensures now < NextOccurrence(now, h, m) <= now + DayMs
    ensures HourOf(NextOccurrence(now, h, m)) == h && MinuteOf(NextOccurrence(now, h, m)) == m
  {
    var midnight := DayStart(now);
    var t := NextOccurrence(now, h, m);
    var q := now / DayMs;
    assert midnight == q * DayMs;
    assert 0 <= h * HourMs + m * MinuteMs < DayMs;
    if t == midnight + h * HourMs + m * MinuteMs {
      ClockFields(midnight, h, m);
    } else {
      assert midnight + DayMs == (q + 1) * DayMs;
      DivModUnique(midnight + DayMs, q + 1, 0, DayMs);
      ClockFields(midnight + DayMs, h, m);
    }
  }

  /** The request for one clock time, read back with `split(':').map(Number)`. */
  function ReminderRequest(time: string, amount: int, now: int): (n: Notification)
    requires ParseHHMM(time).Some?
    ensures n.trigger.At? && n.trigger.instant > now
  {
    var (h, m) := ParseHHMM(time).value;
    Notification(LegacyTitle, ReminderBody(amount), NoData, At(NextOccurrence(now, h, m)), Some(ChannelId))
  }

  /**
   * `scheduleReminders` (lib/notifications/legacy.ts). Without permission
   * nothing changes. Otherwise every pending request is cancelled and one
   * request is made for each of the first 64 reminder times.
   */
  function ScheduleReminders(hasPermission: bool, wakeTime: string, sleepTime: string, targetMl: real,
                             reminderCount: int, now: int, pending: seq<Notification>): (after: seq<Notification>)
    requires Schedulable(wakeTime, sleepTime, reminderCount)
    ensures !hasPermission ==> after == pending
    ensures hasPermission ==> |after| == MinInt(MaxInt(reminderCount, 0), MaxNotifications)
  {
    if !hasPermission then pending
    else if reminderCount <= 0 then []
    else
      var times := CalculateReminderTimes(wakeTime, sleepTime, reminderCount);
      var n := MinInt(|times|, MaxNotifications);
      var amount := AmountPerReminder(targetMl, reminderCount);
      TimesParse(wakeTime, sleepTime, reminderCount);
      seq(n, (i: int) requires 0 <= i < n => ReminderRequest(times[i], amount, now))
  }

  /**
   * With permission, request `i` fires within a day after `now`, at the
   * clock time of reminder time `i`, and every request suggests the same
   * share of the target on the reminders channel.
   */
  lemma ScheduledTimes(wakeTime: string, sleepTime: string, targetMl: real, reminderCount: int,
                       now: int, pending: seq<Notification>, i: nat)
    requires Schedulable(wakeTime, sleepTime, reminderCount)
    requires i < |ScheduleReminders(true, wakeTime, sleepTime, targetMl, reminderCount, now, pending)|
    ensures var n := ScheduleReminders(true, wakeTime, sleepTime, targetMl, reminderCount, now, pending)[i];
      var wake := ReadClock(wakeTime).value;
      var minute := SlotMinute(wake, DaySpan(wake, ReadClock(sleepTime).value), reminderCount, i);
      && n.trigger.At?
      && now < n.trigger.instant <= now + DayMs
      && HourOf(n.trigger.instant) * 60 + MinuteOf(n.trigger.instant) == minute
      && n.body == ReminderBody(AmountPerReminder(targetMl, reminderCount))
      && n.title == LegacyTitle && n.channel == Some(ChannelId)
  {
    var wake := ReadClock(wakeTime).value;
    var minute := SlotMinute(wake, DaySpan(wake, ReadClock(sleepTime).value), reminderCount, i);
    TimesParse(wakeTime, sleepTime, reminderCount);
    NextOccurrenceWithinADay(now, minute / 60, minute % 60);
  }
}

=== FILE: lifestyle_templates.dfy ===
/**
 * The lifestyle template table and the default personalised settings
 * (lib/lifestyleTemplates.ts).
 */
module LifestyleTemplates {
  import opened Wrappers
  import opened Types

  datatype Template = Template(lifestyle: Lifestyle, notificationPattern: NotificationPattern)

  function Lunch(start: string, end: string): seq<TimeRange> {
    [TimeRange(start, end)]
  }

  const DeskWorker: Template := Template(
    Lifestyle(Desk, TimeRange("09:00", "18:00"), ["10:00", "15:00"],
              MealTimes("08:00", "12:00", "19:00"), true),
    NotificationPattern(Medium, ["10:00", "12:00", "15:00", "17:00"], Lunch("12:00", "13:00"), true, true))

  const StudentTemplate: Template := Template(
    Lifestyle(Student, TimeRange("09:00", "17:00"), ["10:00", "14:00"],
              MealTimes("08:00", "12:00", "18:00"), true),
    NotificationPattern(High, ["09:00", "11:00", "13:00", "15:00", "17:00"], Lunch("12:00", "13:00"), true, true))

  const ActiveWorker: Template := Template(
    Lifestyle(Active, TimeRange("08:00", "17:00"), ["10:00", "14:00"],
              MealTimes("07:00", "12:00", "19:00"), true),
    NotificationPattern(High, ["08:00", "10:00", "12:00", "14:00", "16:00"], Lunch("12:00", "13:00"), true, true))

  const FreelanceTemplate: Template := Template(
    Lifestyle(Freelance, TimeRange("10:00", "19:00"), ["12:00", "16:00"],
              MealTimes("09:00", "13:00", "20:00"), false),
    NotificationPattern(Medium, ["10:00", "12:00", "14:00", "16:00", "18:00"], Lunch("13:00", "14:00"), false, true))

  const MixedTemplate: Template := Template(
    Lifestyle(Mixed, TimeRange("09:00", "18:00"), ["10:00", "15:00"],
              MealTimes("08:00", "12:00", "19:00"), true),
    NotificationPattern(Medium, ["09:00", "11:00", "13:00", "15:00", "17:00"], Lunch("12:00", "13:00"), true, true))

  /** The keys of `lifestyleTemplates`, in declaration order. */
  const TemplateKeys: seq<string> := ["deskWorker", "student", "activeWorker", "freelance", "mixed"]

  /**
   * The names every object literal inherits from `Object.prototype`.
   * Indexing the table with one gives a truthy value that is not a template.
   */
  const InheritedNames: seq<string> := [
    "constructor", "hasOwnProperty", "isPrototypeOf", "propertyIsEnumerable",
    "toLocaleString", "toString", "valueOf", "__proto__",
    "__defineGetter__", "__defineSetter__", "__lookupGetter__", "__lookupSetter__"]

  /** What `lifestyleTemplates[key]` yields: an own template, an inherited member, or `undefined`. */
  datatype Entry = Own(template: Template) | Inherited | Missing

  /** `lifestyleTemplates[key]` */
  function LookupTemplate(key: string): (e: Entry)
    ensures e.Own? <==> key in TemplateKeys
    ensures e.Inherited? <==> key in InheritedNames
    ensures e.Missing? <==> key !in TemplateKeys && key !in InheritedNames
  {
    if key == "deskWorker" then Own(DeskWorker)
    else if key == "student" then Own(StudentTemplate)
    else if key == "activeWorker" then Own(ActiveWorker)
    else if key == "freelance" then Own(FreelanceTemplate)
    else if key == "mixed" then Own(MixedTemplate)
    else if key in InheritedNames then Inherited
    else Missing
  }

  /** Learning data nobody has learned anything into yet. */
  function EmptyLearning(lastUpdated: string): (d: LearningData)
    ensures d.mostActiveHours == d.averageIntakeTimes == d.skippedNotifications == d.successfulReminders == []
    ensures d.lastUpdated == lastUpdated
  {
    LearningData([], [], [], [], lastUpdated)
  }

  /**
   * `getDefaultPersonalizedSettings(workType = 'deskWorker')`: the named
   * template (the desk-worker one for a missing or omitted name) with empty
   * learning data stamped `lastUpdated`, the caller's clock. An inherited
   * name would give `undefined` lifestyle and pattern; settings cannot hold
   * that, so the desk-worker template stands in for it here too.
   */
  function GetDefaultPersonalizedSettings(workType: Option<string>, lastUpdated: string)
    : (s: PersonalizedSettings)
    ensures var e := LookupTemplate(workType.GetOr("deskWorker"));
      e.Own? ==> s.lifestyle == e.template.lifestyle && s.notificationPattern == e.template.notificationPattern
    ensures var e := LookupTemplate(workType.GetOr("deskWorker"));
      !e.Own? ==> s.lifestyle == DeskWorker.lifestyle && s.notificationPattern == DeskWorker.notificationPattern
    ensures s.learningData == EmptyLearning(lastUpdated)
  {
    var e := LookupTemplate(workType.GetOr("deskWorker"));
    var template := if e.Own? then e.template else DeskWorker;
    PersonalizedSettings(template.lifestyle, template.notificationPattern, EmptyLearning(lastUpdated))
  }

  /**
   * A name the table neither holds nor inherits gives the same settings as
   * the desk-worker template, as does no name.
   */
  lemma UnknownWorkTypeFallsBack(workType: string, lastUpdated: string)
    requires workType !in TemplateKeys && workType !in InheritedNames
    ensures GetDefaultPersonalizedSettings(Some(workType), lastUpdated)
      == GetDefaultPersonalizedSettings(Some("deskWorker"), lastUpdated)
      == GetDefaultPersonalizedSettings(None, lastUpdated)
    ensures GetDefaultPersonalizedSettings(None, lastUpdated).lifestyle.workType == Desk
  {
  }

  /**
   * The work-type value names (`'desk'`, `'active'`, ...) are not table keys,
   * so passing one falls back to the desk-worker template.
   */
  lemma WorkTypeValueIsNotAKey(lastUpdated: string)
    ensures GetDefaultPersonalizedSettings(Some("active"), lastUpdated).lifestyle.workType == Desk
  {
  }

  /**
   * Every template is adaptive; the freelance template is the only one with
   * weekend mode off, in its lifestyle and in its pattern alike.
   */
  lemma TemplateModes(key: string)
    requires key in TemplateKeys
    ensures LookupTemplate(key).template.notificationPattern.adaptiveMode
    ensures !LookupTemplate(key).template.notificationPattern.weekendMode <==> key == "freelance"
    ensures !LookupTemplate(key).template.lifestyle.weekendMode <==> key == "freelance"
  {
  }

  /** Each template's lifestyle names the work type its key stands for. */
  lemma TemplateWorkTypes()
    ensures LookupTemplate("deskWorker").template.lifestyle.workType == Desk
    ensures LookupTemplate("student").template.lifestyle.workType == Student
    ensures LookupTemplate("activeWorker").template.lifestyle.workType == Active
    ensures LookupTemplate("freelance").template.lifestyle.workType == Freelance
    ensures LookupTemplate("mixed").template.lifestyle.workType == Mixed
  {
  }
}

=== FILE: planning.dfy ===
/**
 * Scheduling the next adaptive reminder (lib/notifications/planning.ts):
 * anchoring the day, running the planner, and the one request it schedules.
 */
module Planning {
  import opened Wrappers
  import opened JsMath
  import opened Text
  import opened Clock
  import opened ReminderPlanner
  import opened Platform

  /** `ScheduleNextReminderOptions` */
  datatype ReminderOptions = ReminderOptions(
    wakeTime: string,
    sleepTime: string,
    targetMl: real,
    consumedMl: real,
    reminderCount: Option<int>,
    userSnoozeMin: Option<int>)

  /** A clock string `parseTimeToDate` can read. */
  predicate Readable(time: string) {
    ClockFieldsOf(time).Some?
  }

  /** A clock string whose fields are an hour of the day and a minute of the hour. */
  predicate InRange(time: string) {
    Readable(time) && 0 <= ClockFieldsOf(time).value.0 < 24 && 0 <= ClockFieldsOf(time).value.1 < 60
  }

  /** Milliseconds after midnight a readable clock string stands for. */
  function Offset(time: string): int
    requires Readable(time)
  {
    var (h, m) := ClockFieldsOf(time).value;
    h * HourMs + m * MinuteMs
  }

  /**
   * `resolveDayAnchors`: wake on the reference's day; sleep on the day of
   * whichever of wake and reference comes first, moved one day on when it
   * is not after wake. For in-range clock strings both land on the
   * reference's day, and sleep ends up after wake by at most a day.
   */
  function ResolveDayAnchors(wakeTime: string, sleepTime: string, reference: int): (anchors: (int, int))
    requires Readable(wakeTime) && Readable(sleepTime)
    ensures anchors.0 == DayStart(reference) + Offset(wakeTime)
    ensures InRange(wakeTime) && InRange(sleepTime) ==>
      var sleep := DayStart(reference) + Offset(sleepTime);
      && anchors.1 == (if sleep <= anchors.0 then sleep + DayMs else sleep)
      && anchors.0 < anchors.1 <= anchors.0 + DayMs
  {
    var wake := ParseTimeToDate(wakeTime, reference).value;
    var sleepReference := if wake <= reference then wake else reference;
    var sleep := ParseTimeToDate(sleepTime, sleepReference).value;
    SleepAnchor(wakeTime, sleepTime, reference, sleepReference);
    if sleep <= wake then (wake, sleep + DayMs) else (wake, sleep)
  }

  /** With in-range clock strings, sleep is read on the reference's day too. */
  lemma SleepAnchor(wakeTime: string, sleepTime: string, reference: int, sleepReference: int)
    requires Readable(wakeTime) && Readable(sleepTime)
    requires var wake := DayStart(reference) + Offset(wakeTime);
      sleepReference == if wake <= reference then wake else reference
    ensures InRange(wakeTime) && InRange(sleepTime) ==>
      && DayStart(sleepReference) == DayStart(reference)
      && 0 <= Offset(wakeTime) < DayMs && 0 <= Offset(sleepTime) < DayMs
  {
    if InRange(wakeTime) && InRange(sleepTime) {
      AnchoredOnReferenceDay(wakeTime, reference);
      var (h, m) := ClockFieldsOf(sleepTime).value;
      assert 0 <= m * MinuteMs < HourMs;
      assert 0 <= h * HourMs <= 23 * HourMs;
    }
  }

  lemma AnchoredOnReferenceDay(time: string, reference: int)
    ensures InRange(time) ==> DayStart(DayStart(reference) + Offset(time)) == DayStart(reference)
  {
    if InRange(time) {
      SameDay(reference, Offset(time));
    }
  }

  /** An instant less than a day after a midnight starts on that midnight's day. */
  lemma SameDay(reference: int, offset: int)
    requires 0 <= offset < DayMs
    ensures DayStart(DayStart(reference) + offset) == DayStart(reference)
  {
    var d := DayStart(reference);
    DivModUnique(d + offset, d / DayMs, offset, DayMs);
  }

  /** The planner's input: the anchored day and `Math.max(reminderCount ?? 8, 1)` reminders. */
  function PlanContextFor(options: ReminderOptions, now: int): (ctx: PlanContext)
    requires Readable(options.wakeTime) && Readable(options.sleepTime)
    ensures ctx.reminderCount >= 1
    ensures ctx.reminderCount == MaxInt(options.reminderCount.GetOr(8), 1)
    ensures ctx.now == now && ctx.targetMl == options.targetMl && ctx.consumedMl == options.consumedMl
    ensures (ctx.wake, ctx.sleep) == ResolveDayAnchors(options.wakeTime, options.sleepTime, now)
  {
    var anchors := ResolveDayAnchors(options.wakeTime, options.sleepTime, now);
    PlanContext(options.targetMl, options.consumedMl, anchors.0, anchors.1, now,
                MaxInt(options.reminderCount.GetOr(8), 1))
  }

  // ---------------------------------------------------------------------
  // Message texts

  /** `formatInterval` on a whole number of minutes: at least one minute, in minutes and hours. */
  function FormatInterval(minutes: int): (text: string)
    ensures var r := MaxInt(1, minutes);
      && (r < 60 ==> text == NatToString(r) + "分後")
      && (r >= 60 && r % 60 == 0 ==> text == NatToString(r / 60) + "時間後")
      && (r >= 60 && r % 60 != 0 ==> text == NatToString(r / 60) + "時間" + NatToString(r % 60) + "分後")
  {
    var rounded := MaxInt(1, Round(minutes as real));
    RoundOfInteger(minutes);
    if rounded < 60 then NatToString(rounded) + "分後"
    else
      var hours := rounded / 60;
      var mins := rounded % 60;
      if mins == 0 then NatToString(hours) + "時間後"
      else NatToString(hours) + "時間" + NatToString(mins) + "分後"
  }

  /** Reads a `formatInterval` text back into minutes. */
  function ReadInterval(text: string): Option<int> {
    var k := LeadingDigits(text);
    if k == 0 then None else ReadUnit(DigitsValue(text[..k]), text[k..])
  }

  /** Reads the unit after a leading count `n`. */
  function ReadUnit(n: nat, rest: string): Option<int> {
    if rest == "分後" then Some(n)
    else if rest == "時間後" then Some(n * 60)
    else if |rest| > 2 && rest[..2] == "時間" then ReadExtraMinutes(n, rest[2..])
    else None
  }

  /** Reads the minutes after `n` hours. */
  function ReadExtraMinutes(hours: nat, tail: string): Option<int> {
    var j := LeadingDigits(tail);
    if j == 0 || tail[j..] != "分後" then None
    else Some(hours * 60 + DigitsValue(tail[..j]))
  }

  /** Reading a count followed by a non-digit text. */
  lemma ReadCount(n: nat, rest: string)
    requires |rest| > 0 && !IsDigit(rest[0])
    ensures var text := NatToString(n) + rest;
      LeadingDigits(text) == |NatToString(n)|
      && text[..|NatToString(n)|] == NatToString(n) && text[|NatToString(n)|..] == rest
  {
    LeadingDigitsOfConcat(NatToString(n), rest);
  }

  lemma ReadMinutes(r: nat)
    ensures ReadInterval(NatToString(r) + "分後") == Some(r)
  {
    ReadCount(r, "分後");
  }

  lemma ReadHours(h: nat)
    ensures ReadInterval(NatToString(h) + "時間後") == Some(h * 60)
  {
    ReadCount(h, "時間後");
  }

  lemma ReadTail(h: nat, m: nat)
    ensures ReadExtraMinutes(h, NatToString(m) + "分後") == Some(h * 60 + m)
  {
    ReadCount(m, "分後");
  }

  lemma ReadHoursUnit(h: nat, m: nat)
    ensures ReadUnit(h, "時間" + (NatToString(m) + "分後")) == Some(h * 60 + m)
  {
    var tail := NatToString(m) + "分後";
    var rest := "時間" + tail;
    ReadTail(h, m);
    assert |rest| == |tail| + 2 && |tail| >= 3;
    assert rest[..2] == "時間" && rest[2..] == tail;
  }

  /** Reading a count followed by a unit reads the count and hands the unit on. */
  lemma ReadCountThenUnit(n: nat, rest: string)
    requires |rest| > 0 && !IsDigit(rest[0])
    ensures ReadInterval(NatToString(n) + rest) == ReadUnit(n, rest)
  {
    ReadCount(n, rest);
  }

  lemma ReadHoursMinutes(h: nat, m: nat)
    ensures ReadInterval(NatToString(h) + "時間" + NatToString(m) + "分後") == Some(h * 60 + m)
  {
    var hs, ms := NatToString(h), NatToString(m);
    ReadHoursUnit(h, m);
    ReadCountThenUnit(h, "時間" + (ms + "分後"));
    Regroup(hs, "時間", ms, "分後");
  }

  lemma Regroup(a: string, b: string, c: string, d: string)
    ensures a + b + c + d == a + (b + (c + d))
  {
  }

  /** The interval text always reads back as the interval, at least one minute. */
  lemma FormatIntervalRoundTrip(minutes: int)
    ensures ReadInterval(FormatInterval(minutes)) == Some(MaxInt(1, minutes))
  {
    var r := MaxInt(1, minutes);
    var text := FormatInterval(minutes);
    var h, m := r / 60, r % 60;
    assert r == h * 60 + m;
    if r < 60 {
      assert text == NatToString(r) + "分後";
      ReadMinutes(r);
    } else if m == 0 {
      assert text == NatToString(h) + "時間後";
      ReadHours(h);
    } else {
      assert text == NatToString(h) + "時間" + NatToString(m) + "分後";
      ReadHoursMinutes(h, m);
    }
  }

  /** The opening of the body, chosen by the pace category alone. */
  function PacePrefix(category: PaceCategory): string {
    match category
    case Behind => "ちょっとペース遅め。"
    case Ahead => "今のペースなら少しゆっくりでOK。"
    case OnTrack => "いいペースです。"
  }

  const ReminderTitle: string := "💧 水分補給マインダー"

  /**
   * `buildNotificationMessage` for a plan with a next instant: the pace
   * prefix and the suggestion, then the interval text and the clock time of
   * the next reminder.
   */
  function BuildNotificationMessage(plan: PlanResult): (msg: (string, Message))
    requires plan.nextAt.Some?
    ensures msg.0 == ReminderTitle
    ensures |msg.1| == 3
    ensures msg.1[0] == Lit(PacePrefix(plan.paceCategory) + "いま ")
    ensures msg.1[1] == Num(plan.suggestMl)
    ensures msg.1[2] == Lit("ml いきますか？ 次は" + FormatInterval(plan.nextIntervalMin)
                            + "（" + FormatTime(plan.nextAt.value) + "頃）を予定しています。")
  {
    var intervalText := FormatInterval(plan.nextIntervalMin);
    var nextTimeText := FormatTime(plan.nextAt.value);
    (ReminderTitle, [Lit(PacePrefix(plan.paceCategory) + "いま "), Num(plan.suggestMl),
                     Lit("ml いきますか？ 次は" + intervalText + "（" + nextTimeText + "頃）を予定しています。")])
  }

  /** The body's opening tells the three pace categories apart. */
  lemma PrefixIdentifiesCategory(a: PlanResult, b: PlanResult)
    requires a.nextAt.Some? && b.nextAt.Some?
    requires BuildNotificationMessage(a).1[0] == BuildNotificationMessage(b).1[0]
    ensures a.paceCategory == b.paceCategory
  {
    assert |PacePrefix(a.paceCategory)| == |PacePrefix(b.paceCategory)| by {
      assert |BuildNotificationMessage(a).1[0].s| == |BuildNotificationMessage(b).1[0].s|;
    }
  }

  // ---------------------------------------------------------------------
  // Scheduling

  /** The single request scheduled for a plan with a next instant. */
  function ReminderRequest(plan: PlanResult): (n: Notification)
    requires plan.nextAt.Some?
    ensures n.trigger == At(plan.nextAt.value) && n.channel == Some(ChannelId)
    ensures n.data == PlanData(plan.suggestMl, plan.nextAt.value, plan.paceCategory)
    ensures !IsSnoozeNotification(n)
  {
    var msg := BuildNotificationMessage(plan);
    Notification(msg.0, msg.1, PlanData(plan.suggestMl, plan.nextAt.value, plan.paceCategory),
                 At(plan.nextAt.value), Some(ChannelId))
  }

  datatype Outcome = Outcome(plan: Option<PlanResult>, pending: seq<Notification>)

  /**
   * `scheduleNextReminder`: without permission, `null` and nothing
   * scheduled. Otherwise the plan is returned; when it has a next instant,
   * exactly one request is appended for it (earlier requests stay). When
   * the platform rejects that request (`scheduleFails`) the error is
   * swallowed and the result is `null`.
   */
  function ScheduleNextReminder(hasPermission: bool, scheduleFails: bool, options: ReminderOptions,
                                now: int, pending: seq<Notification>): (out: Outcome)
    requires Readable(options.wakeTime) && Readable(options.sleepTime)
    ensures !hasPermission ==> out == Outcome(None, pending)
    ensures hasPermission ==>
      var plan := PlanNextReminder(PlanContextFor(options, now), options.userSnoozeMin);
      && (plan.nextAt.None? ==> out == Outcome(Some(plan), pending))
      && (plan.nextAt.Some? && scheduleFails ==> out == Outcome(None, pending))
      && (plan.nextAt.Some? && !scheduleFails ==>
            out == Outcome(Some(plan), pending + [ReminderRequest(plan)]))
  {
    if !hasPermission then Outcome(None, pending)
    else
      var plan := PlanNextReminder(PlanContextFor(options, now), options.userSnoozeMin);
      if plan.nextAt.None? then Outcome(Some(plan), pending)
      else if scheduleFails then Outcome(None, pending)
      else Outcome(Some(plan), pending + [ReminderRequest(plan)])
  }

  /**
   * Whatever it returns, the scheduler adds at most one request, and that
   * request fires after `now` and before the anchored sleep instant; with
   * in-range clock strings that is within a day of the anchored wake.
   */
  lemma ScheduledReminderInWindow(hasPermission: bool, scheduleFails: bool, options: ReminderOptions,
                                  now: int, pending: seq<Notification>)
    requires Readable(options.wakeTime) && Readable(options.sleepTime)
    ensures var out := ScheduleNextReminder(hasPermission, scheduleFails, options, now, pending);
      var ctx := PlanContextFor(options, now);
      && out.pending[..|pending|] == pending
      && |pending| <= |out.pending| <= |pending| + 1
      && (|out.pending| > |pending| ==>
            out.pending[|pending|].trigger.At?
            && now < out.pending[|pending|].trigger.instant < ctx.sleep
            && ctx.wake < out.pending[|pending|].trigger.instant
            && (InRange(options.wakeTime) && InRange(options.sleepTime) ==>
                  out.pending[|pending|].trigger.instant < ctx.wake + DayMs))
  {
    var out := ScheduleNextReminder(hasPermission, scheduleFails, options, now, pending);
    assert out.pending[..|pending|] == pending;
  }
}

=== FILE: platform.dfy ===
/**
 * The device's store of scheduled notifications, as the schedulers see it.
 *
 * Scheduling appends a request; `cancelAllScheduledNotificationsAsync`
 * empties the store; cancelling a selection keeps the others in order. The
 * `data` record a request carries is one of the shapes the app writes, or
 * an arbitrary record from elsewhere described only by its `type` and
 * `category` string fields.
 */
module Platform {
  import opened Wrappers
  import opened Text
  import opened Seqs
  import opened ReminderPlanner

  /** `NOTIFICATION_CHANNEL_ID` */
  const ChannelId: string := "hydration_reminders"

  /** A `DATE` trigger at an instant, or a daily repeating one at a clock time. */
  datatype Trigger = At(instant: int) | Daily(hour: int, minute: int)

  datatype SnoozeKind = Initial | Snooze

  datatype Payload =
    | NoData
      /** The adaptive reminder's `{ suggestMl, nextAt, paceCategory }`. */
    | PlanData(suggestMl: real, nextAt: int, paceCategory: PaceCategory)
      /** A snooze-burst entry; only snoozes carry `scheduledFor`. */
    | SnoozeData(kind: SnoozeKind, sequenceId: string, baseTime: int,
                 scheduledFor: Option<int>, suggestMl: real, snoozeCount: nat)
      /** `{ type: 'morning_wakeup', dayOffset, targetMl }` */
    | WakeupData(dayOffset: nat, targetMl: real)
      /** Any other record, seen through its string `type` and `category` fields. */
    | OtherData(typeTag: Option<string>, category: Option<string>)

  datatype Notification = Notification(
    title: string,
    body: Message,
    data: Payload,
    trigger: Trigger,
    channel: Option<string>)

  const SnoozeCategory: string := "hydration_snooze"

  /** The `type` string field of a request's data, if it has one. */
  function TypeOf(data: Payload): Option<string> {
    match data
    case SnoozeData(kind, _, _, _, _, _) => Some(if kind == Initial then "initial" else "snooze")
    case WakeupData(_, _) => Some("morning_wakeup")
    case OtherData(typeTag, _) => typeTag
    case _ => None
  }

  /** The `category` string field of a request's data, if it has one. */
  function CategoryOf(data: Payload): Option<string> {
    match data
    case SnoozeData(_, _, _, _, _, _) => Some(SnoozeCategory)
    case OtherData(_, category) => category
    case _ => None
  }

  /**
   * The selection `cancelSnoozeReminders` cancels: the snooze category, or
   * a type of `initial` or `snooze`.
   */
  predicate IsSnoozeNotification(n: Notification) {
    CategoryOf(n.data) == Some(SnoozeCategory)
    || TypeOf(n.data) == Some("initial") || TypeOf(n.data) == Some("snooze")
  }

  /** Every request the snooze burst writes is selected; wake-up and plan requests are not. */
  lemma SnoozeSelection(n: Notification)
    ensures n.data.SnoozeData? ==> IsSnoozeNotification(n)
    ensures n.data.WakeupData? || n.data.PlanData? || n.data.NoData? ==> !IsSnoozeNotification(n)
    ensures n.data.OtherData? ==> (IsSnoozeNotification(n) <==>
      n.data.category == Some(SnoozeCategory) || n.data.typeTag in {Some("initial"), Some("snooze")})
  {
  }

  predicate NotSnooze(n: Notification) {
    !IsSnoozeNotification(n)
  }

  /** `cancelSnoozeReminders`: cancel the snooze selection, keep the rest in order. */
  function CancelSnoozeReminders(pending: seq<Notification>): (r: seq<Notification>)
    ensures forall i :: 0 <= i < |r| ==> !IsSnoozeNotification(r[i]) && r[i] in pending
    ensures forall i :: 0 <= i < |pending| && !IsSnoozeNotification(pending[i]) ==> pending[i] in r
  {
    Filter(pending, NotSnooze)
  }

  /** Cancelling the snooze selection twice cancels nothing more. */
  lemma CancelSnoozeIdempotent(pending: seq<Notification>)
    ensures CancelSnoozeReminders(CancelSnoozeReminders(pending)) == CancelSnoozeReminders(pending)
  {
    FilterIdempotent(pending, NotSnooze);
  }

  /** Every request outside the snooze selection stays, in its order and once per copy. */
  lemma CancelSnoozeKeepsOrder(pending: seq<Notification>)
    ensures KeepsInOrder(pending, NotSnooze, CancelSnoozeReminders(pending))
  {
    FilterKeepsOrder(pending, NotSnooze);
  }
}

=== FILE: profile.dfy ===
/**
 * Building a user profile from the onboarding form's text fields
 * (lib/profile.ts).
 *
 * `Number(value)` is JavaScript's string-to-number conversion; it is passed
 * in as `parse`, with `None` standing for `NaN`.
 */
module Profile {
  import opened Wrappers
  import opened Text
  import opened Types

  /** `isValidNumber`: not blank, a number, and positive. */
  predicate IsValidNumber(value: string, parse: string -> Option<real>) {
    !IsBlank(value) && parse(value).Some? && parse(value).value > 0.0
  }

  /**
   * `parseOptionalNumber`: the parsed value when the text is a positive
   * number, nothing for blank text, `NaN` or a value that is not positive.
   * It yields a value exactly when `isValidNumber` accepts the text.
   */
  function ParseOptionalNumber(value: string, parse: string -> Option<real>): (r: Option<real>)
    ensures r.Some? <==> IsValidNumber(value, parse)
    ensures r.Some? ==> r == parse(value) && r.value > 0.0
    ensures IsBlank(value) ==> r == None
  {
    if IsBlank(value) then None
    else
      match parse(value)
      case None => None
      case Some(parsed) => if parsed <= 0.0 then None else Some(parsed)
  }

  /**
   * `buildUserProfile`: `None` exactly when the weight is not a positive
   * number; otherwise the parsed weight, the height when it is a positive
   * number, and the fixed defaults (male, medium activity, 07:00 to 23:00).
   * `id` and `timezone` are the clock- and locale-derived values.
   */
  function BuildUserProfile(weight: string, height: string, parse: string -> Option<real>,
                            id: string, timezone: string): (r: Option<UserProfile>)
    ensures r.None? <==> !IsValidNumber(weight, parse)
    ensures r.Some? ==> Some(r.value.weightKg) == parse(weight) && r.value.weightKg > 0.0
    ensures r.Some? ==> r.value.heightCm == ParseOptionalNumber(height, parse)
    ensures r.Some? ==> r.value.heightCm.None? || r.value.heightCm.value > 0.0
    ensures r.Some? ==> r.value.sex == Male && r.value.activityLevel == Medium
    ensures r.Some? ==> r.value.wakeTime == "07:00" && r.value.sleepTime == "23:00"
    ensures r.Some? ==> r.value.id == id && r.value.timezone == timezone
  {
    if !IsValidNumber(weight, parse) then None
    else
      var weightKg := parse(weight).value;
      Some(UserProfile(id, weightKg, Male, ParseOptionalNumber(height, parse), Medium, "07:00", "23:00", timezone))
  }

  /** A blank weight field never builds a profile, whatever the parser says. */
  lemma BlankWeightRejected(weight: string, height: string, parse: string -> Option<real>,
                            id: string, timezone: string)
    requires IsBlank(weight)
    ensures BuildUserProfile(weight, height, parse, id, timezone) == None
  {
  }

  /** The height never decides whether a profile is built. */
  lemma HeightIsOptional(weight: string, h1: string, h2: string, parse: string -> Option<real>,
                         id: string, timezone: string)
    ensures BuildUserProfile(weight, h1, parse, id, timezone).Some?
      == BuildUserProfile(weight, h2, parse, id, timezone).Some?
  {
  }
}

=== FILE: reminder_planner.dfy ===
/**
 * The adaptive reminder planner (lib/reminderPlanner.ts): one pure decision
 * from the day's progress to the next reminder.
 *
 * In order: resolve the wake/sleep window around an effective "now"; stop when
 * nothing remains or the day is over; derive a base interval and adjust it by
 * pace, night taper and a user override; bound the suggested volume; and stop
 * instead when the next instant would not fall before sleep.
 */
module ReminderPlanner {
  import opened Wrappers
  import opened JsMath
  import opened Clock

  datatype PaceCategory = Behind | OnTrack | Ahead

  /** The planner's input. Instants are local milliseconds. */
  datatype PlanContext = PlanContext(
    targetMl: real,
    consumedMl: real,
    wake: int,
    sleep: int,
    now: int,
    reminderCount: int)

  /** The planner's output; `nextAt == None` is a terminal plan. */
  datatype PlanResult = PlanResult(
    nextAt: Option<int>,
    suggestMl: real,
    pace: real,
    paceCategory: PaceCategory,
    nextIntervalMin: int,
    remainMl: real,
    remainMin: real)

  /** Window lengths in (possibly fractional) minutes. */
  datatype Window = Window(totalMin: real, elapsedMin: real, remainMin: real)

  /** The module's private `clamp`: when the bounds cross, the lower one wins. */
  function Clamp(value: real, lo: real, hi: real): (r: real)
    ensures lo > hi ==> r == lo
    ensures lo <= hi ==> lo <= r <= hi
    ensures lo <= value <= hi ==> r == value
    ensures lo <= hi && value < lo ==> r == lo
    ensures lo <= hi && value > hi ==> r == hi
  {
    if lo > hi then lo else MinReal(MaxReal(value, lo), hi)
  }

  /** The same `clamp` applied to whole minutes. */
  function ClampInt(value: int, lo: int, hi: int): (r: int)
    ensures lo > hi ==> r == lo
    ensures lo <= hi ==> lo <= r <= hi
    ensures lo <= value <= hi ==> r == value
  {
    if lo > hi then lo else MinInt(MaxInt(value, lo), hi)
  }

  /** A duration in milliseconds as minutes. */
  function Minutes(ms: int): real {
    ms as real / MinuteMs as real
  }

  /** Reminders never fire before wake: an early `now` counts as `wake`. */
  function EffectiveNow(ctx: PlanContext): (t: int)
    ensures t >= ctx.wake && t >= ctx.now
    ensures t == ctx.now || t == ctx.wake
  {
    if ctx.now < ctx.wake then ctx.wake else ctx.now
  }

  /** Total, elapsed and remaining minutes of the waking day. */
  function DayWindow(ctx: PlanContext): (w: Window)
    ensures w.totalMin >= 1.0 && w.elapsedMin >= 0.0 && w.remainMin >= 0.0
    ensures w.remainMin == 0.0 <==> EffectiveNow(ctx) >= ctx.sleep
    ensures w.remainMin > 0.0 ==> w.remainMin == Minutes(ctx.sleep - EffectiveNow(ctx))
    ensures ctx.sleep - ctx.wake >= MinuteMs && EffectiveNow(ctx) <= ctx.sleep ==>
      w.elapsedMin + w.remainMin == w.totalMin
  {
    var effectiveNow := EffectiveNow(ctx);
    Window(
      MaxReal(Minutes(ctx.sleep - ctx.wake), 1.0),
      MaxReal(Minutes(effectiveNow - ctx.wake), 0.0),
      MaxReal(Minutes(ctx.sleep - effectiveNow), 0.0))
  }

  /**
   * The window split evenly into `count` slots, in whole minutes,
   * kept within [45, 150]. Dividing by a zero count gives +Infinity in
   * JavaScript, which the clamp turns into the upper bound.
   */
  function BaseInterval(totalMin: real, count: int): (r: int)
    requires totalMin >= 1.0
    ensures 45 <= r <= 150
    ensures count > 0 && r > 45 ==> r as real * count as real <= totalMin
    ensures count > 0 && r < 150 ==> totalMin < (r + 1) as real * count as real
    ensures count == 0 ==> r == 150
    ensures count < 0 ==> r == 45
  {
    if count == 0 then 150
    else
      var r := ClampInt(Floor(totalMin / count as real), 45, 150);
      SlotBounds(totalMin, count, r);
      r
  }

  /** A clamped whole slot length `r` still fits the window (unless raised to 45) and is maximal (unless cut to 150). */
  lemma SlotBounds(totalMin: real, count: int, r: int)
    requires count > 0 || count < 0
    requires r == ClampInt(Floor(totalMin / count as real), 45, 150)
    ensures count > 0 && r > 45 ==> r as real * count as real <= totalMin
    ensures count > 0 && r < 150 ==> totalMin < (r + 1) as real * count as real
  {
    if count > 0 {
      var slot := totalMin / count as real;
      var c := count as real;
      assert slot * c == totalMin;
      var f := Floor(slot);
      if r > 45 {
        assert r <= f;
        MulMonotone(r as real, slot, c);
      }
      if r < 150 {
        assert f <= r;
        assert slot < (r + 1) as real;
        MulMonotone(slot, (r + 1) as real, c);
        assert totalMin < (r + 1) as real * c;
      }
    }
  }

  lemma MulMonotone(a: real, b: real, c: real)
    requires a <= b && c > 0.0
    ensures a * c <= b * c
    ensures a < b ==> a * c < b * c
  {
  }

  /** Consumed volume over the volume expected by now; 1 when nothing is expected yet. */
  function Pace(ctx: PlanContext, w: Window): (pace: real)
    requires w.totalMin >= 1.0
    ensures var expected := ctx.targetMl * (w.elapsedMin / w.totalMin);
      (expected == 0.0 ==> pace == 1.0) && (expected != 0.0 ==> pace * expected == ctx.consumedMl)
  {
    var expectedMl := ctx.targetMl * (w.elapsedMin / w.totalMin);
    if expectedMl == 0.0 then 1.0 else ctx.consumedMl / expectedMl
  }

  /** Below 80% of the expected pace is behind, above 120% is ahead. */
  function Categorize(pace: real): PaceCategory {
    if pace < 0.8 then Behind else if pace > 1.2 then Ahead else OnTrack
  }

  /**
   * Behind shortens the base interval to ⌊0.7·base⌋ (which never reaches the
   * floor of 30 for a base of at least 45), ahead stretches it to ⌊1.3·base⌋
   * capped at 180, on track keeps it; the floors are stated on integers.
   */
  function PaceInterval(base: int, category: PaceCategory): (r: int)
    requires 45 <= base <= 150
    ensures category == Behind ==> 30 <= r < base && 10 * r <= 7 * base < 10 * (r + 1)
    ensures category == OnTrack ==> r == base
    ensures category == Ahead ==> base < r <= 180
    ensures category == Ahead ==>
      (r == 180 && 13 * base >= 1800) || (r < 180 && 10 * r <= 13 * base < 10 * (r + 1))
  {
    match category
    case Behind => MaxInt(30, Floor(base as real * 0.7))
    case Ahead => MinInt(180, Floor(base as real * 1.3))
    case OnTrack => base
  }

  /** In the last hour before sleep the interval becomes ⌊1.1·interval⌋, capped at 180. */
  function NightTaper(interval: int, remainMin: real): (r: int)
    requires 0 <= interval <= 180
    ensures remainMin > 60.0 ==> r == interval
    ensures remainMin <= 60.0 ==> interval <= r <= 180
    ensures remainMin <= 60.0 ==>
      (r == 180 && 11 * interval >= 1800) || (r < 180 && 10 * r <= 11 * interval < 10 * (r + 1))
  {
    if remainMin <= 60.0 then MinInt(180, Floor(interval as real * 1.1)) else interval
  }

  /** An explicit snooze preference replaces the interval, floored at 5; the result is at least 1. */
  function FinalInterval(adaptive: int, userSnoozeMin: Option<int>): (r: int)
    requires adaptive >= 30
    ensures r >= 1
    ensures userSnoozeMin.Some? ==> r == MaxInt(5, userSnoozeMin.value)
    ensures userSnoozeMin.None? ==> r == adaptive
  {
    var nextInt := if userSnoozeMin.Some? then MaxInt(5, userSnoozeMin.value) else adaptive;
    MaxInt(1, nextInt)
  }

  /** The cap on one suggestion: 400 when well behind, else 350; at most 250 in the last hour. */
  function UpperBound(pace: real, remainMin: real): (r: real)
    ensures r == 250.0 || r == 350.0 || r == 400.0
    ensures remainMin <= 60.0 ==> r == 250.0
    ensures remainMin > 60.0 ==> (r == 400.0 <==> pace < 0.7)
  {
    var dynamicUpperBound := if pace < 0.7 then 400.0 else 350.0;
    if remainMin <= 60.0 then MinReal(dynamicUpperBound, 250.0) else dynamicUpperBound
  }

  /** The remaining volume shared over the checkpoints still left today. */
  function EvenShare(remainMl: real, remainMin: real, interval: int): real
    requires interval >= 1
  {
    var notificationsLeft := MaxInt(1, Ceil(remainMin / interval as real));
    Round(remainMl / notificationsLeft as real) as real
  }

  /**
   * The suggested volume. It never exceeds what remains nor the
   * upper bound; with less than 120 ml left it is exactly the rest, otherwise
   * at least 120 ml; an even share already within bounds is taken as is.
   */
  function SuggestVolume(remainMl: real, remainMin: real, interval: int, pace: real): (r: real)
    requires remainMl > 0.0 && interval >= 1
    ensures 0.0 < r <= remainMl
    ensures r <= UpperBound(pace, remainMin)
    ensures remainMl < 120.0 ==> r == remainMl
    ensures remainMl >= 120.0 ==> r >= 120.0
    ensures var share := EvenShare(remainMl, remainMin, interval);
      MinReal(remainMl, 120.0) <= share <= MinReal(UpperBound(pace, remainMin), remainMl) ==> r == share
    ensures var share := EvenShare(remainMl, remainMin, interval);
      share > UpperBound(pace, remainMin) ==> r == MinReal(UpperBound(pace, remainMin), remainMl)
    ensures var share := EvenShare(remainMl, remainMin, interval);
      share < MinReal(remainMl, 120.0) ==> r == MinReal(remainMl, 120.0)
  {
    var upperBound := UpperBound(pace, remainMin);
    var lower := if remainMl < 120.0 then remainMl else 120.0;
    var clamped := Clamp(EvenShare(remainMl, remainMin, interval), lower, upperBound);
    MinReal(clamped, remainMl)
  }

  /**
   * `planNextReminder`. Two terminal outcomes (nothing left or the day is
   * over; the next reminder would not precede sleep) and one active outcome
   * strictly between the effective now and sleep.
   */
  function PlanNextReminder(ctx: PlanContext, userSnoozeMin: Option<int>): (r: PlanResult)
    ensures r.remainMl == MaxReal(ctx.targetMl - ctx.consumedMl, 0.0)
    ensures r.remainMin >= 0.0 && (r.remainMin == 0.0 <==> EffectiveNow(ctx) >= ctx.sleep)
    ensures r.remainMl == 0.0 || r.remainMin == 0.0 ==>
      r == PlanResult(None, 0.0, 1.0, OnTrack, 0, r.remainMl, r.remainMin)
    ensures 0.0 <= r.suggestMl <= r.remainMl
    ensures r.paceCategory == Behind <==> r.pace < 0.8
    ensures r.paceCategory == Ahead <==> r.pace > 1.2
    ensures r.nextAt.None? <==> r.nextIntervalMin == 0
    ensures r.nextAt.None? && r.remainMl > 0.0 && r.remainMin > 0.0 ==> r.suggestMl == r.remainMl
    ensures r.nextAt.Some? ==>
      && r.nextAt.value == EffectiveNow(ctx) + r.nextIntervalMin * MinuteMs
      && EffectiveNow(ctx) < r.nextAt.value < ctx.sleep
      && ctx.wake < r.nextAt.value
    ensures r.nextAt.Some? ==>
      && r.suggestMl <= UpperBound(r.pace, r.remainMin)
      && (r.remainMl < 120.0 ==> r.suggestMl == r.remainMl)
      && (r.remainMl >= 120.0 ==> r.suggestMl >= 120.0)
    ensures r.remainMl > 0.0 && r.remainMin > 0.0 ==>
      r.pace == Pace(ctx, DayWindow(ctx)) && r.paceCategory == Categorize(r.pace)
    ensures r.nextAt.Some? && userSnoozeMin.Some? ==> r.nextIntervalMin == MaxInt(5, userSnoozeMin.value)
    ensures r.nextAt.Some? && userSnoozeMin.None? ==> 30 <= r.nextIntervalMin <= 180
    ensures r.nextAt.Some? ==>
      && r.remainMl > 0.0 && r.nextIntervalMin >= 1
      && r.suggestMl == SuggestVolume(r.remainMl, r.remainMin, r.nextIntervalMin, r.pace)
    ensures r.nextAt.Some? && userSnoozeMin.None? ==>
      r.nextIntervalMin == NightTaper(PaceInterval(BaseInterval(DayWindow(ctx).totalMin, ctx.reminderCount), r.paceCategory), r.remainMin)
    // With water and time left, a reminder is booked exactly when it would fire before sleep.
    ensures r.remainMl > 0.0 && r.remainMin > 0.0 ==>
      var interval := FinalInterval(NightTaper(PaceInterval(BaseInterval(DayWindow(ctx).totalMin, ctx.reminderCount), r.paceCategory), r.remainMin), userSnoozeMin);
      (r.nextAt.Some? <==> EffectiveNow(ctx) + interval * MinuteMs < ctx.sleep)
  {
    var effectiveNow := EffectiveNow(ctx);
    var w := DayWindow(ctx);
    var remainMl := MaxReal(ctx.targetMl - ctx.consumedMl, 0.0);
    if remainMl == 0.0 || w.remainMin == 0.0 then
      PlanResult(None, 0.0, 1.0, OnTrack, 0, remainMl, w.remainMin)
    else
      var baseInt := BaseInterval(w.totalMin, ctx.reminderCount);
      var pace := Pace(ctx, w);
      var paceCategory := Categorize(pace);
      var adaptive := NightTaper(PaceInterval(baseInt, paceCategory), w.remainMin);
      var nextIntervalMin := FinalInterval(adaptive, userSnoozeMin);
      var suggestMl := SuggestVolume(remainMl, w.remainMin, nextIntervalMin, pace);
      var nextAt := effectiveNow + nextIntervalMin * MinuteMs;
      if nextAt >= ctx.sleep then
        PlanResult(None, remainMl, pace, paceCategory, 0, remainMl, w.remainMin)
      else
        PlanResult(Some(nextAt), suggestMl, pace, paceCategory, nextIntervalMin, remainMl, w.remainMin)
  }

  /** Pace categories ordered from behind to ahead. */
  function Rank(c: PaceCategory): nat {
    match c
    case Behind => 0
    case OnTrack => 1
    case Ahead => 2
  }

  /**
   * With a non-negative target, drinking more never makes the plan more
   * behind: pace and category are monotone in the consumed volume.
   */
  lemma MoreIntakeNeverMoreBehind(ctx: PlanContext, moreConsumed: real, userSnoozeMin: Option<int>)
    requires ctx.targetMl >= 0.0 && ctx.consumedMl <= moreConsumed
    ensures var r1 := PlanNextReminder(ctx, userSnoozeMin);
      var r2 := PlanNextReminder(ctx.(consumedMl := moreConsumed), userSnoozeMin);
      r1.remainMl > 0.0 && r2.remainMl > 0.0 && r1.remainMin > 0.0 ==>
        r1.pace <= r2.pace && Rank(r1.paceCategory) <= Rank(r2.paceCategory)
  {
    var ctx2 := ctx.(consumedMl := moreConsumed);
    var w := DayWindow(ctx);
    assert DayWindow(ctx2) == w;
    PaceMonotone(ctx, moreConsumed, w);
  }

  lemma PaceMonotone(ctx: PlanContext, moreConsumed: real, w: Window)
    requires ctx.targetMl >= 0.0 && ctx.consumedMl <= moreConsumed
    requires w.totalMin >= 1.0 && w.elapsedMin >= 0.0
    ensures Pace(ctx, w) <= Pace(ctx.(consumedMl := moreConsumed), w)
  {
    var expected := ctx.targetMl * (w.elapsedMin / w.totalMin);
    var frac := w.elapsedMin / w.totalMin;
    assert frac >= 0.0;
    assert expected >= 0.0 by { MulNonNegative(ctx.targetMl, frac); }
    if expected != 0.0 {
      var p1, p2 := Pace(ctx, w), Pace(ctx.(consumedMl := moreConsumed), w);
      assert p1 * expected == ctx.consumedMl;
      assert p2 * expected == moreConsumed;
      if p2 < p1 {
        MulMonotone(p2, p1, expected);
        assert false;
      }
    }
  }

  lemma MulNonNegative(a: real, b: real)
    requires a >= 0.0 && b >= 0.0
    ensures a * b >= 0.0
  {
  }

  /** An early `now` plans exactly as if it were `wake`. */
  lemma NowBeforeWakeIsWake(ctx: PlanContext, userSnoozeMin: Option<int>)
    requires ctx.now < ctx.wake
    ensures PlanNextReminder(ctx, userSnoozeMin) == PlanNextReminder(ctx.(now := ctx.wake), userSnoozeMin)
  {
    var ctx2 := ctx.(now := ctx.wake);
    assert EffectiveNow(ctx) == EffectiveNow(ctx2);
    var w := DayWindow(ctx);
    assert DayWindow(ctx2) == w;
    assert Pace(ctx, w) == Pace(ctx2, w);
  }

  /**
   * Without a snooze override and away from the last hour, an active plan's
   * interval compares with the evenly spaced base interval as its pace says.
   */
  lemma IntervalFollowsPace(ctx: PlanContext)
    ensures var r := PlanNextReminder(ctx, None);
      var base := BaseInterval(DayWindow(ctx).totalMin, ctx.reminderCount);
      r.nextAt.Some? && r.remainMin > 60.0 ==>
        && (r.paceCategory == Behind ==> r.nextIntervalMin < base)
        && (r.paceCategory == OnTrack ==> r.nextIntervalMin == base)
        && (r.paceCategory == Ahead ==> r.nextIntervalMin > base)
  {
  }

  /**
   * A 07:00-23:00 day split into 8 checkpoints, planned at wake with nothing
   * drunk: on track, next at 09:00, suggesting 350 ml.
   */
  lemma ScenarioAtWake()
    ensures PlanNextReminder(PlanContext(2950.0, 0.0, 7 * HourMs, 23 * HourMs, 7 * HourMs, 8), None)
      == PlanResult(Some(9 * HourMs), 350.0, 1.0, OnTrack, 120, 2950.0, 960.0)
  {
    var ctx := PlanContext(2950.0, 0.0, 7 * HourMs, 23 * HourMs, 7 * HourMs, 8);
    assert DayWindow(ctx) == Window(960.0, 0.0, 960.0);
    assert Floor(960.0 / 8.0) == 120;
    assert BaseInterval(960.0, 8) == 120;
    assert Ceil(960.0 / 120.0) == 8;
    assert Round(2950.0 / 8.0) == 369;
  }

  /**
   * The same day at 14:00 with only 200 ml drunk: badly behind, so the
   * interval shrinks to 84 minutes and the suggestion uses the 400 ml cap.
   */
  lemma ScenarioBehind()
    ensures PlanNextReminder(PlanContext(2950.0, 200.0, 7 * HourMs, 23 * HourMs, 14 * HourMs, 8), None)
      == PlanResult(Some(14 * HourMs + 84 * MinuteMs), 393.0, 200.0 / 1290.625, Behind, 84, 2750.0, 540.0)
  {
    var ctx := PlanContext(2950.0, 200.0, 7 * HourMs, 23 * HourMs, 14 * HourMs, 8);
    assert DayWindow(ctx) == Window(960.0, 420.0, 540.0);
    assert Floor(960.0 / 8.0) == 120;
    assert BaseInterval(960.0, 8) == 120;
    assert 2950.0 * (420.0 / 960.0) == 1290.625;
    assert Pace(ctx, DayWindow(ctx)) == 200.0 / 1290.625;
    assert Floor(120.0 * 0.7) == 84;
    assert Ceil(540.0 / 84.0) == 7;
    assert Round(2750.0 / 7.0) == 393;
  }
}

=== FILE: reminder_times.dfy ===
/**
 * `calculateReminderTimes`, written twice in the app (lib/notifications/legacy.ts
 * and lib/notifications.ts) with the same body: `count` clock times spread
 * evenly from wake towards sleep, as zero-padded `HH:MM` strings.
 */
module ReminderTimes {
  import opened Wrappers
  import opened JsMath
  import opened Text
  import opened Clock

  const MinutesPerDay: int := 1440

  /** The text an `Invalid Date` gives for both fields. */
  const InvalidTime: string := "NaN:NaN"

  /**
   * `new Date(`2000-01-01T${time}:00`)` as minutes after that day's
   * midnight. The date-time string format wants two-digit hour and minute
   * fields, and allows hour 24 only as `24:00`, the next midnight. `None`
   * is the `Invalid Date` any other text gives.
   */
  function ReadClock(time: string): (r: Option<nat>)
    ensures r.Some? ==> r.value <= MinutesPerDay
    ensures r.Some? ==> |time| == 5 && time[2] == ':'
  {
    if |time| == 5 && time[2] == ':' && IsDigits(time[..2]) && IsDigits(time[3..]) then
      var h := DigitsValue(time[..2]);
      var m := DigitsValue(time[3..]);
      if h < 24 && m < 60 then Some(h * 60 + m)
      else if h == 24 && m == 0 then Some(MinutesPerDay)
      else None
    else None
  }

  /** Minutes from wake to sleep, sleep moved a day on when it is not after wake. */
  function DaySpan(wake: nat, sleep: nat): int {
    if sleep <= wake then sleep + MinutesPerDay - wake else sleep - wake
  }

  /**
   * Minute of the day of time `i`: `i` of `count` equal steps after wake,
   * whole minutes only (the seconds a step leaves are dropped), wrapped past
   * midnight.
   */
  function SlotMinute(wake: nat, span: int, count: int, i: nat): (minute: int)
    requires count > 0
    ensures 0 <= minute < MinutesPerDay
  {
    (wake + (i * span) / count) % MinutesPerDay
  }

  /** The clock text of a minute of the day. */
  function MinuteText(minute: int): string
    requires 0 <= minute < MinutesPerDay
  {
    FormatHHMM(minute / 60, minute % 60)
  }

  /**
   * `calculateReminderTimes(wakeTime, sleepTime, count)`: `count` times (none
   * for a count that is not positive); all `NaN:NaN` when either clock
   * string is not a valid time.
   */
  function CalculateReminderTimes(wakeTime: string, sleepTime: string, count: int): (times: seq<string>)
    ensures |times| == MaxInt(count, 0)
    ensures ReadClock(wakeTime).None? || ReadClock(sleepTime).None? ==>
      forall i :: 0 <= i < |times| ==> times[i] == InvalidTime
  {
    match (ReadClock(wakeTime), ReadClock(sleepTime))
    case (Some(wake), Some(sleep)) =>
      var span := DaySpan(wake, sleep);
      seq(MaxInt(count, 0), (i: int) requires 0 <= i < MaxInt(count, 0) => MinuteText(SlotMinute(wake, span, count, i)))
    case _ =>
      seq(MaxInt(count, 0), (i: int) => InvalidTime)
  }

  /** Two decimal digits are their own zero-padded rendering. */
  lemma Pad2OfTwoDigits(d: string)
    requires |d| == 2 && IsDigits(d)
    ensures Pad2(DigitsValue(d)) == d
  {
    var a := (d[0] as int) - ('0' as int);
    var b := (d[1] as int) - ('0' as int);
    assert DigitsValue(d[..1]) == a by {
      assert d[..1][..0] == [];
    }
    assert d[..|d| - 1] == d[..1];
    var n := DigitsValue(d);
    assert n == a * 10 + b;
    if a == 0 {
      assert NatToString(n) == [DigitChar(b)];
      assert DigitChar(b) == d[1];
      assert d[0] == '0';
    } else {
      assert n / 10 == a && n % 10 == b;
      assert NatToString(n) == NatToString(a) + [DigitChar(b)];
      assert NatToString(a) == [DigitChar(a)];
      assert DigitChar(a) == d[0] && DigitChar(b) == d[1];
    }
  }

  /** A formatted clock time reads back as its minute of the day. */
  lemma ReadFormattedClock(h: nat, m: nat)
    requires h < 24 && m < 60
    ensures ReadClock(FormatHHMM(h, m)) == Some(h * 60 + m)
  {
    var s := FormatHHMM(h, m);
    var hh, mm := Pad2(h), Pad2(m);
    assert |hh| == 2 && |mm| == 2;
    assert s == hh + ":" + mm;
    assert |s| == 5 && s[2] == ':';
    assert s[..2] == hh && s[3..] == mm;
    assert IsDigits(hh) && DigitsValue(hh) == h;
    assert IsDigits(mm) && DigitsValue(mm) == m;
  }

  /** A valid clock text before midnight is the rendering of the minute it reads as. */
  lemma ClockTextIsCanonical(time: string)
    requires ReadClock(time).Some? && ReadClock(time).value < MinutesPerDay
    ensures MinuteText(ReadClock(time).value) == time
  {
    var v := ReadClock(time).value;
    var hh, mm := time[..2], time[3..];
    var h, m := DigitsValue(hh), DigitsValue(mm);
    assert v == h * 60 + m && m < 60;
    DivModUnique(v, h, m, 60);
    assert MinuteText(v) == Pad2(h) + ":" + Pad2(m);
    Pad2OfTwoDigits(hh);
    Pad2OfTwoDigits(mm);
    assert time == hh + ":" + mm;
  }

  /** Every time of a valid pair reads back as its slot's minute of the day. */
  lemma ReadTimesBack(wakeTime: string, sleepTime: string, count: int, i: nat)
    requires ReadClock(wakeTime).Some? && ReadClock(sleepTime).Some?
    requires i < MaxInt(count, 0)
    ensures var span := DaySpan(ReadClock(wakeTime).value, ReadClock(sleepTime).value);
      ReadClock(CalculateReminderTimes(wakeTime, sleepTime, count)[i])
        == Some(SlotMinute(ReadClock(wakeTime).value, span, count, i))
  {
    var wake := ReadClock(wakeTime).value;
    var span := DaySpan(wake, ReadClock(sleepTime).value);
    TimeAt(wakeTime, sleepTime, count, i);
    ReadMinuteText(SlotMinute(wake, span, count, i));
  }

  /** The clock text of a minute of the day reads back as that minute. */
  lemma ReadMinuteText(minute: int)
    requires 0 <= minute < MinutesPerDay
    ensures ReadClock(MinuteText(minute)) == Some(minute)
  {
    var h, m := minute / 60, minute % 60;
    ReadFormattedClock(h, m);
    assert h * 60 + m == minute;
  }

  /** Time `i` of a valid pair is the text of its slot's minute. */
  lemma TimeAt(wakeTime: string, sleepTime: string, count: int, i: nat)
    requires ReadClock(wakeTime).Some? && ReadClock(sleepTime).Some?
    requires i < MaxInt(count, 0)
    ensures var wake := ReadClock(wakeTime).value;
      var span := DaySpan(wake, ReadClock(sleepTime).value);
      CalculateReminderTimes(wakeTime, sleepTime, count)[i] == MinuteText(SlotMinute(wake, span, count, i))
  {
  }

  /**
   * Reading every time of a valid pair back with `split(':').map(Number)`
   * gives its slot's hour and minute.
   */
  lemma TimesParse(wakeTime: string, sleepTime: string, count: int)
    requires ReadClock(wakeTime).Some? && ReadClock(sleepTime).Some?
    ensures var times := CalculateReminderTimes(wakeTime, sleepTime, count);
      var wake := ReadClock(wakeTime).value;
      var span := DaySpan(wake, ReadClock(sleepTime).value);
      forall i :: 0 <= i < |times| ==>
        ParseHHMM(times[i]) == Some((SlotMinute(wake, span, count, i) / 60, SlotMinute(wake, span, count, i) % 60))
  {
    var times := CalculateReminderTimes(wakeTime, sleepTime, count);
    var wake := ReadClock(wakeTime).value;
    var span := DaySpan(wake, ReadClock(sleepTime).value);
    forall i | 0 <= i < |times|
      ensures ParseHHMM(times[i]) == Some((SlotMinute(wake, span, count, i) / 60, SlotMinute(wake, span, count, i) % 60))
    {
      TimeAt(wakeTime, sleepTime, count, i);
      var minute := SlotMinute(wake, span, count, i);
      ParseFormatted(minute / 60, minute % 60);
    }
  }

  /** Time 0 is the wake minute, wrapped past midnight. */
  lemma FirstSlotIsWake(wakeTime: string, sleepTime: string, count: int)
    requires count >= 1
    requires ReadClock(wakeTime).Some? && ReadClock(sleepTime).Some?
    ensures CalculateReminderTimes(wakeTime, sleepTime, count)[0]
      == MinuteText(ReadClock(wakeTime).value % MinutesPerDay)
  {
    var wake := ReadClock(wakeTime).value;
    var span := DaySpan(wake, ReadClock(sleepTime).value);
    TimeAt(wakeTime, sleepTime, count, 0);
    SlotZero(wake, span, count);
  }

  lemma SlotZero(wake: nat, span: int, count: int)
    requires count > 0
    ensures SlotMinute(wake, span, count, 0) == wake % MinutesPerDay
  {
    assert 0 * span == 0;
  }

  /** The first time is the wake time itself, unless wake is written `24:00`. */
  lemma FirstTimeIsWake(wakeTime: string, sleepTime: string, count: int)
    requires count >= 1
    requires ReadClock(wakeTime).Some? && ReadClock(sleepTime).Some?
    requires ReadClock(wakeTime).value < MinutesPerDay
    ensures CalculateReminderTimes(wakeTime, sleepTime, count)[0] == wakeTime
  {
    var wake := ReadClock(wakeTime).value;
    var times := CalculateReminderTimes(wakeTime, sleepTime, count);
    FirstSlotIsWake(wakeTime, sleepTime, count);
    assert times[0] == MinuteText(wake % MinutesPerDay);
    DivModUnique(wake, 0, wake, MinutesPerDay);
    assert times[0] == MinuteText(wake);
    ClockTextIsCanonical(wakeTime);
    assert MinuteText(wake) == wakeTime;
  }

  /** A wake time written `24:00` starts the times at `00:00`. */
  lemma MidnightWakeStartsAtZero(wakeTime: string, sleepTime: string, count: int)
    requires count >= 1
    requires ReadClock(wakeTime).Some? && ReadClock(sleepTime).Some?
    requires ReadClock(wakeTime).value == MinutesPerDay
    ensures CalculateReminderTimes(wakeTime, sleepTime, count)[0] == "00:00"
  {
    FirstSlotIsWake(wakeTime, sleepTime, count);
    MidnightText();
  }

  lemma MidnightText()
    ensures MinuteText(0) == "00:00"
  {
    assert Pad2(0) == "00";
  }

  /** The span between valid clock times is at most a day, and positive unless wake is `24:00`. */
  lemma SpanBounds(wake: nat, sleep: nat)
    requires wake <= MinutesPerDay && sleep <= MinutesPerDay
    ensures 0 <= DaySpan(wake, sleep) <= MinutesPerDay
    ensures wake < MinutesPerDay ==> DaySpan(wake, sleep) > 0
  {
  }

  /**
   * The steps are spread over the span: step `i` lies in `[0, span)` for a
   * positive span, and a later time never has a smaller step.
   */
  lemma StepsSpread(span: int, count: int, i: nat, j: nat)
    requires span > 0 && count > 0
    requires i <= j < count
    ensures 0 <= (i * span) / count <= (j * span) / count < span
  {
    MulMonotone(i, j, span);
    DivMonotone(i * span, j * span, count);
    var q := (j * span) / count;
    assert q < span by {
      QuotientBelow(j, span, count);
    }
  }

  /** Fewer than `count` shares of `span`, divided by `count`, stay below `span`. */
  lemma QuotientBelow(j: nat, span: int, count: int)
    requires span > 0 && j < count
    ensures (j * span) / count < span
  {
    var n := j * span;
    var q, r := n / count, n % count;
    assert n == q * count + r;
    MulMonotone(j, count - 1, span);
    assert (count - 1) * span == count * span - span;
    if q >= span {
      MulMonotone(span, q, count);
      assert false;
    }
  }

  lemma MulMonotone(a: int, b: int, c: int)
    requires a <= b && c >= 0
    ensures a * c <= b * c
  {
    assert b * c - a * c == (b - a) * c;
  }

  lemma DivMonotone(a: int, b: int, d: int)
    requires 0 <= a <= b && d > 0
    ensures 0 <= a / d <= b / d
  {
    var qa, qb := a / d, b / d;
    if qa > qb {
      ProductGap(qa, qb, d);
      assert false;
    }
  }
}

=== FILE: seqs.dfy ===
/** Array operations the app uses: `filter`, `slice(0, n)`, sums and duplicate-freedom. */
module Seqs {

  /** `s.filter(p)` */
  function Filter<T>(s: seq<T>, p: T -> bool): (r: seq<T>)
    ensures |r| <= |s|
    ensures forall i :: 0 <= i < |r| ==> p(r[i]) && r[i] in s
    ensures forall i :: 0 <= i < |s| && p(s[i]) ==> s[i] in r
  {
    if |s| == 0 then []
    else if p(s[0]) then [s[0]] + Filter(s[1..], p)
    else Filter(s[1..], p)
  }

  lemma {:induction false} FilterConcat<T>(a: seq<T>, b: seq<T>, p: T -> bool)
    ensures Filter(a + b, p) == Filter(a, p) + Filter(b, p)
    decreases |a|
  {
    if |a| > 0 {
      assert (a + b)[0] == a[0];
      assert (a + b)[1..] == a[1..] + b;
      FilterConcat(a[1..], b, p);
    } else {
      assert a + b == b;
    }
  }

  /**
   * `r` is `s` with the elements failing `p` taken out and nothing else
   * changed: a passing `s[i]` sits in `r` right after the survivors of
   * `s[..i]`, and each value occurs in `r` as often as in `s` when it passes
   * and not at all otherwise. Together the two pin `r` down.
   */
  ghost predicate KeepsInOrder<T(!new)>(s: seq<T>, p: T -> bool, r: seq<T>) {
    && (forall i :: 0 <= i < |s| && p(s[i]) ==>
          |Filter(s[..i], p)| < |r| && r[|Filter(s[..i], p)|] == s[i])
    && (forall x :: multiset(r)[x] == if p(x) then multiset(s)[x] else 0)
  }

  /** `filter` keeps the order and the copies of what passes. */
  lemma FilterKeepsOrder<T(!new)>(s: seq<T>, p: T -> bool)
    ensures KeepsInOrder(s, p, Filter(s, p))
  {
    FilterPlacement(s, p);
    FilterCount(s, p);
  }

  lemma FilterPlacement<T>(s: seq<T>, p: T -> bool)
    ensures forall i :: 0 <= i < |s| && p(s[i]) ==>
      |Filter(s[..i], p)| < |Filter(s, p)| && Filter(s, p)[|Filter(s[..i], p)|] == s[i]
  {
    forall i | 0 <= i < |s| && p(s[i])
      ensures |Filter(s[..i], p)| < |Filter(s, p)| && Filter(s, p)[|Filter(s[..i], p)|] == s[i]
    {
      var before, from := s[..i], s[i..];
      assert s == before + from;
      FilterConcat(before, from, p);
      assert from[0] == s[i];
      assert Filter(from, p) == [s[i]] + Filter(from[1..], p);
    }
  }

  lemma {:induction false} FilterCount<T>(s: seq<T>, p: T -> bool)
    ensures forall x :: multiset(Filter(s, p))[x] == if p(x) then multiset(s)[x] else 0
    decreases |s|
  {
    if |s| > 0 {
      FilterCount(s[1..], p);
      assert s == [s[0]] + s[1..];
      assert multiset(s) == multiset([s[0]]) + multiset(s[1..]);
      if p(s[0]) {
        assert Filter(s, p) == [s[0]] + Filter(s[1..], p);
        assert multiset(Filter(s, p)) == multiset([s[0]]) + multiset(Filter(s[1..], p));
      }
    }
  }

  /** Putting `h` in front of both sides keeps `rest` filtering like `s` followed by `y`. */
  lemma FilterConsAppend<T>(h: T, s: seq<T>, rest: seq<T>, y: T, p: T -> bool)
    requires Filter(rest, p) == Filter(s, p) + Filter([y], p)
    ensures Filter([h] + rest, p) == Filter([h] + s, p) + Filter([y], p)
  {
    FilterConcat([h], rest, p);
    FilterConcat([h], s, p);
    var first := Filter([h], p);
    assert first + (Filter(s, p) + Filter([y], p)) == (first + Filter(s, p)) + Filter([y], p);
  }

  /** Filtering keeps everything when every element passes. */
  lemma {:induction false} FilterKeepsAll<T>(s: seq<T>, p: T -> bool)
    requires forall i :: 0 <= i < |s| ==> p(s[i])
    ensures Filter(s, p) == s
    decreases |s|
  {
    if |s| > 0 {
      FilterKeepsAll(s[1..], p);
    }
  }

  /** Filtering removes everything when nothing passes. */
  lemma {:induction false} FilterDropsAll<T>(s: seq<T>, p: T -> bool)
    requires forall i :: 0 <= i < |s| ==> !p(s[i])
    ensures Filter(s, p) == []
    decreases |s|
  {
    if |s| > 0 {
      FilterDropsAll(s[1..], p);
    }
  }

  /** Filtering twice by the same predicate changes nothing more. */
  lemma FilterIdempotent<T>(s: seq<T>, p: T -> bool)
    ensures Filter(Filter(s, p), p) == Filter(s, p)
  {
    FilterKeepsAll(Filter(s, p), p);
  }

  /** `s.slice(0, n)` for `n >= 0`. */
  function Take<T>(s: seq<T>, n: nat): (r: seq<T>)
    ensures |r| == if n <= |s| then n else |s|
    ensures forall i :: 0 <= i < |r| ==> r[i] == s[i]
  {
    if n <= |s| then s[..n] else s
  }

  predicate NoDuplicates<T(==)>(s: seq<T>) {
    forall i, j :: 0 <= i < j < |s| ==> s[i] != s[j]
  }

  /** Two duplicate-free sequences with no element in common concatenate to a duplicate-free one. */
  lemma ConcatNoDuplicates<T>(a: seq<T>, b: seq<T>)
    requires NoDuplicates(a) && NoDuplicates(b)
    requires forall i, j :: 0 <= i < |a| && 0 <= j < |b| ==> a[i] != b[j]
    ensures NoDuplicates(a + b)
  {
    var s := a + b;
    forall i, j | 0 <= i < j < |s|
      ensures s[i] != s[j]
    {
      if j < |a| {
        assert s[i] == a[i] && s[j] == a[j];
      } else if i >= |a| {
        assert s[i] == b[i - |a|] && s[j] == b[j - |a|];
      } else {
        assert s[i] == a[i] && s[j] == b[j - |a|];
      }
    }
  }

  /** A duplicate-free sequence is as long as the set of its elements. */
  lemma {:induction false} DistinctCardinality<T>(s: seq<T>, elements: set<T>)
    requires NoDuplicates(s)
    requires forall x :: x in s <==> x in elements
    ensures |elements| == |s|
    decreases |s|
  {
    if |s| > 0 {
      var rest := s[1..];
      assert NoDuplicates(rest);
      assert s[0] !in rest;
      assert forall x :: x in s <==> x == s[0] || x in rest;
      DistinctCardinality(rest, elements - {s[0]});
    }
  }

  /** A filter of a duplicate-free sequence is duplicate-free. */
  lemma {:induction false} FilterNoDuplicates<T>(s: seq<T>, p: T -> bool)
    requires NoDuplicates(s)
    ensures NoDuplicates(Filter(s, p))
    decreases |s|
  {
    if |s| > 0 {
      FilterNoDuplicates(s[1..], p);
      assert s[0] !in s[1..];
    }
  }

  /** Filtering by a predicate and by its negation splits the length. */
  lemma {:induction false} FilterSplitsLength<T>(s: seq<T>, p: T -> bool, q: T -> bool)
    requires forall x :: q(x) == !p(x)
    ensures |Filter(s, p)| + |Filter(s, q)| == |s|
    decreases |s|
  {
    if |s| > 0 {
      FilterSplitsLength(s[1..], p, q);
    }
  }
}

=== FILE: snooze.dfy ===
/**
 * The snooze burst (lib/notifications/snooze.ts): an initial reminder five
 * minutes after a base instant, followed by up to five snoozes at a fixed
 * interval, all tagged with one sequence id and the snooze category.
 */
module Snooze {
  import opened Wrappers
  import opened JsMath
  import opened Text
  import opened Clock
  import opened Seqs
  import opened Platform

  /** How many snoozes follow the initial reminder, and how far apart. */
  datatype SnoozeConfig = SnoozeConfig(maxSnoozes: int, intervalMinutes: int)

  /** `SNOOZE_CONFIG`: the caps every burst obeys. */
  const MaxSnoozesCap: int := 5
  const MaxIntervalMinutes: int := 30
  /** The initial reminder fires this many minutes after the base instant. */
  const FirstDelayMinutes: int := 5

  /** `getSnoozeConfigByFrequency`: the frequency tier's defaults. */
  function SnoozeConfigByFrequency(frequency: string): (c: SnoozeConfig)
    ensures frequency == "low" ==> c == SnoozeConfig(3, 15)
    ensures frequency == "high" ==> c == SnoozeConfig(7, 8)
    ensures frequency != "low" && frequency != "high" ==> c == SnoozeConfig(5, 10)
  {
    match frequency
    case "low" => SnoozeConfig(3, 15)
    case "medium" => SnoozeConfig(5, 10)
    case "high" => SnoozeConfig(7, 8)
    case _ => SnoozeConfig(5, 10)
  }

  /** A higher tier asks for more snoozes at a shorter interval. */
  lemma HigherTierSnoozesMoreOften()
    ensures SnoozeConfigByFrequency("low").maxSnoozes < SnoozeConfigByFrequency("medium").maxSnoozes
              < SnoozeConfigByFrequency("high").maxSnoozes
    ensures SnoozeConfigByFrequency("low").intervalMinutes > SnoozeConfigByFrequency("medium").intervalMinutes
              > SnoozeConfigByFrequency("high").intervalMinutes
  {
  }

  /** `SNOOZE_MESSAGES`, one per snooze. */
  const SnoozeMessages: seq<string> := [
    "まだ飲んでいませんね。今のうちに一杯どう？",
    "水分補給を忘れるとペースが遅れます。少しでも飲んでみましょう",
    "今日は残りの目標が気になりますよ。ここで200ml補給しませんか？",
    "そろそろ本気で飲まないと遅れます。軽くでも口を潤して！",
    "これが最後のリマインドです。今飲んでおくと今日が楽になります"
  ]

  const SnoozeTitle: string := "💧 水分補給リマインダー"

  /** `SnoozeOptions`; an absent optional field is `None`. */
  datatype SnoozeOptions = SnoozeOptions(
    baseTime: int,
    suggestMl: real,
    intervalMinutes: Option<int>,
    maxSnoozes: Option<int>,
    frequency: Option<string>)

  /** `SnoozeResult` */
  datatype SnoozeResult = SnoozeResult(scheduledCount: nat, nextSnoozeAt: Option<int>)

  /** `options.frequency || 'medium'`: an absent or empty frequency is medium. */
  function ResolvedFrequency(frequency: Option<string>): (f: string)
    ensures f != ""
    ensures frequency.Some? && frequency.value != "" ==> f == frequency.value
  {
    if frequency.None? || frequency.value == "" then "medium" else frequency.value
  }

  /** The interval the burst uses: the caller's or the tier's, capped at 30 minutes. */
  function ActualInterval(options: SnoozeOptions): (minutes: int)
    ensures minutes <= MaxIntervalMinutes
    ensures options.intervalMinutes.Some? && options.intervalMinutes.value <= MaxIntervalMinutes ==>
      minutes == options.intervalMinutes.value
    ensures options.intervalMinutes.None? ==> 0 < minutes <= 15
    ensures options.intervalMinutes.Some? && options.intervalMinutes.value > MaxIntervalMinutes ==>
      minutes == MaxIntervalMinutes
  {
    var config := SnoozeConfigByFrequency(ResolvedFrequency(options.frequency));
    MinInt(options.intervalMinutes.GetOr(config.intervalMinutes), MaxIntervalMinutes)
  }

  /** Initial reminder plus snoozes, capped at six notifications. */
  function TotalNotifications(options: SnoozeOptions): (total: int)
    ensures total <= MaxSnoozesCap + 1
    ensures options.maxSnoozes.Some? && options.maxSnoozes.value <= MaxSnoozesCap ==>
      total == options.maxSnoozes.value + 1
    ensures options.maxSnoozes.None? ==> 4 <= total <= 6
    ensures options.maxSnoozes.Some? && options.maxSnoozes.value > MaxSnoozesCap ==>
      total == MaxSnoozesCap + 1
  {
    var config := SnoozeConfigByFrequency(ResolvedFrequency(options.frequency));
    MinInt(options.maxSnoozes.GetOr(config.maxSnoozes) + 1, MaxSnoozesCap + 1)
  }

  /** `snooze:${baseTime.getTime()}` */
  function SequenceId(baseTime: int): string {
    "snooze:" + IntToString(baseTime)
  }

  /** `SNOOZE_MESSAGES[i] || SNOOZE_MESSAGES[SNOOZE_MESSAGES.length - 1]` */
  function SnoozeMessage(i: nat): string {
    if i < |SnoozeMessages| && SnoozeMessages[i] != "" then SnoozeMessages[i]
    else SnoozeMessages[|SnoozeMessages| - 1]
  }

  /** The instant of notification `k` of a burst: the initial one is `k == 0`. */
  function FireTime(baseTime: int, interval: int, k: nat): int {
    baseTime + (FirstDelayMinutes + k * interval) * MinuteMs
  }

  /** The initial request, five minutes after the base instant. */
  function InitialRequest(options: SnoozeOptions): Notification {
    Notification(SnoozeTitle,
                 [Lit("水分補給の時間です！"), Num(options.suggestMl), Lit("ml どうですか？")],
                 SnoozeData(Initial, SequenceId(options.baseTime), options.baseTime, None,
                            options.suggestMl, 0),
                 At(FireTime(options.baseTime, 0, 0)), None)
  }

  /** Snooze `k` (from 1), `k` intervals after the initial request. */
  function SnoozeRequest(options: SnoozeOptions, k: nat): Notification
    requires k >= 1
  {
    var at := FireTime(options.baseTime, ActualInterval(options), k);
    Notification(SnoozeTitle, [Lit(SnoozeMessage(k - 1))],
                 SnoozeData(Snooze, SequenceId(options.baseTime), options.baseTime, Some(at),
                            options.suggestMl, k),
                 At(at), None)
  }

  /**
   * The requests `scheduleSnoozeReminders` makes, in order: the initial one,
   * then `totalNotifications - 1` snoozes (none when that is not positive).
   */
  function SnoozeBurst(options: SnoozeOptions): (burst: seq<Notification>)
    ensures |burst| == MaxInt(TotalNotifications(options), 1)
    ensures 1 <= |burst| <= MaxSnoozesCap + 1
    ensures forall i :: 0 <= i < |burst| ==> burst[i].trigger.At?
  {
    var snoozes := MaxInt(TotalNotifications(options) - 1, 0);
    var rest := seq(snoozes, (i: int) requires 0 <= i => SnoozeRequest(options, i + 1));
    assert forall i :: 0 <= i < |rest| ==> rest[i].trigger.At?;
    [InitialRequest(options)] + rest
  }

  /** Every message is non-empty, so `||` keeps message `i` while it exists. */
  lemma MessageInRange(i: nat)
    requires i < |SnoozeMessages|
    ensures SnoozeMessage(i) == SnoozeMessages[i]
  {
    assert |SnoozeMessages[i]| > 0;
  }

  /** Position `k` of a burst holds snooze `k`, for `k` past the initial request. */
  lemma BurstSnooze(options: SnoozeOptions, k: nat)
    requires 1 <= k < |SnoozeBurst(options)|
    ensures SnoozeBurst(options)[k] == SnoozeRequest(options, k)
  {
  }

  /** Request `k` of a burst fires `5 + k * interval` minutes after the base instant. */
  lemma BurstTime(options: SnoozeOptions, k: nat)
    requires k < |SnoozeBurst(options)|
    ensures SnoozeBurst(options)[k].trigger == At(FireTime(options.baseTime, ActualInterval(options), k))
  {
    if k > 0 {
      BurstSnooze(options, k);
    }
  }

  /**
   * Request `k` of a burst fires `5 + k * interval` minutes after the base
   * instant, counts `k` snoozes, is the initial request exactly when `k == 0`,
   * and shares the burst's sequence id, base instant and suggestion. Snooze `k`
   * says message `k - 1`: the fallback to the last message is never taken.
   */
  lemma BurstEntries(options: SnoozeOptions, k: nat)
    requires k < |SnoozeBurst(options)|
    ensures var n := SnoozeBurst(options)[k];
      && n.trigger == At(FireTime(options.baseTime, ActualInterval(options), k))
      && n.data.SnoozeData?
      && n.data.snoozeCount == k
      && (n.data.kind == Initial <==> k == 0)
      && n.data.sequenceId == SequenceId(options.baseTime)
      && n.data.baseTime == options.baseTime
      && n.data.suggestMl == options.suggestMl
      && (k > 0 ==> n.data.scheduledFor == Some(n.trigger.instant) && n.body == [Lit(SnoozeMessages[k - 1])])
      && IsSnoozeNotification(n)
      && n.title == SnoozeTitle && n.channel.None?
  {
    BurstTime(options, k);
    if k > 0 {
      BurstSnooze(options, k);
      MessageInRange(k - 1);
    }
  }

  /** With a positive interval the burst's instants strictly increase. */
  lemma BurstTimesIncrease(options: SnoozeOptions, i: nat, j: nat)
    requires ActualInterval(options) > 0
    requires i < j < |SnoozeBurst(options)|
    ensures SnoozeBurst(options)[i].trigger.instant < SnoozeBurst(options)[j].trigger.instant
  {
    BurstTime(options, i);
    BurstTime(options, j);
    FireTimeIncreases(options.baseTime, ActualInterval(options), i, j);
  }

  lemma FireTimeIncreases(baseTime: int, interval: int, i: nat, j: nat)
    requires interval > 0 && i < j
    ensures FireTime(baseTime, interval, i) < FireTime(baseTime, interval, j)
  {
    var a, b := FirstDelayMinutes + i * interval, FirstDelayMinutes + j * interval;
    assert b - a == (j - i) * interval;
    assert b - a > 0;
    assert b * MinuteMs - a * MinuteMs == (b - a) * MinuteMs;
  }

  /** `high` asks for seven snoozes but gets five, as many as `medium`. */
  lemma HighTierIsCapped(options: SnoozeOptions)
    requires options.maxSnoozes.None?
    requires ResolvedFrequency(options.frequency) in {"medium", "high"}
    ensures |SnoozeBurst(options)| == MaxSnoozesCap + 1
  {
  }

  datatype SnoozeOutcome = SnoozeOutcome(result: SnoozeResult, pending: seq<Notification>)

  /**
   * `scheduleSnoozeReminders`. Without permission: `(0, null)` and nothing
   * changes. Otherwise the snooze selection is cancelled and the burst is
   * scheduled request by request. When the platform rejects request
   * `failAt`, the error is caught: the result is `(0, null)` and the requests
   * made before it stay scheduled. On success the result counts the whole
   * burst and names the first snooze's instant, if there is a snooze.
   */
  function ScheduleSnoozeReminders(hasPermission: bool, failAt: Option<nat>, options: SnoozeOptions,
                                   pending: seq<Notification>): (out: SnoozeOutcome)
    ensures !hasPermission ==> out == SnoozeOutcome(SnoozeResult(0, None), pending)
    ensures hasPermission ==>
      var kept := CancelSnoozeReminders(pending);
      var burst := SnoozeBurst(options);
      && (failAt.Some? && failAt.value < |burst| ==>
            out == SnoozeOutcome(SnoozeResult(0, None), kept + burst[..failAt.value]))
      && (failAt.None? || failAt.value >= |burst| ==>
            && out.pending == kept + burst
            && out.result.scheduledCount == |burst|
            && out.result.scheduledCount == MaxInt(TotalNotifications(options), 1))
    ensures hasPermission && (failAt.None? || failAt.value >= |SnoozeBurst(options)|) ==>
      && (out.result.nextSnoozeAt.Some? <==> TotalNotifications(options) >= 2)
      && (out.result.nextSnoozeAt.Some? ==>
            out.result.nextSnoozeAt.value
              == options.baseTime + (FirstDelayMinutes + ActualInterval(options)) * MinuteMs)
  {
    if !hasPermission then SnoozeOutcome(SnoozeResult(0, None), pending)
    else
      var kept := CancelSnoozeReminders(pending);
      var burst := SnoozeBurst(options);
      if failAt.Some? && failAt.value < |burst| then
        SnoozeOutcome(SnoozeResult(0, None), kept + burst[..failAt.value])
      else
        var next := if |burst| > 1 then FirstSnoozeTime(options); Some(burst[1].trigger.instant) else None;
        SnoozeOutcome(SnoozeResult(|burst|, next), kept + burst)
  }

  /**
   * What a granted burst leaves in an empty store: a prefix of the burst,
   * all of it when the platform accepts every request.
   */
  function BurstOnEmptyStore(failAt: Option<nat>, options: SnoozeOptions): (s: seq<Notification>)
    ensures var burst := SnoozeBurst(options);
      && |s| <= |burst| && s == burst[..|s|]
      && (failAt.None? ==> s == burst)
  {
    var empty: seq<Notification> := [];
    assert CancelSnoozeReminders(empty) == [];
    ScheduleSnoozeReminders(true, failAt, options, empty).pending
  }

  /** The first snooze fires one interval after the initial request. */
  lemma FirstSnoozeTime(options: SnoozeOptions)
    requires |SnoozeBurst(options)| > 1
    ensures SnoozeBurst(options)[1].trigger.instant
      == options.baseTime + (FirstDelayMinutes + ActualInterval(options)) * MinuteMs
  {
    BurstTime(options, 1);
  }

  /** Every request the burst writes is in the snooze selection. */
  lemma BurstIsSnoozeSelection(options: SnoozeOptions)
    ensures forall k :: 0 <= k < |SnoozeBurst(options)| ==> IsSnoozeNotification(SnoozeBurst(options)[k])
  {
    forall k | 0 <= k < |SnoozeBurst(options)|
      ensures IsSnoozeNotification(SnoozeBurst(options)[k])
    {
      BurstEntries(options, k);
    }
  }

  /**
   * Scheduling a burst replaces the previous one: after a successful call the
   * requests outside the snooze selection are those of before, and a second
   * successful call with the same options leaves the store as the first did.
   */
  lemma RescheduleReplacesBurst(options: SnoozeOptions, pending: seq<Notification>)
    ensures var once := ScheduleSnoozeReminders(true, None, options, pending).pending;
      && CancelSnoozeReminders(once) == CancelSnoozeReminders(pending)
      && ScheduleSnoozeReminders(true, None, options, once).pending == once
  {
    var kept := CancelSnoozeReminders(pending);
    var burst := SnoozeBurst(options);
    BurstIsSnoozeSelection(options);
    FilterConcat(kept, burst, NotSnooze);
    FilterDropsAll(burst, NotSnooze);
    CancelSnoozeIdempotent(pending);
    assert CancelSnoozeReminders(kept + burst) == kept;
  }
}

=== FILE: text.dfy ===
/**
 * Strings as the app builds them: decimal renderings of whole numbers,
 * `padStart(2, '0')`, the JavaScript white-space class used by `trim` and
 * `parseInt`, and message texts whose non-integral numbers stay symbolic.
 */
module Text {

  predicate IsDigit(c: char) {
    '0' <= c <= '9'
  }

  predicate IsDigits(s: string) {
    forall i :: 0 <= i < |s| ==> IsDigit(s[i])
  }

  function DigitChar(d: nat): (c: char)
    requires d < 10
    ensures IsDigit(c) && (c as int) - ('0' as int) == d
  {
    "0123456789"[d]
  }

  /** The number a string of decimal digits denotes (most significant first). */
  function DigitsValue(s: string): nat
    requires IsDigits(s)
  {
    if |s| == 0 then 0
    else DigitsValue(s[..|s| - 1]) * 10 + ((s[|s| - 1] as int) - ('0' as int))
  }

  /** `n.toString()` for a whole number: decimal digits without leading zeros. */
  function NatToString(n: nat): (s: string)
    ensures |s| >= 1 && IsDigits(s)
    ensures DigitsValue(s) == n
    ensures |s| > 1 ==> s[0] != '0'
    ensures (n < 10) == (|s| == 1)
    ensures n < 100 ==> |s| <= 2
    decreases n
  {
    if n < 10 then [DigitChar(n)]
    else
      var prefix := NatToString(n / 10);
      assert (prefix + [DigitChar(n % 10)])[..|prefix|] == prefix;
      prefix + [DigitChar(n % 10)]
  }

  /** `i.toString()` for an integer. */
  function IntToString(i: int): (s: string)
    ensures |s| >= 1
    ensures i >= 0 ==> s == NatToString(i)
    ensures i < 0 ==> s == "-" + NatToString(-i)
  {
    if i < 0 then "-" + NatToString(-i) else NatToString(i)
  }

  /** `n.toString().padStart(2, '0')` */
  function Pad2(n: nat): (s: string)
    ensures IsDigits(s)
    ensures n < 100 ==> |s| == 2
    ensures DigitsValue(s) == n
  {
    var t := NatToString(n);
    if |t| >= 2 then t
    else
      var s := "0" + t;
      assert s[..|s| - 1] == "0";
      s
  }

  /** Length of the longest prefix of decimal digits. */
  function LeadingDigits(s: string): (k: nat)
    ensures k <= |s| && IsDigits(s[..k])
    ensures k < |s| ==> !IsDigit(s[k])
  {
    if |s| == 0 || !IsDigit(s[0]) then 0
    else
      var k := 1 + LeadingDigits(s[1..]);
      assert s[..k] == [s[0]] + s[1..][..k - 1];
      k
  }

  /** Reading the digits back off `digits + rest` stops exactly where `rest` starts. */
  lemma {:induction false} LeadingDigitsOfConcat(digits: string, rest: string)
    requires IsDigits(digits)
    requires |rest| == 0 || !IsDigit(rest[0])
    ensures LeadingDigits(digits + rest) == |digits|
    decreases |digits|
  {
    if |digits| > 0 {
      assert (digits + rest)[1..] == digits[1..] + rest;
      LeadingDigitsOfConcat(digits[1..], rest);
    }
  }

  /**
   * The JavaScript white-space and line-terminator characters, which
   * `String.prototype.trim` and `parseInt` skip.
   */
  predicate IsJsWhitespace(c: char) {
    c == ' ' || c == '\t' || c == '\n' || c == '\r' || c == '\U{000B}' || c == '\U{000C}'
    || c == '\U{00A0}' || c == '\U{1680}' || ('\U{2000}' <= c <= '\U{200A}')
    || c == '\U{2028}' || c == '\U{2029}' || c == '\U{202F}' || c == '\U{205F}'
    || c == '\U{3000}' || c == '\U{FEFF}'
  }

  /** `!s.trim()`: the string is empty once white space is removed. */
  predicate IsBlank(s: string) {
    forall i :: 0 <= i < |s| ==> IsJsWhitespace(s[i])
  }

  /**
   * A piece of a message body. Whole numbers the app formats itself are
   * rendered into `Lit` pieces; a real-valued volume interpolated with a
   * template literal stays a `Num` piece, since JavaScript's rendering of
   * arbitrary numbers is not part of this model.
   */
  datatype Piece = Lit(s: string) | Num(x: real)

  type Message = seq<Piece>
}

=== FILE: types.dfy ===
/**
 * The app's records (types/index.ts) as immutable datatypes.
 *
 * Dates are local calendar-day numbers (`Clock.CalendarDay`), instants are
 * local milliseconds, volumes are reals.
 */
module Types {
  import opened Wrappers

  /** `'low' | 'medium' | 'high'`, shared by activity levels and notification frequencies. */
  datatype Level = Low | Medium | High {
    function Name(): string {
      match this
      case Low => "low"
      case Medium => "medium"
      case High => "high"
    }
  }

  datatype Sex = Male | Female | Other

  datatype UserProfile = UserProfile(
    id: string,
    weightKg: real,
    sex: Sex,
    heightCm: Option<real>,
    activityLevel: Level,
    wakeTime: string,
    sleepTime: string,
    timezone: string)

  datatype Algorithm = V1 | Manual

  datatype DailyGoal = DailyGoal(date: int, targetMl: real, algorithm: Algorithm, manualOverride: bool)

  datatype IntakeSource = Quick | Custom

  /** An intake event; `dateTime` is the local instant the ISO string denotes. */
  datatype IntakeLog = IntakeLog(
    id: string,
    dateTime: int,
    amountMl: real,
    source: IntakeSource,
    note: Option<string>)

  datatype VolumeUnit = Ml | Oz

  datatype Language = Ja | En

  datatype Theme = Light | Dark | SystemTheme

  /** A `{ start, end }` pair of clock strings. */
  datatype TimeRange = TimeRange(start: string, end: string)

  datatype Settings = Settings(
    units: VolumeUnit,
    presetMl: seq<real>,
    snoozeMinutes: int,
    quietHours: seq<TimeRange>,
    analyticsOptIn: bool,
    language: Language,
    theme: Theme)

  datatype WorkType = Desk | Active | Mixed | Student | Freelance

  datatype MealTimes = MealTimes(breakfast: string, lunch: string, dinner: string)

  datatype Lifestyle = Lifestyle(
    workType: WorkType,
    workHours: TimeRange,
    breakTimes: seq<string>,
    mealTimes: MealTimes,
    weekendMode: bool)

  datatype NotificationPattern = NotificationPattern(
    frequency: Level,
    preferredTimes: seq<string>,
    quietHours: seq<TimeRange>,
    weekendMode: bool,
    adaptiveMode: bool)

  datatype LearningData = LearningData(
    mostActiveHours: seq<string>,
    averageIntakeTimes: seq<string>,
    skippedNotifications: seq<string>,
    successfulReminders: seq<string>,
    lastUpdated: string)

  datatype PersonalizedSettings = PersonalizedSettings(
    lifestyle: Lifestyle,
    notificationPattern: NotificationPattern,
    learningData: LearningData)

  datatype AppState = AppState(
    userProfile: Option<UserProfile>,
    dailyGoal: Option<DailyGoal>,
    todayIntake: seq<IntakeLog>,
    settings: Settings,
    personalizedSettings: Option<PersonalizedSettings>,
    isOnboarded: bool,
    notificationPermission: bool)
}

=== FILE: unit_converter.dfy ===
/** Millilitre and fluid-ounce conversion and labels (lib/unitConverter.ts). */
module UnitConverter {
  import opened JsMath
  import opened Text
  import opened Types

  const OzPerMl: real := 0.033814
  const MlPerOz: real := 29.5735

  /**
   * `convertMlToOz`: ounces rounded to one decimal place, so within 0.05 oz
   * of the exact conversion and a whole number of tenths.
   */
  function ConvertMlToOz(ml: real): (oz: real)
    ensures -0.05 < oz - ml * OzPerMl <= 0.05
    ensures oz * 10.0 == (oz * 10.0).Floor as real
  {
    var tenths := Round(ml * OzPerMl * 10.0);
    assert tenths as real / 10.0 * 10.0 == tenths as real;
    tenths as real / 10.0
  }

  /** `convertOzToMl`: whole millilitres, within half a millilitre of the exact conversion. */
  function ConvertOzToMl(oz: real): (ml: int)
    ensures -0.5 < ml as real - oz * MlPerOz <= 0.5
  {
    Round(oz * MlPerOz)
  }

  /**
   * Converting a volume of up to ten litres to ounces and back lands within
   * 2 ml of where it started: 0.05 oz of rounding is under 1.5 ml, the two
   * factors are not exact inverses (under 0.02 ml at ten litres), and the
   * final rounding adds at most half a millilitre.
   */
  lemma MlRoundTrip(ml: real)
    requires 0.0 <= ml <= 10000.0
    ensures -2.0 <= ConvertOzToMl(ConvertMlToOz(ml)) as real - ml <= 2.0
  {
    var oz := ConvertMlToOz(ml);
    var back := ConvertOzToMl(oz);
    var e := oz - ml * OzPerMl;
    assert oz * MlPerOz == ml * (OzPerMl * MlPerOz) + e * MlPerOz;
    assert 0.99999 <= OzPerMl * MlPerOz <= 1.0;
    assert -0.05 * MlPerOz <= e * MlPerOz <= 0.05 * MlPerOz;
    assert ml * (OzPerMl * MlPerOz) <= ml;
    assert ml * (OzPerMl * MlPerOz) >= ml * 0.99999;
  }

  /** `formatVolume`: the ounce value with "oz", or the millilitres with "ml". */
  function FormatVolume(ml: real, unit: VolumeUnit): (m: Message)
    ensures |m| == 2 && m[1] == Lit(GetUnitShortLabel(unit))
    ensures unit == Oz ==> m[0] == Num(ConvertMlToOz(ml))
    ensures unit == Ml ==> m[0] == Num(ml)
  {
    if unit == Oz then [Num(ConvertMlToOz(ml)), Lit("oz")] else [Num(ml), Lit("ml")]
  }

  /** `formatVolumeWithUnit`: as `formatVolume`, with the Japanese unit names. */
  function FormatVolumeWithUnit(ml: real, unit: VolumeUnit): (m: Message)
    ensures |m| == 2 && m[0] == FormatVolume(ml, unit)[0]
    ensures m[1] == Lit(if unit == Oz then "オンス" else "ミリリットル")
  {
    if unit == Oz then [Num(ConvertMlToOz(ml)), Lit("オンス")] else [Num(ml), Lit("ミリリットル")]
  }

  /** `getUnitLabel`: the Japanese unit name followed by the short label in parentheses. */
  function GetUnitLabel(unit: VolumeUnit): (text: string)
    ensures text == (if unit == Oz then "オンス" else "ミリリットル") + " (" + GetUnitShortLabel(unit) + ")"
  {
    if unit == Oz then "オンス (oz)" else "ミリリットル (ml)"
  }

  /** `getUnitShortLabel` */
  function GetUnitShortLabel(unit: VolumeUnit): (text: string)
    ensures |text| == 2 && text[1] in {'l', 'z'}
    ensures text[1] == 'z' <==> unit == Oz
    ensures unit == Oz ==> text == "oz"
    ensures unit == Ml ==> text == "ml"
  {
    if unit == Oz then "oz" else "ml"
  }

  /** Each label names one unit. */
  lemma LabelsDistinguishUnits(a: VolumeUnit, b: VolumeUnit)
    requires a != b
    ensures GetUnitLabel(a) != GetUnitLabel(b)
    ensures GetUnitShortLabel(a) != GetUnitShortLabel(b)
    ensures FormatVolume(0.0, a) != FormatVolume(0.0, b)
  {
    assert GetUnitShortLabel(a)[1] != GetUnitShortLabel(b)[1];
  }
}

=== FILE: wrappers.dfy ===
/** Optional values: JavaScript's `undefined` / `null` alternatives in one place. */
module Wrappers {

  datatype Option<+T> = None | Some(value: T) {

    /** The value, or `default` when absent (JavaScript's `x ?? default`). */
    function GetOr(default: T): T {
      match this
      case Some(v) => v
      case None => default
    }
  }
}
